=== FILE: README.md ===
# VCF_ROI inventory-to-recommendation pipeline, in Dafny

This project models the logic of VCF_ROI, a tool for planning a move off VMware. The tool turns an infrastructure inventory export into a platform recommendation. The pipeline has these stages:

- **Parsing.** An RVTools workbook, or a LiveOptics workbook in its older or newer layout, is read into one parsed record. The parsers resolve sheets and columns by synonym, normalise memory units by a magnitude heuristic, and derive power-state, OS, legacy-OS and large-VM counts. They also compute guarded ratios.
- **Health scorecard.** `calculate_health_score` gives five three-level sub-scores, flags, recommendations, a percentage and a rating.
- **Costs.** The current-state and per-platform TCO (total cost of ownership) and the ROI are calculated. A vendor quote overrides a manual price, which overrides the default.
- **Fit and discovery.** Four platform fit scorers feed the recommendation. The discovery questionnaire's signed adjustments are clamped onto the fit scores. The questionnaire also gives a renewal urgency and a maturity score.
- **Recommendation.** Fit and ROI are combined into one score. The first scenario with the highest combined score is recommended, and a manual override beats it.
- **Checks.** Input validators report hard errors and advisory warnings, and the renewal analyzer computes the cost series and the break-even month.

Every stage is a pure function over immutable datatypes:

- **Values.** Money and ratios are exact `real`s. Python's `round` is modelled concretely as round-half-to-even (`Rounding`).
- **Absent keys.** A dict key that may be absent is an `Option`.
- **Workbooks.** A workbook is a sequence of sheets, each with column names and rows of cells. A cell is a number, text or blank.
- **Messages.** The texts of flags, warnings and reasons are reduced to tags carrying the figures they quote.

Modules, in dependency order:

- **Support:** `Wrappers`, `Text`, `Rounding`, `Workbook`.
- **Parsing:** `Resolver` (both versions of `_find_col` and `_find_sheet`), `Units` (memory normalisation), `Inventory` (the parsed record and its derived fields), `Health`, `RvTools`, `LiveOptics` (the newer parser), `LegacyLiveOptics` (the older one).
- **Costs:** `Pricing`, `Tco`, `Quotes`.
- **Scoring and checks:** `Fit`, `Discovery`, `Recommendation`, `Validation`, `Renewal`.

## Model

| member | source | states |
|---|---|---|
| Text.Lower | _app/parser/liveoptics.py:183 | Lower-casing keeps the length and maps every character through the ASCII case map. |
| Text.StripLeft | _app/parser/liveoptics.py:16 | The result is a suffix of the input; every character dropped is whitespace in Python's sense (`str.isspace`, Unicode spaces included), and the result does not start with whitespace. |
| Text.StripRight | _app/parser/liveoptics.py:16 | The result is a prefix of the input; every character dropped is whitespace in Python's sense, and the result does not end with whitespace. |
| Text.Strip | _app/parser/liveoptics.py:16 | `str.strip()`: the result is an infix of the input with only whitespace before and after it, neither starting nor ending with whitespace; a string without whitespace is returned unchanged. |
| Text.ContainsAny | parser/rvtools.py:24 | `any(x in s for x in needles)`: true exactly when some needle occurs in the string. |
| Rounding.RoundHalfEven | parser/rvtools.py:153 | `round(x)`: the result is within 0.5 of x, and an exact tie goes to the even neighbour. |
| Rounding.RoundMonotone | parser/rvtools.py:153 | Rounding never reverses the order of two values. |
| Rounding.Round1 | parser/rvtools.py:55 | `round(x, 1)` is a whole number of tenths, the one nearest x (within 0.05), an exact tie going to an even number of tenths. |
| Rounding.Round2 | parser/rvtools.py:51 | `round(x, 2)` is a whole number of hundredths, the one nearest x (within 0.005), an exact tie going to an even number of hundredths. |
| Rounding.Round1Monotone | pages/6_comparison.py:31 | `round(x, 1)` keeps the order of its arguments. |
| Rounding.Round2Monotone | parser/rvtools.py:51 | `round(x, 2)` keeps the order of its arguments. |
| Rounding.Trunc | parser/rvtools.py:16 | `int(x)` truncates toward zero: the result is within one of x, on x's side of zero. |
| Workbook.SheetNames | parser/rvtools.py:7 | `xl.sheet_names`: one name per sheet, in workbook order. |
| Workbook.GetSheet | parser/rvtools.py:12 | `xl.parse(name)` returns a sheet of the workbook carrying that name. |
| Workbook.StripHeaders | _app/parser/liveoptics.py:16 | `df.columns.str.strip()` strips every header and leaves the name and rows alone. |
| Workbook.Column | parser/rvtools.py:14 | `df[name]` has one cell per data row: row i's cell under the first header equal to the name, blank for a row too short to reach it. |
| Workbook.NumericValues | _app/parser/liveoptics.py:39 | `to_numeric(errors='coerce').fillna(0)` maps each cell to its number, and text or blank to 0. |
| Workbook.SumScale | _app/parser/liveoptics.py:107-116 | Summing values expressed in a smaller unit gives the scaled sum, which lets unit conversions be stated on sums. |
| Workbook.SumNonNegative | _app/parser/liveoptics.py:152-154 | The sum of non-negative values is non-negative. |
| Workbook.CountAtLeast | _app/parser/liveoptics.py:71-73 | `(to_numeric(col) >= t).sum()` is the number of rows whose cell is a number of at least t; text and blanks (NaN) never count. |
| Workbook.CountAtLeastAntitone | _app/parser/liveoptics.py:72-73 | Raising the threshold never increases the count, so oversized VMs (16 or more vCPUs) never outnumber large ones (8 or more). |
| Workbook.CountWords | _app/parser/liveoptics.py:23-25 | `col.str.lower().isin(words).sum()` is the number of rows whose cell is text whose (lower-cased) value is one of the words. |
| Workbook.CountWordsDisjoint | _app/parser/liveoptics.py:24-25 | Counting two disjoint word sets never counts a row twice: on plus off is at most the number of VMs. |
| Workbook.Labels | parser/rvtools.py:21 | The text labels of a column are at most as many as its rows. |
| Workbook.LabelsTally | parser/rvtools.py:21 | Each text occurs among the labels exactly once per row holding it. |
| Workbook.CountWhereIsSize | _app/parser/liveoptics.py:24-25 | Summing a boolean mask row by row counts exactly the set of rows where it holds. |
| Workbook.CountContainingCells | parser/rvtools.py:37-38 | Counting the labels that contain a keyword counts exactly the text cells that contain one. |
| Workbook.CountContaining | parser/rvtools.py:37-38 | The number of labels containing a keyword is at most the number of labels. |
| Workbook.Containing | parser/rvtools.py:37-39 | The filtered labels are labels of the column that contain a keyword, as many as `CountContaining` counts. |
| Workbook.ValueCounts | parser/rvtools.py:21 | `value_counts().to_dict()`: the keys are exactly the labels, each mapped to its number of occurrences. |
| Workbook.Values | _app/parser/liveoptics.py:78 | The distinct values are exactly the non-blank cells. |
| Workbook.Nunique | _app/parser/liveoptics.py:78 | `nunique()` is the number of distinct non-blank cells: at most the number of rows, and zero exactly when every cell is blank. |
| Workbook.ValuesBound | _app/parser/liveoptics.py:78 | A column has no more distinct values than rows. |
| Resolver.Put | _app/parser/liveoptics.py:183 | Assigning a dict key keeps the keys distinct. |
| Resolver.Keys | _app/parser/liveoptics.py:183 | The normalised keys of the names, position by position. |
| Resolver.LastWithKeyMeaning | _app/parser/liveoptics.py:183 | The dict keeps, for a key, the name at the last position with that key; there is none only when no name has that key. |
| Resolver.Distinct | _app/parser/liveoptics.py:183 | The reference order of the dict's keys contains exactly the keys that occur. |
| Resolver.FirstInMeaning | _app/parser/liveoptics.py:191-193 | The first key containing a needle is found, and the search fails only when no key contains it. |
| Resolver.FirstInDistinct | _app/parser/liveoptics.py:191-193 | Iterating over the dict, where duplicate keys collapse, finds the same first containing key as iterating over all names. |
| Resolver.LookupPut | _app/parser/liveoptics.py:183 | `d[k]` after `d[k0] = v` is v for k0 and unchanged for every other key. |
| Resolver.IndexKeys | _app/parser/liveoptics.py:183 | The dict's keys, in iteration order, are the distinct keys in order of first insertion. |
| Resolver.IndexValues | _app/parser/liveoptics.py:183 | The dict's value for every key is the last name carrying that key. |
| Resolver.Index | _app/parser/liveoptics.py:183 | The dict built from all names has distinct keys. |
| Resolver.Lookup | _app/parser/liveoptics.py:186-187 | `k in d` and `d[k]`: found exactly when some item has key k, and the item found has that key. |
| Resolver.Needles | _app/parser/liveoptics.py:186 | The synonyms become keys position by position, lower-cased or as written. |
| Resolver.FirstMatch | _app/parser/liveoptics.py:185-193 | The first synonym that passes the phase's test (exact key, or substring with the length floor); none passes when it fails. |
| Resolver.ScanEntriesFirst | _app/parser/liveoptics.py:191-193 | The inner loop returns the name of the first dict item whose key contains the needle, and fails only when none does. |
| Resolver.ScanMeaning | _app/parser/liveoptics.py:191-193 | Scanning the dict equals scanning the distinct keys: the result is the last name carrying the first containing key. |
| Resolver.FindKeyed | _app/parser/liveoptics.py:182-194 | `_find_col`: the exact phase wins; only without an exact hit does the substring fallback decide; the result is one of the names. |
| Resolver.FindColWith | _app/parser/liveoptics.py:182-194 | Whatever `_find_col` returns is one of the sheet's columns. |
| Resolver.FindExact | _app/parser/liveoptics.py:175-179 | `_find_sheet`: the dict value for the first synonym that is a key; nothing when none is. |
| Resolver.FindSheetWith | _app/parser/liveoptics.py:175-179 | Whatever `_find_sheet` returns is one of the workbook's sheet names. |
| Resolver.OsColumnDivergence | parser/liveoptics.py:126-136 | The older `_find_col`, with no length floor, picks a "Host" column for the OS because "os" occurs in "host"; the newer parser picks "VM OS". |
| Resolver.SheetStripDivergence | parser/liveoptics.py:9-12 | The older `_find_sheet` does not strip sheet names, so a sheet named " VMs" is found by the newer parser only. |
| Units.VmMemoryDivisor | _app/parser/liveoptics.py:41-44 | VM memory is divided by 1024 exactly when the mean exceeds 1000, and left as is otherwise. |
| Units.HostMemoryDivisor | _app/parser/liveoptics.py:108-116 | Host memory: KiB (1024²) above a mean of 1,000,000, MiB (1024) above 1000, else GiB; the three cases partition the inputs. |
| Units.LegacyHostMemoryDivisor | parser/liveoptics.py:76-79 | The older parser divides host memory by 1024 exactly when the mean exceeds 500. |
| Units.MeanAboveLower | _app/parser/liveoptics.py:109-112 | A mean above the higher threshold is above the lower one, so the KiB branch shadows the MiB one. |
| Units.MeanAboveScaled | _app/parser/liveoptics.py:107-116 | Expressing values in a unit c times smaller multiplies the mean's threshold by c. |
| Units.HostMemoryFromKiB | _app/parser/liveoptics.py:109-111 | Host memory given in KiB with a mean above 1,000,000 comes back as the GiB total, rounded to cents. |
| Units.HostMemoryFromMiB | _app/parser/liveoptics.py:112-114 | Host memory given in MiB with a mean in the MiB band comes back as the GiB total. |
| Units.HostMemoryFromGiB | _app/parser/liveoptics.py:115-116 | Host memory already in GiB with a mean of at most 1000 comes back as its own total. |
| Units.VmMemoryFromMiB | _app/parser/liveoptics.py:41-42 | VM memory given in MiB with a mean above 1000 comes back as the GiB total. |
| Units.LegacyMisreadsLargeGiB | parser/liveoptics.py:76-77 | The older heuristic misreads hosts of 768 GiB as MiB (0.75 GB); the newer one keeps 768. |
| Units.NewerMisreadsVeryLargeGiB | _app/parser/liveoptics.py:112-114 | The newer heuristic misreads a 1536 GiB host as MiB, giving 1.5. |
| Inventory.AtLeastOne | parser/rvtools.py:89 | `max(n, 1)` as a divisor is at least 1 and at least n, and equals n for n ≥ 1. |
| Inventory.PowerCounts | _app/parser/liveoptics.py:23-25 | The on count is the number of rows whose text is an on word, the off count the number whose text is an off word; together at most the number of rows. |
| Inventory.WithPower | _app/parser/liveoptics.py:21-28 | Without a power column every VM counts as on and none as off; with one, the on and off counts are the rows whose lower-cased text is an on or an off word; nothing else changes. |
| Inventory.WindowsRatio | parser/rvtools.py:27 | The Windows ratio is non-negative, and at most 1 when the Windows VMs do not outnumber all VMs. |
| Inventory.ShareBounds | parser/rvtools.py:27 | A rounded share `round(part / max(total, 1), 2)` lies in [0, 1] when part ≤ total. |
| Inventory.WithOs | parser/rvtools.py:20-27 | The OS breakdown maps exactly the column's texts to their numbers of rows; the Windows and Linux counts are the rows whose lower-cased text contains one of their keywords; the ratio is the rounded Windows share and lies in [0, 1]; nothing else changes. |
| Inventory.LabelsMeaning | parser/rvtools.py:21 | A label is exactly a text cell of the column. |
| Inventory.WithOldOs | parser/rvtools.py:35-39 | The legacy-OS count is the rows whose lower-cased text contains a keyword; the list maps exactly the texts with a keyword to their numbers of rows; nothing else changes. |
| Inventory.ContainingMeaning | parser/rvtools.py:37-39 | Filtering keeps every matching label with all its occurrences, and nothing else. |
| Inventory.WithLarge | parser/rvtools.py:30-32 | The large count is the rows with at least 8 vCPUs, the oversized count those with at least 16; oversized ≤ large ≤ rows; nothing else changes. |
| Inventory.WithOsFields | _app/parser/liveoptics.py:46-67 | All six OS fields at once: the breakdown, Windows, Linux and legacy counts and the legacy list are the counts of the column's text cells, the ratio the rounded Windows share in [0, 1]; nothing else changes. |
| Inventory.WithStorage | _app/parser/liveoptics.py:137-162 | Each storage total is the coerced column sum rounded to cents when its column is found and kept otherwise; utilisation exactly when capacity is positive and consumption truthy, within 0.05 of the percentage. |
| Inventory.WithRatio | parser/rvtools.py:49-51 | The vCPU:pCPU ratio is set exactly when both counts are truthy (or it was already set), to the ratio rounded to cents; nothing else changes. |
| Inventory.WithDensity | parser/rvtools.py:53-55 | VM density is set exactly when VMs and hosts are both truthy (or it was already set); nothing else changes. |
| Inventory.WithUtilization | parser/rvtools.py:67-68 | Storage utilisation is set exactly when capacity is positive (and, for LiveOptics, consumption truthy); nothing else changes. |
| Inventory.UtilizationBounded | parser/rvtools.py:67-68 | Consumption within a positive capacity gives a utilisation within [0, 100]. |
| Health.Tier | parser/rvtools.py:100-135 | A higher-is-worse sub-score: critical above the critical bound, warning above the warning bound, good otherwise; exactly one holds. |
| Health.WasteLevel | parser/rvtools.py:88-98 | Powered-off share over `max(total, 1)`: critical above 20%, warning above 10%, good otherwise. |
| Health.OsLevel | parser/rvtools.py:112-123 | Legacy-OS share: critical above 20%, warning above 5%, good otherwise. |
| Health.DensityLevel | parser/rvtools.py:137-147 | Inverted polarity: above 30 good, above 15 warning, otherwise critical. |
| Health.SubScores | parser/rvtools.py:88-147 | Exactly five sub-scores in the fixed evaluation order, each flag and recommendation tagged with its own sub-score. |
| Health.FlagsOf | parser/rvtools.py:88-147 | There are never more flags than sub-scores. |
| Health.ScoresOf | parser/rvtools.py:162-163 | One score per sub-score, with its key and level. |
| Health.TotalPointsBound | parser/rvtools.py:150-152 | The points total is at most twice the number of scores. |
| Health.RatingOf | parser/rvtools.py:155-160 | Healthy at 75 or more, Needs Attention from 50 to 74, At Risk below 50. |
| Health.Assess | parser/rvtools.py:79-168 | Exactly five scores in evaluation order; recommendations ≤ flags ≤ 5; the percentage is ten times the points, in [0, 100]; the rating follows the percentage. |
| Health.Assemble | parser/rvtools.py:149-168 | Builds the scorecard from evaluated sub-scores, with the same bounds as `Assess`. |
| Health.AdviceWithinFlags | parser/rvtools.py:88-147 | Every recommendation comes from a sub-score that also raised a flag, so there are never more of them. |
| Health.PercentOfFive | parser/rvtools.py:150-153 | With five sub-scores, `round(total / 10 * 100)` is exactly ten times the points: a multiple of 10. |
| Health.FlagsFromSubScores | parser/rvtools.py:88-147 | Every flag in the list is the flag of a sub-score whose level is flagged. |
| Health.FlagsInOrder | parser/rvtools.py:88-147 | The flags appear in strictly increasing evaluation order of their sub-scores. |
| Health.FlagsFollowEvaluationOrder | parser/rvtools.py:88-147 | The scorecard's flags follow the fixed evaluation order, at most one per sub-score. |
| Health.RecommendationsHaveFlags | parser/rvtools.py:88-147 | Every recommendation is accompanied by a flag of the same sub-score. |
| Health.ScoreLevels | parser/rvtools.py:85-147 | The five levels read from the record with `data.get` defaults: powered-off and legacy shares over the VM count (default 1), the ratio (default 0) against 8 and 4, utilisation against 85 and 70, density inverted. |
| Health.MissingFieldDefaults | parser/rvtools.py:101-147 | An absent ratio scores good; an absent density scores critical and is flagged. |
| Health.DensityAdvice | parser/rvtools.py:137-147 | The density recommendation appears exactly at the warning level; the density flag exactly when the level is not good. |
| Health.AdviceListed | parser/rvtools.py:88-147 | A recommendation is listed exactly when some sub-score calls for it. |
| Health.FlagsListed | parser/rvtools.py:88-147 | A flag is listed exactly when its sub-score is not good. |
| Health.PercentOfRecord | parser/rvtools.py:149-153 | The percentage is ten times the points of the five levels read from the record. |
| Health.Monotone | parser/rvtools.py:88-153 | Of two records with the same VM count, one no worse on every input (fewer powered-off and legacy VMs, lower ratio and utilisation, higher density) never gets a lower percentage. |
| Health.RatingByPoints | parser/rvtools.py:150-160 | Healthy from 8 of 10 points, Needs Attention from 5, At Risk below. |
| RvTools.VInfo | parser/rvtools.py:10-39 | vInfo fields: the VM count is the row count; the power counts are the rows reading exactly "poweredOn" and "poweredOff" (0 without a column); the vCPU and vRAM totals are the column sums; large and OS counts are the matching rows, present exactly when their columns are; no host or storage field is touched. |
| RvTools.Classified | parser/rvtools.py:20-39 | Large counts exist exactly with a "CPUs" column and OS counts exactly with an "OS" column, each the number of matching rows; nothing else changes. |
| RvTools.VHost | parser/rvtools.py:41-55 | vHost fields: the host count is the row count; cores, sockets and host RAM are the column totals; the ratio is set exactly when vCPU and cores are truthy, density exactly when VMs and hosts are; VM fields are kept. |
| RvTools.VPartition | parser/rvtools.py:62-68 | Capacity and consumption are the GiB totals of their MB columns; utilisation is set exactly when capacity is positive; nothing else changes. |
| RvTools.Collect | parser/rvtools.py:5-69 | Each sheet's fields are present exactly when the sheet is, the cluster count being the vCluster row count; the ratio exists exactly with a vHost sheet and truthy vCPU and cores, the density exactly with a vHost sheet and truthy VMs and hosts, utilisation exactly with a positive capacity; power and large counts keep their bounds. |
| RvTools.Parse | parser/rvtools.py:3-76 | The error outcome exactly when the file cannot be opened or a present sheet has a bad column; otherwise the collected record with its scorecard. |
| LiveOptics.PowerStage | _app/parser/liveoptics.py:18-28 | VM count from the rows; without a power column every VM is on; with one, on and off are the rows whose lower-cased text is an on or off word; no other field is set. |
| LiveOptics.CpuMemoryStage | _app/parser/liveoptics.py:30-44 | With a CPU column the vCPU total is its coerced sum and the large and oversized counts are the rows with at least 8 and 16 vCPUs; VM memory exactly when a memory column is found, normalised by the VM heuristic. |
| LiveOptics.OsStage | _app/parser/liveoptics.py:46-67 | OS fields exist exactly when an OS column is found; then the breakdown, Windows, Linux and legacy counts and the legacy list are the counts of the column's text cells, and the ratio lies in [0, 1]. |
| LiveOptics.ClusterStage | _app/parser/liveoptics.py:75-78 | The cluster count is set exactly when a cluster column is found, to the number of distinct non-blank names in that column (at most its cell count); nothing else changes. `LiveOptics.VmSheet` passes it the column found on the header-stripped sheet. |
| LiveOptics.VmFields | _app/parser/liveoptics.py:18-73 | The power, CPU, memory and OS stages together: the counts and totals of the found columns, and no host, storage or cluster field. |
| LiveOptics.VmSheet | _app/parser/liveoptics.py:12-78 | On the header-stripped sheet: the power counts, vCPU total, large counts, VM memory and OS counts of the found columns, with their bounds, and the cluster count as the distinct cluster names exactly when a cluster column is found; no host or storage field is set. |
| LiveOptics.HostCounts | _app/parser/liveoptics.py:87-116 | Host count from the rows; sockets and cores are the coerced totals of their columns when found and kept otherwise; host memory, when a column is found, normalised by the three-band heuristic. |
| LiveOptics.ColumnDensity | _app/parser/liveoptics.py:118-126 | Density from a VM-count column is set exactly when its coerced sum is positive, within 0.05 of that sum over the hosts, and truthy once the sum exceeds 0.05 per host; nothing else changes. |
| LiveOptics.HostSheet | _app/parser/liveoptics.py:80-135 | The ratio is set exactly when vCPU and cores are truthy; the density fallback applies only when the column gave no truthy density; a density implies hosts. |
| LiveOptics.DensityFromColumnIsTruthy | _app/parser/liveoptics.py:124-135 | A column density from a VM sum above 0.05 per host is non-zero, so the fallback does not replace it. |
| LiveOptics.StorageSheet | _app/parser/liveoptics.py:137-162 | Capacity and consumption are set exactly when their columns are found, to their coerced sums rounded to cents; utilisation is set exactly when capacity is positive and consumption truthy, within 0.05 of the percentage; nothing else changes. |
| LiveOptics.Sheets | _app/parser/liveoptics.py:12-135 | VM and host fields exist exactly when their sheets are found, with the ratio, density and count guards. |
| LiveOptics.Collect | _app/parser/liveoptics.py:137-164 | The source is tagged "LiveOptics"; utilisation follows the storage guard; the other fields come from the VM and host sheets. |
| LiveOptics.Parse | _app/parser/liveoptics.py:4-172 | For a workbook whose column headers are text, only an unopenable file gives the error outcome; otherwise the record with its scorecard. |
| LegacyLiveOptics.PowerStage | parser/liveoptics.py:16-24 | As in the newer parser, with the two-word sets: on and off are the rows whose lower-cased text is an on or off word. |
| LegacyLiveOptics.CpuMemoryStage | parser/liveoptics.py:26-36 | With a CPU column the vCPU total is its coerced sum and the large and oversized counts are the rows with at least 8 and 16 vCPUs; VM memory exactly when its column is found. |
| LegacyLiveOptics.OsStage | parser/liveoptics.py:38-52 | OS fields exist exactly when an OS column is found; then the breakdown, Windows, Linux and legacy counts and the legacy list are the counts of the column's text cells, and the ratio lies in [0, 1]. |
| LegacyLiveOptics.VmSheet | parser/liveoptics.py:12-57 | On the header-stripped sheet: the power counts, vCPU total, large counts, VM memory and OS counts of the found columns, with their bounds; no host, storage or cluster field is set. |
| LegacyLiveOptics.HostCounts | parser/liveoptics.py:59-79 | Host count from the rows; sockets and cores are the coerced totals of their columns when found and kept otherwise; host memory normalised by the 500 threshold. |
| LegacyLiveOptics.HostSheet | parser/liveoptics.py:59-85 | The ratio is set exactly when vCPU and cores are truthy; density exactly when VMs are truthy and the sheet has rows. |
| LegacyLiveOptics.StorageSheet | parser/liveoptics.py:92-105 | Capacity and consumption are set exactly when their columns are found, to their coerced sums rounded to cents; utilisation exactly when capacity is positive and consumption truthy; nothing else changes. |
| LegacyLiveOptics.Sheets | parser/liveoptics.py:12-90 | VM, host and cluster fields exist exactly when their sheets are found, with the guards; the cluster count is the cluster sheet's row count. |
| LegacyLiveOptics.Collect | parser/liveoptics.py:92-107 | The source is tagged; utilisation follows the storage guard. |
| LegacyLiveOptics.Parse | parser/liveoptics.py:4-115 | For a workbook whose column headers are text, the error outcome exactly when the file cannot be opened or a `.str` accessor meets a non-text column; otherwise the record with its scorecard. |
| Pricing.Defaults | pricing/defaults.py:6-35 | Only Nutanix is per node (3-node minimum); the others are per core with a 16-core minimum; each has its rate and a support share in (0, 0.20]. |
| Pricing.Apply | calculator/tco.py:60-61 | `platform.update(pricing)`: each rate key the patch has replaces the platform's, the others and every other term stay. |
| Pricing.DefaultsHaveRate | calculator/tco.py:70-75 | Patched or not, a platform's terms carry the rate key its licence model reads. |
| Pricing.PatchedHardware | calculator/tco.py:6-9 | `HARDWARE.copy().update(patch)`: each of the five hardware keys is the patched value when the patch has it and the default otherwise; no patch gives the defaults. |
| Tco.CurrentExact | calculator/tco.py:3-36 | Current-state costs: hardware refresh pro-rated over the cycle, facilities, FTEs, vSphere at 50 per core, 20% hardware support; the total is their sum and the annual average times the years gives it back. |
| Tco.CurrentTco | calculator/tco.py:38-47 | Every reported figure (hardware, facilities, FTE, licensing, support, total, annual average) is within half a cent of the exact one; the years are reported as given. |
| Tco.CalculateCurrentTco | calculator/tco.py:3-47 | `calculate_current_tco` fails (ZeroDivisionError) exactly when the years or the refresh cycle are 0; otherwise it returns the rounded current costs. |
| Tco.CurrentMissingCores | calculator/tco.py:30-31 | A missing core count is taken as 20 cores per host. |
| Tco.CurrentScalesWithYears | calculator/tco.py:12-46 | Every current cost is proportional to the period: the total for y years is y times the one-year total, and the annual average does not depend on y. |
| Tco.CurrentTotalScales | calculator/tco.py:12-36 | The current-state total for y years is y times the one-year total. |
| Tco.EffectiveHosts | calculator/tco.py:80-81 | `max(round(hosts * efficiency), 3)`: the rounded count when that is at least three, and exactly three otherwise. |
| Tco.LicensingFloor | calculator/tco.py:69-75 | The licence bills at least the minimum units and at least the actual units. |
| Tco.PlatformOn | calculator/tco.py:50-96 | Platform costs for a given consolidated host count: licence on the floored units, support as a share of it, hardware and facilities on the consolidated hosts, reduced FTEs, 2500 per original host implementation; the total is their sum and the annual average times the years gives it back. |
| Tco.PlatformExact | calculator/tco.py:80-82 | The consolidated host count is `max(round(hosts * efficiency), 3)`, and the costs are those of that consolidated estate. |
| Tco.HardwareScales | calculator/tco.py:18 | The hardware refresh for y years is y times the one-year refresh. |
| Tco.FacilitiesScale | calculator/tco.py:21-23 | Power and datacenter costs for y years are y times the one-year cost. |
| Tco.AnnualAverage | calculator/tco.py:46 | The annual average times the number of years gives back the total. |
| Tco.PlatformTco | calculator/tco.py:98-110 | Every reported cost is within half a cent of the exact one, the implementation cost exactly; platform, years and effective hosts are reported as computed. |
| Tco.CalculatePlatformTco | calculator/tco.py:50-110 | `calculate_platform_tco` fails exactly when the years or the refresh cycle are 0; otherwise it returns the rounded platform costs. |
| Tco.RoundImplementation | calculator/tco.py:94-105 | The implementation cost is whole dollars, so rounding keeps it. |
| Tco.VcfCoreFloor | calculator/tco.py:70-72 | Ten VCF cores are billed as sixteen: 16 × 150 × 3 = 7200 over the default three years. |
| Tco.OverrideReplacesRate | calculator/tco.py:60-72 | A per-core pricing override replaces the default rate in the licence. |
| Tco.LicensingMonotone | calculator/tco.py:69-75 | A larger estate never costs less to license. |
| Tco.CalculateRoi | calculator/tco.py:113-129 | Positive exactly when the platform saves money; savings and ROI% within rounding of the exact values; payback 999 without savings, else implementation over monthly savings. |
| Tco.EqualTotals | calculator/tco.py:113-129 | Equal totals give no savings, 0% ROI and the 999 payback sentinel. |
| Quotes.QuotedRate | _app/pages/5_scenarios.py:19-37 | A contract total is spread over the units to within a cent; a per-unit quote is taken as is. |
| Quotes.PricingOverride | _app/pages/5_scenarios.py:11-39 | Without an effective quote the manual override is returned unchanged; with one, the rate key of the platform's licence model is set to the quoted rate and the other key is kept. |
| Quotes.ManualOverride | _app/pages/5_scenarios.py:11-17 | The manual override the page builds makes the platform's rate the price entered. |
| Quotes.Precedence | _app/pages/5_scenarios.py:11-39 | The rate the calculator uses: the quoted rate when a quote takes effect, else the manual price, else the default. |
| Quotes.QuoteBeatsManual | _app/pages/5_scenarios.py:16-37 | With a manual price in place, an effective quote still wins. |
| Quotes.ContractTotalRoundTrip | _app/pages/5_scenarios.py:28-32 | The spread rate times the units gives back the contract total, up to half a cent per unit. |
| Fit.Scored | calculator/platforms/vcf.py:31-44 | Base plus three gated awards, capped at 100: each award's reason is cited exactly when its condition holds, in order. |
| Fit.ThreeAwards | calculator/platforms/vcf.py:34-42 | The reasons of three awards are in order, cite exactly the met conditions, and their points add up. |
| Fit.LinuxShare | _app/calculator/platforms/nutanix.py:32 | `linux_vms / max(total_vms, 1)` is non-negative, and at most 1 when the Linux VMs are no more than the total. |
| Fit.VcfFit | calculator/platforms/vcf.py:26-53 | Score 25 plus 30 (Windows share > 0.6), 25 (density > 20), 20 (vCPU ratio < 6), defaults 0.5, 0 and 4; in [25, 100]; reasons cited exactly for met conditions, in order. |
| Fit.NutanixFit | _app/calculator/platforms/nutanix.py:24-43 | Score 20 plus 25 (Linux share > 0.4), 25 (hosts ≤ 20), 20 (Windows share < 0.7); in [20, 90]; reasons exactly for met conditions. |
| Fit.OpenShiftFit | _app/calculator/platforms/openshift.py:25-44 | Score 10 plus 35 (Linux share > 0.5), 25 (Windows share < 0.4), 15 (more than 10 legacy VMs); in [10, 85]. |
| Fit.AzureFit | _app/calculator/platforms/azure_stack.py:25-42 | Score 15 plus 35 (Windows share > 0.7), 20 (hosts ≤ 16), 15 (Windows share > 0.5); in [15, 85]. |
| Fit.PlatformFit | _app/pages/5_scenarios.py:214-235 | Every platform's fit names its platform, scores within [0, 100] and lists its reasons in scoring order. |
| Fit.AzureWindowsImpliesMicrosoft | _app/calculator/platforms/azure_stack.py:32-39 | A Windows share above 0.7 also passes the 0.5 test, so the first Azure reason never comes alone. |
| Fit.EmptyRecordVcf | calculator/platforms/vcf.py:27-44 | On an empty record VCF scores 45 with one reason (the vCPU default of 4 is below 6). |
| Fit.EmptyRecordNutanix | _app/calculator/platforms/nutanix.py:24-43 | On an empty record Nutanix scores 65 with two reasons. |
| Fit.EmptyRecordOpenShift | _app/calculator/platforms/openshift.py:25-44 | On an empty record OpenShift scores its base of 10 with no reason. |
| Fit.EmptyRecordAzure | _app/calculator/platforms/azure_stack.py:25-42 | On an empty record Azure Stack scores 35 with one reason. |
| Fit.Clamp | _app/pages/5_scenarios.py:242 | `max(0, min(x, 100))` lies in [0, 100], is x inside it and the nearer bound outside. |
| Fit.WithDiscovery | _app/pages/5_scenarios.py:237-246 | Without an adjustment the fit is unchanged; with one the score is clamped and a reason is appended exactly when the adjustment is non-zero, of the sign's kind. |
| Fit.ZeroAdjustment | _app/pages/5_scenarios.py:240-246 | A zero adjustment changes neither score nor reasons. |
| Fit.DiscoveryKeepsOrder | _app/pages/5_scenarios.py:243-246 | The discovery reason is appended after the scorer's reasons, so the reasons stay in order. |
| Discovery.Hypervisor | _app/pages/2_discovery.py:348-353 | Current hypervisor: VCF gains up to 30, Nutanix loses up to 10, Azure gains up to 20; no answer adjusts nothing. |
| Discovery.Kubernetes | _app/pages/2_discovery.py:355-361 | Kubernetes in use: VCF gains up to 10 and OpenShift up to 35; no answer adjusts nothing. |
| Discovery.Microsoft | _app/pages/2_discovery.py:363-368 | Microsoft investment: VCF gains up to 5 and Azure up to 30; no answer adjusts nothing. |
| Discovery.RedHat | _app/pages/2_discovery.py:370-375 | Red Hat investment: OpenShift gains up to 40; no answer adjusts nothing. |
| Discovery.NutanixUse | _app/pages/2_discovery.py:377-381 | Nutanix investment: Nutanix gains up to 35; no answer adjusts nothing. |
| Discovery.Skillset | _app/pages/2_discovery.py:383-391 | Team skills: VCF and Azure gain up to 25, Nutanix up to 10, OpenShift moves between −15 and +20; no answer adjusts nothing. |
| Discovery.Appetite | _app/pages/2_discovery.py:393-400 | Change appetite: VCF gains up to 20, Nutanix up to 10, OpenShift moves between −20 and +15; no answer adjusts nothing. |
| Discovery.Methodology | _app/pages/2_discovery.py:402-408 | Development methodology: Nutanix gains up to 5 and OpenShift up to 25; no answer adjusts nothing. |
| Discovery.AiMl | _app/pages/2_discovery.py:410-415 | AI/ML plans: VCF gains up to 15, Nutanix and OpenShift up to 10; no answer adjusts nothing. |
| Discovery.AppStrategy | _app/pages/2_discovery.py:417-423 | Application strategy: VCF moves between −10 and +20, Nutanix gains up to 10, OpenShift up to 25; no answer adjusts nothing. |
| Discovery.CapexOpex | _app/pages/2_discovery.py:425-428 | Spending preference: OpenShift and Azure gain up to 10; no answer adjusts nothing. |
| Discovery.Renewal | _app/pages/2_discovery.py:430-439 | VMware renewal timing: VCF gains up to 15; no answer adjusts nothing. |
| Discovery.Adjustments | _app/pages/2_discovery.py:341-441 | The summed deltas stay within VCF [−10, 140], Nutanix [−10, 80], OpenShift [−35, 180], Azure [0, 85]. |
| Discovery.UnansweredIsNeutral | _app/pages/2_discovery.py:341-347 | A questionnaire with nothing answered adjusts no platform. |
| Discovery.AdjustmentsAreTotal | _app/pages/2_discovery.py:341-441 | The adjustments are the sum, question by question in scoring order, of each question's deltas. |
| Discovery.AnswerActsAlone | _app/pages/2_discovery.py:341-441 | For every one of the twelve questions, changing only its answer changes the total by exactly the difference of that question's deltas. |
| Discovery.OnlyAnswer | _app/pages/2_discovery.py:341-441 | A questionnaire with a single answered question adjusts by exactly that question's deltas. |
| Discovery.VcfExtremes | _app/pages/2_discovery.py:341-441 | The VCF adjustment reaches both ends of its range, 140 and −10. |
| Discovery.RenewalUrgency | _app/pages/2_discovery.py:430-439 | Urgency is high within 3 or 6 months, medium within 12, low otherwise. |
| Discovery.UrgencyMatchesPoints | _app/pages/2_discovery.py:430-439 | High urgency comes exactly with +15 VCF, medium with +8, low with nothing. |
| Discovery.OverallMaturity | _app/pages/2_discovery.py:281-283 | The mean of the six sliders rounded to one decimal, within 0.05 of the exact mean. |
| Discovery.Label | _app/pages/2_discovery.py:285-293 | Foundation below 2, Advanced from 3.5, Developing between. |
| Discovery.MaturityOfSum | _app/pages/2_discovery.py:281-293 | The rounded mean crosses 2 between slider totals 11 and 12, and 3.5 between 20 and 21. |
| Discovery.MaturityBands | _app/pages/2_discovery.py:274-293 | With sliders in [1, 5] the maturity lies in [1, 5]; the label is Foundation for totals ≤ 11, Advanced for ≥ 21. |
| Discovery.Adjustment | _app/pages/5_scenarios.py:238-240 | No adjustment before the questionnaire is saved; after, the platform's component of the summed deltas, within [−35, 180]. |
| Discovery.NeutralKeepsFit | _app/pages/5_scenarios.py:237-246 | Answers whose deltas cancel leave every platform's fit score and reasons as they were. |
| Recommendation.RoiPoints | pages/6_comparison.py:29 | `min(roi / 2, 50)`: at most 50 and at most half the ROI, and equal to one of them. |
| Recommendation.Combined | pages/6_comparison.py:30-31 | The combined score is within 0.05 of 0.6 × fit + 0.4 × ROI points. |
| Recommendation.CombinedAtMost | pages/6_comparison.py:28-31 | The ROI part adds at most 20 points, even after rounding. |
| Recommendation.NotBoundedBelow | pages/6_comparison.py:28-31 | No floor: a low enough ROI drives the combined score under any bound. |
| Recommendation.NearTiesCollapse | pages/6_comparison.py:31 | Rounding turns near-ties into ties: ROI 0.1% and 0% combine to the same score. |
| Recommendation.Scores | pages/4_comparison.py:24-30 | One combined score per scenario, in insertion order. |
| Recommendation.Recommend | pages/6_comparison.py:25-32 | No scenario, no recommendation; otherwise the platform at an index no score beats and every earlier score is strictly below. |
| Recommendation.TieGoesToFirst | pages/4_comparison.py:31 | With two scenarios tied, `max` keeps the first. |
| Recommendation.OverrideFor | pages/6_comparison.py:66-74 | "Auto (Recommended)" clears the override; any other choice sets it to that platform. |
| Recommendation.FinalRecommendation | pages/6_comparison.py:35-36 | A set override is final; otherwise the computed recommendation. |
| Recommendation.OverrideWins | pages/4_comparison.py:34-35 | A chosen platform wins whatever the scores; "Auto" gives back the computed one. |
| Validation.When | _app/calculator/validation.py:14-31 | A conditional message list holds the message exactly when the condition holds. |
| Validation.ParsedErrors | _app/calculator/validation.py:13-17 | The no-VMs error exactly when VMs (default 0) are 0; the no-hosts error exactly when hosts are 0. |
| Validation.HostWarnings | _app/calculator/validation.py:20-25 | Hosts missing exactly when VMs exist without hosts; ratio too high above 16; ratio missing when it is 0 though vCPU and cores are positive. |
| Validation.VmWarnings | _app/calculator/validation.py:26-31 | No storage exactly when capacity is 0; mostly powered off above half the VMs; no OS data when VMs exist with no Windows or Linux count. |
| Validation.ValidateParsed | _app/calculator/validation.py:1-33 | The errors and then the warnings, in the source's order. |
| Validation.HostsWarningHasError | _app/calculator/validation.py:16-21 | The host-missing warning only ever comes with the no-hosts error. |
| Validation.EmptyRecordFindings | _app/calculator/validation.py:1-33 | An empty record gives both errors and only the storage warning. |
| Validation.RatioRoundsToZero | _app/calculator/validation.py:24-25 | One vCPU on 1000 cores rounds to a ratio of 0, so the "could not calculate" warning fires although a ratio was calculated. |
| Validation.ValidateTco | _app/calculator/validation.py:36-54 | No error exactly when FTEs are positive and the period is 1, 2, 3 or 5 years; each cost warning exactly at its threshold; low and high never together. |
| Validation.DefaultsPass | _app/calculator/validation.py:36-54 | The calculators' defaults (3 FTEs at 150,000, hosts at 35,000, 3 years) raise nothing. |
| Validation.PassingInputsAreComputable | _app/calculator/validation.py:51-52 | With the default refresh cycle, inputs that raise no validation error never make the calculators divide by zero. |
| Validation.QuoteWarnings | _app/calculator/validation.py:63-86 | A zero quote raises nothing; a contract total warns below 10,000 or above 50,000,000; per-core below 10 or above 1000; Nutanix per-node below 1000 or above 100,000. |
| Validation.ValidateQuotes | _app/calculator/validation.py:57-88 | Every warning of every quote is reported, and every reported warning is some quote's, naming a platform with a non-zero quote; at most one per quote. |
| Validation.AllAnswered | _app/calculator/validation.py:101-102 | The answered count reaches the number of fields exactly when every field is answered. |
| Validation.CompletionPercent | _app/calculator/validation.py:103 | `round(answered / 8 * 100)` lies within 0.5 of 12.5 per answer, in [0, 100]; at least 80 exactly with 7 or more answers, below 50 exactly with 3 or fewer. |
| Validation.OneInEight | _app/calculator/validation.py:103 | One answer in eight is 12.5%, reported as 12 by half-to-even rounding. |
| Validation.ValidateDiscovery | _app/calculator/validation.py:91-111 | An empty dict gives 0% and the not-completed warning; otherwise the percentage of the 8 key fields answered, with the barely-complete warning exactly below 50%, the mostly-complete one exactly from 50% to 79%, and none from 80%. |
| Validation.FullyAnswered | _app/calculator/validation.py:96-111 | Every key field answered gives 100% and no warning. |
| Renewal.Months | pages/3_renewal_analyzer.py:70 | The timeline's months are a multiple of 6 between 6 and 24. |
| Renewal.MonthsToRenewal | pages/3_renewal_analyzer.py:57-59 | `max(round(days / 30), 0)`: 0 up to 15 days, otherwise within half a month of days / 30. |
| Renewal.MonthsMonotone | pages/3_renewal_analyzer.py:57-59 | A later renewal date never gives fewer months. |
| Renewal.HalfMonthsRoundToEven | pages/3_renewal_analyzer.py:59 | Half months round to even: 15 days is 0 months, 45 days 2, 75 days 2. |
| Renewal.BannerFor | pages/3_renewal_analyzer.py:145-152 | Critical up to 3 months, urgent up to 6, plan now up to 12, strategic beyond. |
| Renewal.Increased | pages/3_renewal_analyzer.py:62 | The increase over the current spend is the percentage of it, and never negative for a non-negative spend and increase. |
| Renewal.RenewalTotal | pages/3_renewal_analyzer.py:63 | The renewal costs the flat term plus the increase over every year. |
| Renewal.DoNothingCost | pages/3_renewal_analyzer.py:66 | Doing nothing costs this year's spend on top of the renewal. |
| Renewal.Monthly | pages/3_renewal_analyzer.py:69 | Twelve months at the monthly rate give the increased annual spend. |
| Renewal.MigrateEnds | pages/3_renewal_analyzer.py:84-87 | Both paths start at 0; by the end of the migration the whole migration cost has been paid. |
| Renewal.ContinuousAtCompletion | pages/3_renewal_analyzer.py:84-93 | The after-migration formula gives, at the migration's last month, the value the series has there. |
| Renewal.RenewStep | pages/3_renewal_analyzer.py:76 | Renewing adds the increased monthly rate every month. |
| Renewal.MigrateStepAfter | pages/3_renewal_analyzer.py:78-93 | After the migration, migrating adds 80% of the old monthly rate every month. |
| Renewal.MigrateStepDuring | pages/3_renewal_analyzer.py:85-87 | During the migration, migrating adds the old monthly rate plus an equal share of the migration cost. |
| Renewal.GapGrows | pages/3_renewal_analyzer.py:76-93 | After the migration, with non-negative spend and increase, the advantage of migrating never shrinks from one month to the next. |
| Renewal.GapMonotone | pages/3_renewal_analyzer.py:76-93 | ...nor over any span of months. |
| Renewal.Horizon | pages/3_renewal_analyzer.py:73 | The series cover months 0 through the end of the term: at least one entry. |
| Renewal.Series | pages/3_renewal_analyzer.py:73-93 | Both series have `contract_years * 12 + 1` entries; renew[m] is m months at the increased rate, migrate[m] the migration formula. |
| Renewal.Crossover | pages/3_renewal_analyzer.py:96-100 | The first month after the migration where migrating is strictly cheaper, and none before it; no month when there is none. |
| Renewal.CrossoverIffAheadAtEnd | pages/3_renewal_analyzer.py:76-100 | A crossover exists exactly when migrating is ahead at the end of the term; once ahead, it stays ahead. |
| Renewal.BreakEven | pages/3_renewal_analyzer.py:73-100 | The month found is the first after the migration at which renewing has cost more; there is none exactly when migrating is not ahead at the end. |
| Renewal.DelayCost | pages/3_renewal_analyzer.py:224-225 | A delay costs what renewing costs over the same months. |
| Renewal.TwelveMonthDelay | pages/3_renewal_analyzer.py:225-227 | The 12-month figure, twice the 6-month one, is exactly a year of the increased spend. |
| Renewal.Savings | pages/3_renewal_analyzer.py:234-235 | The savings are the final gap between the renew and migrate paths. |
| Renewal.SavingsIffCrossover | pages/3_renewal_analyzer.py:96-100 | When the term outlasts the migration, the savings are positive exactly when a break-even month exists. |
| Renewal.NoCrossoverInShortTerm | pages/3_renewal_analyzer.py:96-100 | A one-year term with a migration of 12 months or more never has a break-even month, whatever the savings. |

## Left out

- Streamlit widgets, session state, plotly charts, the PDF and Excel exports, saved sessions and the roadmap texts: presentation and I/O with no logic the recommendation depends on.
- `date.today()`: the renewal analyzer takes the days until the renewal as an input.
- IEEE floating point: every amount is an exact real, so no float rounding error is modelled.
- Message texts: flags, recommendations, warnings and fit reasons are tags carrying the figures they quote; their wording and number formatting are not modelled.
- The platforms' `notes`, `strengths` and `considerations` lists: constant texts.
- Cells: a cell is a number, text or blank. Boolean cells and numeric-looking text (which `to_numeric` would parse) are not distinguished: text always coerces to 0.
- `str.lower()` is ASCII-only here; the Unicode case mapping is not modelled.
- Column headers: a sheet's headers are always text. A numeric or date header is not modelled.
- LiveOptics.Parse: does not model the error outcome for a numeric or date column header on a found sheet. There `columns.str.strip()` (_app/parser/liveoptics.py:16, :85, :142) or `c.lower()` in `_find_col` (:183) raises, and the source returns the error dict. Headers are text here, so that input cannot be written.
- LegacyLiveOptics.Parse: likewise, the header strip (parser/liveoptics.py:15, :62, :95) and `c.lower()` in `_find_col` (:128) raise on a numeric or date header. The source returns the error dict, which is not modelled.
- Duplicate column headers in one sheet are not modelled: a sheet's column is the first with the name.
- RVTools: summing a text column, which pandas may concatenate instead of raising, is modelled as the error outcome.
- The discovery questionnaire's answers are typed choices, with "not answered" standing for "-- Select --". Free-form values and non-string dict entries are not modelled.
- `validate_quote_inputs` reads the core and host counts but never uses them, so the model does not take the parsed record.
- `Validation.ValidateDiscovery` takes the questionnaire as a map of strings; an answer that is not a string is not modelled.
- The unrounded recommendation inline in the export pages is the same selection rule without rounding; it is not modelled separately.
- `SCORING_WEIGHTS`, `SOFT_BENEFITS` and the FTE hours and toil constants are defined but unused by the modelled logic.
- LiveOptics.OsStage: numeric OS cells are not stringified. The newer parser's legacy-OS filter uses `astype(str)`, so a numeric cell such as 2012 counts as a legacy OS there; here only text cells are tested.
- Inventory.WithOldOs: counts and lists only text cells, so it misses the numeric cells that `astype(str)` turns into text in the newer parser.
- Inventory.WithOs: the OS breakdown keys only the text cells; `value_counts()` also keys numeric cells, which the model drops. The Windows and Linux counts are unaffected, since no numeric cell's text contains their keywords.
- Tco.CurrentTco: requires non-zero years and a non-zero refresh cycle; the ZeroDivisionError the source raises otherwise is the failure outcome of `Tco.CalculateCurrentTco`.
- Tco.PlatformTco: likewise; the failure outcome is that of `Tco.CalculatePlatformTco`.
- Recommendation.Recommend: `max` over an empty dict raises; here it returns no recommendation.
- Renewal.NoCrossoverInShortTerm: the page labels a missing break-even "Within term" in that case; the label text is not modelled.

=== FILE: discovery.dfy ===
/**
 * The discovery questionnaire's scoring: the signed per-platform fit
 * adjustments its answers produce, the renewal urgency, and the overall
 * maturity score with its label. Every question contributes on its own
 * through mutually exclusive branches; an unanswered question ("-- Select --")
 * and every option no branch names contribute nothing.
 */
module Discovery {
  import opened Wrappers
  import opened Rounding
  import opened Pricing
  import opened Inventory
  import opened Fit

  /*
   * Each select box offers a fixed list of options after "-- Select --"; an
   * answer is the option chosen, `None` standing for "-- Select --".
   */
  datatype HypervisorChoice = VsphereAllIn | VspherePlusHyperV | MixedHypervisors | HyperVPrimary | KvmOther
  datatype KubernetesChoice = K8sInProduction | K8sPlanned | K8sEvaluating | K8sNo
  datatype MicrosoftChoice = MicrosoftHeavy | MicrosoftModerate | MicrosoftLight | MicrosoftMinimal
  datatype RedHatChoice = RhelPrimary | RhelAnsible | OpenShiftRunning | RhelMinimal | NotRedHat
  datatype NutanixChoice = NutanixDeployed | NutanixEvaluating | NutanixNotUsed
  datatype SkillsetChoice = VmwareAdmins | VmwarePlusLinux | LinuxDevOps | MicrosoftFocused | Generalist
  datatype AppetiteChoice = MinimalChange | ModerateChange | HighChange | AggressiveChange
  datatype MethodologyChoice = TraditionalOps | DevOps | DevSecOps | PlatformEngineering
  datatype AiMlChoice = ActiveAi | PrivateAiPlanned | AiEvaluating | PublicCloudAi
  datatype StrategyChoice = LiftAndShift | ModernizeSelectively | CloudNativeFirst | MixedStrategy
  datatype SpendChoice = CapexPreferred | OpexPreferred | FlexibleSpend | HybridSpend
  datatype RenewalChoice = Within3Months | Within6Months | Within12Months | Beyond12Months | NoVmwareRenewal

  /** The answers the adjustment table reads. */
  datatype Answers = Answers(
    hypervisor: Option<HypervisorChoice>,
    kubernetes: Option<KubernetesChoice>,
    microsoft: Option<MicrosoftChoice>,
    redhat: Option<RedHatChoice>,
    nutanix: Option<NutanixChoice>,
    skillset: Option<SkillsetChoice>,
    appetite: Option<AppetiteChoice>,
    methodology: Option<MethodologyChoice>,
    aiMl: Option<AiMlChoice>,
    appStrategy: Option<StrategyChoice>,
    capexOpex: Option<SpendChoice>,
    renewal: Option<RenewalChoice>)

  const Unanswered: Answers := Answers(None, None, None, None, None, None, None, None, None, None, None, None)

  /** Signed points per platform: the `fit_adjustments` dict, whose four keys are always present. */
  datatype Deltas = Deltas(vcf: int, nutanix: int, openshift: int, azure: int) {
    function Plus(o: Deltas): Deltas {
      Deltas(vcf + o.vcf, nutanix + o.nutanix, openshift + o.openshift, azure + o.azure)
    }
  }

  const Zero: Deltas := Deltas(0, 0, 0, 0)

  /** Each platform's entry lies between the bounds' entries for it. */
  predicate Between(r: Deltas, lo: Deltas, hi: Deltas) {
    && lo.vcf <= r.vcf <= hi.vcf
    && lo.nutanix <= r.nutanix <= hi.nutanix
    && lo.openshift <= r.openshift <= hi.openshift
    && lo.azure <= r.azure <= hi.azure
  }

  /** `fit_adjustments[platform]`. */
  function For(r: Deltas, p: Platform): int {
    match p
    case Vcf => r.vcf
    case Nutanix => r.nutanix
    case OpenShift => r.openshift
    case AzureStack => r.azure
  }

  function Hypervisor(c: Option<HypervisorChoice>): (r: Deltas)
    ensures Between(r, Deltas(0, -10, 0, 0), Deltas(30, 0, 0, 20))
    ensures c.None? ==> r == Zero
  {
    match c
    case Some(VsphereAllIn) => Deltas(30, -10, 0, 0)
    case Some(HyperVPrimary) => Deltas(0, 0, 0, 20)
    case _ => Zero
  }

  function Kubernetes(c: Option<KubernetesChoice>): (r: Deltas)
    ensures Between(r, Deltas(0, 0, 0, 0), Deltas(10, 0, 35, 0))
    ensures c.None? ==> r == Zero
  {
    match c
    case Some(K8sInProduction) => Deltas(10, 0, 35, 0)
    case Some(K8sPlanned) => Deltas(10, 0, 35, 0)
    case Some(K8sEvaluating) => Deltas(0, 0, 15, 0)
    case _ => Zero
  }

  function Microsoft(c: Option<MicrosoftChoice>): (r: Deltas)
    ensures Between(r, Deltas(0, 0, 0, 0), Deltas(5, 0, 0, 30))
    ensures c.None? ==> r == Zero
  {
    match c
    case Some(MicrosoftHeavy) => Deltas(5, 0, 0, 30)
    case Some(MicrosoftModerate) => Deltas(0, 0, 0, 15)
    case _ => Zero
  }

  function RedHat(c: Option<RedHatChoice>): (r: Deltas)
    ensures Between(r, Deltas(0, 0, 0, 0), Deltas(0, 0, 40, 0))
    ensures c.None? ==> r == Zero
  {
    match c
    case Some(OpenShiftRunning) => Deltas(0, 0, 40, 0)
    case Some(RhelPrimary) => Deltas(0, 0, 20, 0)
    case Some(RhelAnsible) => Deltas(0, 0, 20, 0)
    case _ => Zero
  }

  function NutanixUse(c: Option<NutanixChoice>): (r: Deltas)
    ensures Between(r, Deltas(0, 0, 0, 0), Deltas(0, 35, 0, 0))
    ensures c.None? ==> r == Zero
  {
    match c
    case Some(NutanixDeployed) => Deltas(0, 35, 0, 0)
    case Some(NutanixEvaluating) => Deltas(0, 15, 0, 0)
    case _ => Zero
  }

  function Skillset(c: Option<SkillsetChoice>): (r: Deltas)
    ensures Between(r, Deltas(0, 0, -15, 0), Deltas(25, 10, 20, 25))
    ensures c.None? ==> r == Zero
  {
    match c
    case Some(VmwareAdmins) => Deltas(25, 0, -15, 0)
    case Some(LinuxDevOps) => Deltas(0, 10, 20, 0)
    case Some(MicrosoftFocused) => Deltas(0, 0, 0, 25)
    case _ => Zero
  }

  function Appetite(c: Option<AppetiteChoice>): (r: Deltas)
    ensures Between(r, Deltas(0, 0, -20, 0), Deltas(20, 10, 15, 0))
    ensures c.None? ==> r == Zero
  {
    match c
    case Some(MinimalChange) => Deltas(20, 0, -20, 0)
    case Some(HighChange) => Deltas(0, 10, 15, 0)
    case Some(AggressiveChange) => Deltas(0, 10, 15, 0)
    case _ => Zero
  }

  function Methodology(c: Option<MethodologyChoice>): (r: Deltas)
    ensures Between(r, Deltas(0, 0, 0, 0), Deltas(0, 5, 25, 0))
    ensures c.None? ==> r == Zero
  {
    match c
    case Some(DevSecOps) => Deltas(0, 0, 25, 0)
    case Some(PlatformEngineering) => Deltas(0, 0, 25, 0)
    case Some(DevOps) => Deltas(0, 5, 10, 0)
    case _ => Zero
  }

  function AiMl(c: Option<AiMlChoice>): (r: Deltas)
    ensures Between(r, Deltas(0, 0, 0, 0), Deltas(15, 10, 10, 0))
    ensures c.None? ==> r == Zero
  {
    match c
    case Some(ActiveAi) => Deltas(15, 10, 10, 0)
    case Some(PrivateAiPlanned) => Deltas(15, 10, 10, 0)
    case _ => Zero
  }

  function AppStrategy(c: Option<StrategyChoice>): (r: Deltas)
    ensures Between(r, Deltas(-10, 0, 0, 0), Deltas(20, 10, 25, 0))
    ensures c.None? ==> r == Zero
  {
    match c
    case Some(CloudNativeFirst) => Deltas(-10, 0, 25, 0)
    case Some(LiftAndShift) => Deltas(20, 10, 0, 0)
    case _ => Zero
  }

  function CapexOpex(c: Option<SpendChoice>): (r: Deltas)
    ensures Between(r, Deltas(0, 0, 0, 0), Deltas(0, 0, 10, 10))
    ensures c.None? ==> r == Zero
  {
    match c
    case Some(OpexPreferred) => Deltas(0, 0, 10, 10)
    case _ => Zero
  }

  function Renewal(c: Option<RenewalChoice>): (r: Deltas)
    ensures Between(r, Deltas(0, 0, 0, 0), Deltas(15, 0, 0, 0))
    ensures c.None? ==> r == Zero
  {
    match c
    case Some(Within3Months) => Deltas(15, 0, 0, 0)
    case Some(Within6Months) => Deltas(15, 0, 0, 0)
    case Some(Within12Months) => Deltas(8, 0, 0, 0)
    case _ => Zero
  }

  /** The summed `fit_adjustments`, within the range the table's entries allow for each platform. */
  function Adjustments(a: Answers): (r: Deltas)
    ensures -10 <= r.vcf <= 140
    ensures -10 <= r.nutanix <= 80
    ensures -35 <= r.openshift <= 180
    ensures 0 <= r.azure <= 85
  {
    Zero.Plus(Hypervisor(a.hypervisor)).Plus(Kubernetes(a.kubernetes)).Plus(Microsoft(a.microsoft))
        .Plus(RedHat(a.redhat)).Plus(NutanixUse(a.nutanix)).Plus(Skillset(a.skillset))
        .Plus(Appetite(a.appetite)).Plus(Methodology(a.methodology)).Plus(AiMl(a.aiMl))
        .Plus(AppStrategy(a.appStrategy)).Plus(CapexOpex(a.capexOpex)).Plus(Renewal(a.renewal))
  }

  /** A questionnaire left at "-- Select --" everywhere adjusts nothing. */
  lemma UnansweredIsNeutral()
    ensures Adjustments(Unanswered) == Zero
  {
  }

  /** The twelve questions. */
  datatype Question =
    | OnHypervisor | OnKubernetes | OnMicrosoft | OnRedHat | OnNutanix | OnSkillset | OnAppetite | OnMethodology | OnAiMl | OnAppStrategy | OnCapexOpex | OnRenewal

  /** Where the page adds question `q`'s entry into the running sum. */
  function Position(q: Question): (i: nat)
    ensures i < 12
  {
    match q
    case OnHypervisor => 0
    case OnKubernetes => 1
    case OnMicrosoft => 2
    case OnRedHat => 3
    case OnNutanix => 4
    case OnSkillset => 5
    case OnAppetite => 6
    case OnMethodology => 7
    case OnAiMl => 8
    case OnAppStrategy => 9
    case OnCapexOpex => 10
    case OnRenewal => 11
  }

  /** The question added in position `i`. */
  function QuestionAt(i: nat): (q: Question)
    requires i < 12
    ensures Position(q) == i
  {
    if i == 0 then OnHypervisor
    else if i == 1 then OnKubernetes
    else if i == 2 then OnMicrosoft
    else if i == 3 then OnRedHat
    else if i == 4 then OnNutanix
    else if i == 5 then OnSkillset
    else if i == 6 then OnAppetite
    else if i == 7 then OnMethodology
    else if i == 8 then OnAiMl
    else if i == 9 then OnAppStrategy
    else if i == 10 then OnCapexOpex
    else OnRenewal
  }

  /** Each question has its own position. */
  lemma PositionRoundTrip(q: Question)
    ensures QuestionAt(Position(q)) == q
  {
  }

  /** The table entry that question `q`'s answer in `a` selects. */
  function Entry(a: Answers, q: Question): Deltas {
    match q
    case OnHypervisor => Hypervisor(a.hypervisor)
    case OnKubernetes => Kubernetes(a.kubernetes)
    case OnMicrosoft => Microsoft(a.microsoft)
    case OnRedHat => RedHat(a.redhat)
    case OnNutanix => NutanixUse(a.nutanix)
    case OnSkillset => Skillset(a.skillset)
    case OnAppetite => Appetite(a.appetite)
    case OnMethodology => Methodology(a.methodology)
    case OnAiMl => AiMl(a.aiMl)
    case OnAppStrategy => AppStrategy(a.appStrategy)
    case OnCapexOpex => CapexOpex(a.capexOpex)
    case OnRenewal => Renewal(a.renewal)
  }

  /** `a` with question `q` answered as in `b`: that entry changes, no other does. */
  function Adopt(a: Answers, b: Answers, q: Question): (r: Answers)
    ensures Entry(r, q) == Entry(b, q)
    ensures forall q' :: q' != q ==> Entry(r, q') == Entry(a, q')
  {
    match q
    case OnHypervisor => a.(hypervisor := b.hypervisor)
    case OnKubernetes => a.(kubernetes := b.kubernetes)
    case OnMicrosoft => a.(microsoft := b.microsoft)
    case OnRedHat => a.(redhat := b.redhat)
    case OnNutanix => a.(nutanix := b.nutanix)
    case OnSkillset => a.(skillset := b.skillset)
    case OnAppetite => a.(appetite := b.appetite)
    case OnMethodology => a.(methodology := b.methodology)
    case OnAiMl => a.(aiMl := b.aiMl)
    case OnAppStrategy => a.(appStrategy := b.appStrategy)
    case OnCapexOpex => a.(capexOpex := b.capexOpex)
    case OnRenewal => a.(renewal := b.renewal)
  }

  /** The entries `e` gives the first `n` questions, added up in the page's order. */
  function Total(e: Question -> Deltas, n: nat): Deltas
    requires n <= 12
  {
    if n == 0 then Zero else Total(e, n - 1).Plus(e(QuestionAt(n - 1)))
  }

  /** The page's running sum is the total of every question's entry. */
  lemma AdjustmentsAreTotal(a: Answers)
    ensures Adjustments(a) == Total(q => Entry(a, q), 12)
  {
    var e := q => Entry(a, q);
    assert Total(e, 1) == Total(e, 0).Plus(Hypervisor(a.hypervisor));
    assert Total(e, 2) == Total(e, 1).Plus(Kubernetes(a.kubernetes));
    assert Total(e, 3) == Total(e, 2).Plus(Microsoft(a.microsoft));
    assert Total(e, 4) == Total(e, 3).Plus(RedHat(a.redhat));
    assert Total(e, 5) == Total(e, 4).Plus(NutanixUse(a.nutanix));
    assert Total(e, 6) == Total(e, 5).Plus(Skillset(a.skillset));
    assert Total(e, 7) == Total(e, 6).Plus(Appetite(a.appetite));
    assert Total(e, 8) == Total(e, 7).Plus(Methodology(a.methodology));
    assert Total(e, 9) == Total(e, 8).Plus(AiMl(a.aiMl));
    assert Total(e, 10) == Total(e, 9).Plus(AppStrategy(a.appStrategy));
    assert Total(e, 11) == Total(e, 10).Plus(CapexOpex(a.capexOpex));
    assert Total(e, 12) == Total(e, 11).Plus(Renewal(a.renewal));
  }

  /** Entries that agree on the first `n` questions have the same total over them. */
  lemma {:induction false} TotalAgrees(e: Question -> Deltas, f: Question -> Deltas, n: nat)
    requires n <= 12
    requires forall i :: 0 <= i < n ==> e(QuestionAt(i)) == f(QuestionAt(i))
    ensures Total(e, n) == Total(f, n)
  {
    if n > 0 {
      TotalAgrees(e, f, n - 1);
    }
  }

  /** Over the first `n` questions, `q` among them, changing only `q`'s entry swaps that one entry in the total. */
  lemma {:induction false} TotalSwap(e: Question -> Deltas, f: Question -> Deltas, q: Question, n: nat)
    requires Position(q) < n <= 12
    requires forall q' :: q' != q ==> f(q') == e(q')
    ensures Total(f, n).Plus(e(q)) == Total(e, n).Plus(f(q))
  {
    var y := QuestionAt(n - 1);
    assert Total(f, n) == Total(f, n - 1).Plus(f(y)) && Total(e, n) == Total(e, n - 1).Plus(e(y));
    if Position(q) == n - 1 {
      PositionRoundTrip(q);
      forall i | 0 <= i < n - 1
        ensures f(QuestionAt(i)) == e(QuestionAt(i))
      {
        assert QuestionAt(i) != q;
      }
      TotalAgrees(f, e, n - 1);
      PlusSwap(Total(e, n - 1), f(q), e(q));
    } else {
      assert y != q;
      TotalSwap(e, f, q, n - 1);
      PlusSwap(Total(f, n - 1), e(y), e(q));
      PlusSwap(Total(e, n - 1), e(y), f(q));
    }
  }

  /** Adding up two entries in either order gives the same total. */
  lemma PlusSwap(x: Deltas, y: Deltas, z: Deltas)
    ensures x.Plus(y).Plus(z) == x.Plus(z).Plus(y)
  {
  }

  /**
   * Changing one answer, whichever it is, moves the totals by exactly the
   * difference of that question's two table entries.
   */
  lemma AnswerActsAlone(a: Answers, b: Answers, q: Question)
    ensures Adjustments(Adopt(a, b, q)).Plus(Entry(a, q)) == Adjustments(a).Plus(Entry(b, q))
  {
    var r := Adopt(a, b, q);
    AdjustmentsAreTotal(a);
    AdjustmentsAreTotal(r);
    TotalSwap(q' => Entry(a, q'), q' => Entry(r, q'), q, 12);
  }

  /** A questionnaire with a single question answered adjusts by that question's table entry alone. */
  lemma OnlyAnswer(a: Answers, q: Question)
    ensures Adjustments(Adopt(Unanswered, a, q)) == Entry(a, q)
  {
    var x := Adjustments(Adopt(Unanswered, a, q));
    UnansweredEntry(q);
    UnansweredIsNeutral();
    AnswerActsAlone(Unanswered, a, q);
    assert x.Plus(Zero) == Zero.Plus(Entry(a, q));
    PlusZero(x);
    PlusZero(Entry(a, q));
  }

  lemma PlusZero(x: Deltas)
    ensures x.Plus(Zero) == x && Zero.Plus(x) == x
  {
  }

  lemma UnansweredEntry(q: Question)
    ensures Entry(Unanswered, q) == Zero
  {
  }

  /** The answers that maximise the VCF delta. */
  const VcfFavoured: Answers := Answers(
    Some(VsphereAllIn), Some(K8sInProduction), Some(MicrosoftHeavy), None, None, Some(VmwareAdmins),
    Some(MinimalChange), None, Some(ActiveAi), Some(LiftAndShift), None, Some(Within3Months))

  /** The answers that minimise it. */
  const VcfDisfavoured: Answers := Unanswered.(appStrategy := Some(CloudNativeFirst))

  /** Both ends of the VCF range are reached, so the summed delta can exceed 100 before the scenario page's clamp. */
  lemma VcfExtremes()
    ensures Adjustments(VcfFavoured).vcf == 140
    ensures Adjustments(VcfDisfavoured).vcf == -10
  {
    var a := VcfFavoured;
    assert Hypervisor(a.hypervisor) == Deltas(30, -10, 0, 0);
    assert Kubernetes(a.kubernetes) == Deltas(10, 0, 35, 0);
    assert Microsoft(a.microsoft) == Deltas(5, 0, 0, 30);
    assert RedHat(a.redhat) == Zero;
    assert NutanixUse(a.nutanix) == Zero;
    assert Skillset(a.skillset) == Deltas(25, 0, -15, 0);
    assert Appetite(a.appetite) == Deltas(20, 0, -20, 0);
    assert Methodology(a.methodology) == Zero;
    assert AiMl(a.aiMl) == Deltas(15, 10, 10, 0);
    assert AppStrategy(a.appStrategy) == Deltas(20, 10, 0, 0);
    assert CapexOpex(a.capexOpex) == Zero;
    assert Renewal(a.renewal) == Deltas(15, 0, 0, 0);
    var b := VcfDisfavoured;
    assert AppStrategy(b.appStrategy) == Deltas(-10, 0, 25, 0);
    assert Hypervisor(b.hypervisor) == Zero;
    assert Kubernetes(b.kubernetes) == Zero;
    assert Microsoft(b.microsoft) == Zero;
    assert RedHat(b.redhat) == Zero;
    assert NutanixUse(b.nutanix) == Zero;
    assert Skillset(b.skillset) == Zero;
    assert Appetite(b.appetite) == Zero;
    assert Methodology(b.methodology) == Zero;
    assert AiMl(b.aiMl) == Zero;
    assert CapexOpex(b.capexOpex) == Zero;
    assert Renewal(b.renewal) == Zero;
  }

  datatype Urgency = High | Medium | Low

  /** `discovery['renewal_urgency']`, always set. */
  function RenewalUrgency(c: Option<RenewalChoice>): (u: Urgency)
    ensures u == High <==> c == Some(Within3Months) || c == Some(Within6Months)
    ensures u == Medium <==> c == Some(Within12Months)
  {
    match c
    case Some(Within3Months) => High
    case Some(Within6Months) => High
    case Some(Within12Months) => Medium
    case _ => Low
  }

  /** The urgency and the VCF renewal points come from the same answer: high 15, medium 8, low 0. */
  lemma UrgencyMatchesPoints(c: Option<RenewalChoice>)
    ensures RenewalUrgency(c) == High <==> Renewal(c).vcf == 15
    ensures RenewalUrgency(c) == Medium <==> Renewal(c).vcf == 8
    ensures RenewalUrgency(c) == Low <==> Renewal(c).vcf == 0
  {
  }

  /** `round(mean of the six maturity sliders, 1)`. */
  function OverallMaturity(automation: int, security: int, monitoring: int, selfService: int, lifecycle: int, cost: int): (m: real)
    ensures var sum := automation + security + monitoring + selfService + lifecycle + cost;
            sum as real / 6.0 - 0.05 <= m <= sum as real / 6.0 + 0.05
  {
    Round1((automation + security + monitoring + selfService + lifecycle + cost) as real / 6.0)
  }

  datatype MaturityLabel = Foundation | Developing | Advanced

  function Label(m: real): (l: MaturityLabel)
    ensures l == Foundation <==> m < 2.0
    ensures l == Advanced <==> m >= 3.5
  {
    if m < 2.0 then Foundation else if m < 3.5 then Developing else Advanced
  }

  /** Round to tenths of a mean of six integers, in terms of their sum. */
  lemma {:induction false} MaturityOfSum(sum: int)
    ensures sum <= 11 ==> Round1(sum as real / 6.0) < 2.0
    ensures sum >= 12 ==> Round1(sum as real / 6.0) >= 2.0
    ensures sum <= 20 ==> Round1(sum as real / 6.0) < 3.5
    ensures sum >= 21 ==> Round1(sum as real / 6.0) >= 3.5
  {
    Round1OfTenths(20);
    Round1OfTenths(35);
    if sum >= 12 {
      Round1Monotone(20.0 / 10.0, sum as real / 6.0);
    }
    if sum >= 21 {
      Round1Monotone(35.0 / 10.0, sum as real / 6.0);
    }
  }

  /**
   * With sliders in 1..5 the score lies in [1, 5]; and since the label is
   * read from the rounded mean, it is decided by the slider total: at most 11
   * is Foundation, 12 to 20 Developing, 21 or more Advanced.
   */
  lemma MaturityBands(automation: int, security: int, monitoring: int, selfService: int, lifecycle: int, cost: int)
    requires 1 <= automation <= 5 && 1 <= security <= 5 && 1 <= monitoring <= 5
    requires 1 <= selfService <= 5 && 1 <= lifecycle <= 5 && 1 <= cost <= 5
    ensures var m := OverallMaturity(automation, security, monitoring, selfService, lifecycle, cost);
            1.0 <= m <= 5.0
    ensures var sum := automation + security + monitoring + selfService + lifecycle + cost;
            var l := Label(OverallMaturity(automation, security, monitoring, selfService, lifecycle, cost));
            && (l == Foundation <==> sum <= 11)
            && (l == Developing <==> 12 <= sum <= 20)
            && (l == Advanced <==> sum >= 21)
  {
    var sum := automation + security + monitoring + selfService + lifecycle + cost;
    MaturityOfSum(sum);
    Round1OfTenths(10);
    Round1OfTenths(50);
    Round1Monotone(10.0 / 10.0, sum as real / 6.0);
    Round1Monotone(sum as real / 6.0, 50.0 / 10.0);
  }

  /** The adjustment the scenario page looks up: none before the questionnaire is saved, else the platform's entry. */
  function Adjustment(saved: Option<Answers>, p: Platform): (r: Option<int>)
    ensures saved.None? <==> r.None?
    ensures saved.Some? ==> r == Some(For(Adjustments(saved.value), p))
    ensures r.Some? ==> -35 <= r.value <= 180
  {
    match saved
    case None => None
    case Some(a) => Some(For(Adjustments(a), p))
  }

  /**
   * Answers whose deltas all cancel, an unanswered questionnaire among them,
   * leave every platform's fit, score and reasons, as it was.
   */
  lemma NeutralKeepsFit(a: Answers, p: Platform, d: Data)
    requires Adjustments(a) == Zero
    ensures WithDiscovery(PlatformFit(p, d), Adjustment(Some(a), p)) == PlatformFit(p, d)
  {
    assert Adjustment(Some(a), p) == Some(0);
    ZeroAdjustment(p, d);
  }
}

=== FILE: fit.dfy ===
/**
 * The four platform fit scorers (`get_vcf_tco`, `get_nutanix_tco`,
 * `get_openshift_tco`, `get_azure_stack_tco`) and the discovery adjustment
 * the scenario page applies to their scores. Each scorer starts from a base,
 * awards points for up to three conditions on the parsed record, lists one
 * reason per condition met in evaluation order, and caps the score at 100.
 */
module Fit {
  import opened Wrappers
  import opened Rounding
  import opened Inventory
  import opened Pricing

  /** The conditions a fit reason can cite, across all four scorers and the discovery step. */
  datatype Condition =
    | VcfWindows | VcfDensity | VcfVcpu
    | NutanixLinux | NutanixSize | NutanixMixedOs
    | OpenShiftLinux | OpenShiftLowWindows | OpenShiftLegacyOs
    | AzureWindows | AzureSize | AzureMicrosoft
    | DiscoveryRaised | DiscoveryLowered

  /** A fit reason: the condition it cites and the figure its message quotes (0 when it quotes none). */
  datatype Reason = Reason(condition: Condition, figure: int)

  /** The points a scorer awards for a condition. */
  function Points(c: Condition): nat {
    match c
    case VcfWindows => 30
    case VcfDensity => 25
    case VcfVcpu => 20
    case NutanixLinux => 25
    case NutanixSize => 25
    case NutanixMixedOs => 20
    case OpenShiftLinux => 35
    case OpenShiftLowWindows => 25
    case OpenShiftLegacyOs => 15
    case AzureWindows => 35
    case AzureSize => 20
    case AzureMicrosoft => 15
    case DiscoveryRaised => 0
    case DiscoveryLowered => 0
  }

  /** The position of a condition in its scorer's evaluation order. */
  function Step(c: Condition): nat {
    match c
    case VcfWindows => 0
    case VcfDensity => 1
    case VcfVcpu => 2
    case NutanixLinux => 0
    case NutanixSize => 1
    case NutanixMixedOs => 2
    case OpenShiftLinux => 0
    case OpenShiftLowWindows => 1
    case OpenShiftLegacyOs => 2
    case AzureWindows => 0
    case AzureSize => 1
    case AzureMicrosoft => 2
    case DiscoveryRaised => 3
    case DiscoveryLowered => 3
  }

  /** The sum of the points of the listed reasons. */
  function Total(reasons: seq<Reason>): nat {
    if |reasons| == 0 then 0 else Points(reasons[0].condition) + Total(reasons[1..])
  }

  /** The conditions the listed reasons cite, in order. */
  function Cited(reasons: seq<Reason>): (cs: seq<Condition>)
    ensures |cs| == |reasons|
    ensures forall i :: 0 <= i < |reasons| ==> cs[i] == reasons[i].condition
  {
    if |reasons| == 0 then [] else [reasons[0].condition] + Cited(reasons[1..])
  }

  /** Reasons appear in evaluation order. */
  predicate InOrder(reasons: seq<Reason>) {
    forall i, j :: 0 <= i < j < |reasons| ==> Step(reasons[i].condition) < Step(reasons[j].condition)
  }

  /** One threshold-gated award: whether its condition holds and the reason it records. */
  datatype Award = Award(met: bool, reason: Reason)

  /** The reason an award lists: its own when met, none otherwise. */
  function Pick(a: Award): seq<Reason> {
    if a.met then [a.reason] else []
  }

  function Min(a: int, b: int): (m: int)
    ensures m <= a && m <= b && (m == a || m == b)
    ensures a <= b ==> m == a
  {
    if a <= b then a else b
  }

  datatype Fit = Fit(platform: Platform, score: int, reasons: seq<Reason>)

  /**
   * Three awards in evaluation order: a condition is cited exactly when its
   * award is met, the reasons keep their order, and the points earned are
   * those of the awards met.
   */
  lemma ThreeAwards(a: Award, b: Award, c: Award)
    requires Step(a.reason.condition) < Step(b.reason.condition) < Step(c.reason.condition)
    ensures var rs := Pick(a) + Pick(b) + Pick(c);
            && InOrder(rs)
            && (forall i :: 0 <= i < |rs| ==> Step(rs[i].condition) <= Step(c.reason.condition))
            && Cited(rs) == (if a.met then [a.reason.condition] else [])
                            + (if b.met then [b.reason.condition] else [])
                            + (if c.met then [c.reason.condition] else [])
            && Total(rs) == (if a.met then Points(a.reason.condition) else 0)
                            + (if b.met then Points(b.reason.condition) else 0)
                            + (if c.met then Points(c.reason.condition) else 0)
  {
    var rs := Pick(a) + Pick(b) + Pick(c);
    TotalAppend(Pick(a) + Pick(b), Pick(c));
    TotalAppend(Pick(a), Pick(b));
    CitedAppend(Pick(a) + Pick(b), Pick(c));
    CitedAppend(Pick(a), Pick(b));
    PickInOrder(a, b, c);
  }

  lemma PickInOrder(a: Award, b: Award, c: Award)
    requires Step(a.reason.condition) < Step(b.reason.condition) < Step(c.reason.condition)
    ensures var rs := Pick(a) + Pick(b) + Pick(c);
            && InOrder(rs)
            && (forall i :: 0 <= i < |rs| ==> Step(rs[i].condition) <= Step(c.reason.condition))
  {
    var rs := Pick(a) + Pick(b) + Pick(c);
    var sa, sb, sc := Step(a.reason.condition), Step(b.reason.condition), Step(c.reason.condition);
    var steps := (if a.met then [sa] else []) + (if b.met then [sb] else []) + (if c.met then [sc] else []);
    assert |steps| == |rs|;
    forall i | 0 <= i < |rs| ensures Step(rs[i].condition) == steps[i] { }
    assert forall i, j :: 0 <= i < j < |steps| ==> steps[i] < steps[j];
  }

  /**
   * `min(base + earned, 100)` with the reasons of the awards met, in
   * evaluation order: a condition is cited exactly when its award is met, and
   * the points earned are those of the cited conditions.
   */
  function Scored(p: Platform, base: int, a: Award, b: Award, c: Award): (f: Fit)
    requires Step(a.reason.condition) < Step(b.reason.condition) < Step(c.reason.condition)
    ensures f.platform == p
    ensures f.score == Min(base + Total(f.reasons), 100)
    ensures base + Points(a.reason.condition) + Points(b.reason.condition) + Points(c.reason.condition) <= 100 ==>
              f.score == base + Total(f.reasons)
    ensures Total(f.reasons) == (if a.met then Points(a.reason.condition) else 0)
                                + (if b.met then Points(b.reason.condition) else 0)
                                + (if c.met then Points(c.reason.condition) else 0)
    ensures InOrder(f.reasons)
    ensures forall i :: 0 <= i < |f.reasons| ==> Step(f.reasons[i].condition) <= Step(c.reason.condition)
    ensures a.reason.condition in Cited(f.reasons) <==> a.met
    ensures b.reason.condition in Cited(f.reasons) <==> b.met
    ensures c.reason.condition in Cited(f.reasons) <==> c.met
    ensures |f.reasons| == (if a.met then 1 else 0) + (if b.met then 1 else 0) + (if c.met then 1 else 0)
  {
    var reasons := Pick(a) + Pick(b) + Pick(c);
    ThreeAwards(a, b, c);
    Fit(p, Min(base + Total(reasons), 100), reasons)
  }

  lemma {:induction false} TotalAppend(xs: seq<Reason>, ys: seq<Reason>)
    ensures Total(xs + ys) == Total(xs) + Total(ys)
  {
    if |xs| > 0 {
      assert (xs + ys)[0] == xs[0];
      assert (xs + ys)[1..] == xs[1..] + ys;
      TotalAppend(xs[1..], ys);
    } else {
      assert xs + ys == ys;
    }
  }

  lemma {:induction false} CitedAppend(xs: seq<Reason>, ys: seq<Reason>)
    ensures Cited(xs + ys) == Cited(xs) + Cited(ys)
  {
    if |xs| > 0 {
      assert (xs + ys)[0] == xs[0];
      assert (xs + ys)[1..] == xs[1..] + ys;
      CitedAppend(xs[1..], ys);
    } else {
      assert xs + ys == ys;
    }
  }

  /** `round(ratio * 100)`, the percentage a reason message quotes. */
  function Percent(ratio: real): int {
    RoundHalfEven(ratio * 100.0)
  }

  /** `parsed_data.get('windows_ratio', 0.5)`. */
  function WindowsShare(d: Data): real { d.windowsRatio.GetOr(0.5) }

  /** `linux_vms / max(total_vms, 1)` with `linux_vms` defaulting to 0 and `total_vms` to 1. */
  function LinuxShare(d: Data): (r: real)
    ensures r >= 0.0
    ensures d.linuxVms.GetOr(0) <= d.totalVms.GetOr(1) ==> r <= 1.0
  {
    d.linuxVms.GetOr(0) as real / AtLeastOne(d.totalVms.GetOr(1))
  }

  /** `get_vcf_tco(parsed_data)['fit_score', 'fit_reasons']`. */
  function VcfFit(d: Data): (f: Fit)
    ensures var w := WindowsShare(d);
            var density := d.vmDensity.GetOr(0.0);
            var vcpu := d.vcpuPcpuRatio.GetOr(4.0);
            && f.platform == Vcf
            && 25 <= f.score <= 100
            && f.score == 25 + Total(f.reasons)
            && InOrder(f.reasons)
            && (forall i :: 0 <= i < |f.reasons| ==> Step(f.reasons[i].condition) <= 2)
            && (VcfWindows in Cited(f.reasons) <==> w > 0.6)
            && (VcfDensity in Cited(f.reasons) <==> density > 20.0)
            && (VcfVcpu in Cited(f.reasons) <==> vcpu < 6.0)
            && |f.reasons| == (if w > 0.6 then 1 else 0) + (if density > 20.0 then 1 else 0) + (if vcpu < 6.0 then 1 else 0)
  {
    var w := WindowsShare(d);
    var a := Award(w > 0.6, Reason(VcfWindows, Percent(w)));
    var b := Award(d.vmDensity.GetOr(0.0) > 20.0, Reason(VcfDensity, 0));
    var c := Award(d.vcpuPcpuRatio.GetOr(4.0) < 6.0, Reason(VcfVcpu, 0));
    assert Points(a.reason.condition) + Points(b.reason.condition) + Points(c.reason.condition) == 75;
    Scored(Vcf, 25, a, b, c)
  }

  /** `get_nutanix_tco(parsed_data)['fit_score', 'fit_reasons']`. */
  function NutanixFit(d: Data): (f: Fit)
    ensures var w := WindowsShare(d);
            var hosts := d.totalHosts.GetOr(0);
            && f.platform == Nutanix
            && 20 <= f.score <= 90
            && f.score == 20 + Total(f.reasons)
            && InOrder(f.reasons)
            && (forall i :: 0 <= i < |f.reasons| ==> Step(f.reasons[i].condition) <= 2)
            && (NutanixLinux in Cited(f.reasons) <==> LinuxShare(d) > 0.4)
            && (NutanixSize in Cited(f.reasons) <==> hosts <= 20)
            && (NutanixMixedOs in Cited(f.reasons) <==> w < 0.7)
  {
    var linux := LinuxShare(d);
    var a := Award(linux > 0.4, Reason(NutanixLinux, Percent(linux)));
    var b := Award(d.totalHosts.GetOr(0) <= 20, Reason(NutanixSize, 0));
    var c := Award(WindowsShare(d) < 0.7, Reason(NutanixMixedOs, 0));
    assert Points(a.reason.condition) + Points(b.reason.condition) + Points(c.reason.condition) == 70;
    Scored(Nutanix, 20, a, b, c)
  }

  /** `get_openshift_tco(parsed_data)['fit_score', 'fit_reasons']`. */
  function OpenShiftFit(d: Data): (f: Fit)
    ensures var w := WindowsShare(d);
            var legacy := d.oldOsVms.GetOr(0);
            && f.platform == OpenShift
            && 10 <= f.score <= 85
            && f.score == 10 + Total(f.reasons)
            && InOrder(f.reasons)
            && (forall i :: 0 <= i < |f.reasons| ==> Step(f.reasons[i].condition) <= 2)
            && (OpenShiftLinux in Cited(f.reasons) <==> LinuxShare(d) > 0.5)
            && (OpenShiftLowWindows in Cited(f.reasons) <==> w < 0.4)
            && (OpenShiftLegacyOs in Cited(f.reasons) <==> legacy > 10)
  {
    var linux := LinuxShare(d);
    var legacy := d.oldOsVms.GetOr(0);
    var a := Award(linux > 0.5, Reason(OpenShiftLinux, Percent(linux)));
    var b := Award(WindowsShare(d) < 0.4, Reason(OpenShiftLowWindows, 0));
    var c := Award(legacy > 10, Reason(OpenShiftLegacyOs, legacy));
    assert Points(a.reason.condition) + Points(b.reason.condition) + Points(c.reason.condition) == 75;
    Scored(OpenShift, 10, a, b, c)
  }

  /** `get_azure_stack_tco(parsed_data)['fit_score', 'fit_reasons']`. */
  function AzureFit(d: Data): (f: Fit)
    ensures var w := WindowsShare(d);
            var hosts := d.totalHosts.GetOr(0);
            && f.platform == AzureStack
            && 15 <= f.score <= 85
            && f.score == 15 + Total(f.reasons)
            && InOrder(f.reasons)
            && (forall i :: 0 <= i < |f.reasons| ==> Step(f.reasons[i].condition) <= 2)
            && (AzureWindows in Cited(f.reasons) <==> w > 0.7)
            && (AzureSize in Cited(f.reasons) <==> hosts <= 16)
            && (AzureMicrosoft in Cited(f.reasons) <==> w > 0.5)
  {
    var w := WindowsShare(d);
    var a := Award(w > 0.7, Reason(AzureWindows, Percent(w)));
    var b := Award(d.totalHosts.GetOr(0) <= 16, Reason(AzureSize, 0));
    var c := Award(w > 0.5, Reason(AzureMicrosoft, 0));
    assert Points(a.reason.condition) + Points(b.reason.condition) + Points(c.reason.condition) == 70;
    Scored(AzureStack, 15, a, b, c)
  }

  /** The scorer the scenario page runs for each platform. */
  function PlatformFit(p: Platform, d: Data): (f: Fit)
    ensures f.platform == p && 0 <= f.score <= 100 && InOrder(f.reasons)
    ensures forall i :: 0 <= i < |f.reasons| ==> Step(f.reasons[i].condition) <= 2
  {
    match p
    case Vcf => VcfFit(d)
    case Nutanix => NutanixFit(d)
    case OpenShift => OpenShiftFit(d)
    case AzureStack => AzureFit(d)
  }

  /** The 35-point Windows reason of Azure Stack HCI always comes with the 15-point one after it. */
  lemma AzureWindowsImpliesMicrosoft(d: Data)
    ensures AzureWindows in Cited(AzureFit(d).reasons) ==> AzureMicrosoft in Cited(AzureFit(d).reasons)
  {
  }

  /**
   * An empty record (no sheet recognised) still scores: VCF 45 with one
   * reason, Nutanix 65 with two, OpenShift 10 with none, Azure Stack HCI 35
   * with one.
   */
  lemma EmptyRecordVcf()
    ensures VcfFit(Empty).score == 45 && |VcfFit(Empty).reasons| == 1
  {
    assert WindowsShare(Empty) == 0.5;
  }

  lemma EmptyRecordNutanix()
    ensures NutanixFit(Empty).score == 65 && |NutanixFit(Empty).reasons| == 2
  {
    assert WindowsShare(Empty) == 0.5 && LinuxShare(Empty) == 0.0;
  }

  lemma EmptyRecordOpenShift()
    ensures OpenShiftFit(Empty).score == 10 && |OpenShiftFit(Empty).reasons| == 0
  {
    assert WindowsShare(Empty) == 0.5 && LinuxShare(Empty) == 0.0;
  }

  lemma EmptyRecordAzure()
    ensures AzureFit(Empty).score == 35 && |AzureFit(Empty).reasons| == 1
  {
    assert WindowsShare(Empty) == 0.5;
  }

  /** `max(0, min(score, 100))`. */
  function Clamp(x: int): (r: int)
    ensures 0 <= r <= 100
    ensures 0 <= x <= 100 ==> r == x
    ensures x > 100 ==> r == 100
    ensures x < 0 ==> r == 0
  {
    if x < 0 then 0 else Min(x, 100)
  }

  /**
   * The discovery step of the scenario page: with an adjustment for the
   * platform the score becomes the clamped sum, and a reason is appended when
   * the adjustment is not zero; without one the fit is untouched.
   */
  function WithDiscovery(f: Fit, adjustment: Option<int>): (r: Fit)
    ensures adjustment.None? ==> r == f
    ensures adjustment.Some? ==> r.platform == f.platform && r.score == Clamp(f.score + adjustment.value)
    ensures adjustment.Some? && adjustment.value > 0 ==> r.reasons == f.reasons + [Reason(DiscoveryRaised, adjustment.value)]
    ensures adjustment.Some? && adjustment.value < 0 ==> r.reasons == f.reasons + [Reason(DiscoveryLowered, adjustment.value)]
    ensures adjustment.Some? && adjustment.value == 0 ==> r.reasons == f.reasons
  {
    match adjustment
    case None => f
    case Some(adj) =>
      var extra := if adj > 0 then [Reason(DiscoveryRaised, adj)]
                   else if adj < 0 then [Reason(DiscoveryLowered, adj)]
                   else [];
      Fit(f.platform, Clamp(f.score + adj), f.reasons + extra)
  }

  /** A zero adjustment leaves a scorer's fit exactly as it was. */
  lemma ZeroAdjustment(p: Platform, d: Data)
    ensures WithDiscovery(PlatformFit(p, d), Some(0)) == PlatformFit(p, d)
  {
  }

  /** The discovery step keeps the reasons in evaluation order: its reason comes after the scorer's. */
  lemma DiscoveryKeepsOrder(p: Platform, d: Data, adjustment: Option<int>)
    ensures InOrder(WithDiscovery(PlatformFit(p, d), adjustment).reasons)
  {
    OrderedDiscovery(PlatformFit(p, d), adjustment);
  }

  /** The discovery step keeps any scorer-ordered reasons in order. */
  lemma OrderedDiscovery(f: Fit, adjustment: Option<int>)
    requires InOrder(f.reasons)
    requires forall i :: 0 <= i < |f.reasons| ==> Step(f.reasons[i].condition) <= 2
    ensures InOrder(WithDiscovery(f, adjustment).reasons)
  {
    match adjustment
    case None =>
    case Some(adj) =>
      if adj > 0 {
        AppendLast(f.reasons, Reason(DiscoveryRaised, adj));
      } else if adj < 0 {
        AppendLast(f.reasons, Reason(DiscoveryLowered, adj));
      }
  }

  /** A reason placed after every step of the scorers keeps ordered reasons in order. */
  lemma AppendLast(rs: seq<Reason>, last: Reason)
    requires InOrder(rs) && Step(last.condition) == 3
    requires forall i :: 0 <= i < |rs| ==> Step(rs[i].condition) <= 2
    ensures InOrder(rs + [last])
  {
    var xs := rs + [last];
    forall i, j | 0 <= i < j < |xs|
      ensures Step(xs[i].condition) < Step(xs[j].condition)
    {
      if j < |rs| {
        assert xs[i] == rs[i] && xs[j] == rs[j];
      } else {
        assert xs[i] == rs[i] && xs[j] == last;
      }
    }
  }
}

=== FILE: health.dfy ===
/**
 * The infrastructure health scorecard (`calculate_health_score`): five
 * three-level sub-scores evaluated in a fixed order, a flag for every
 * sub-score that is not good, a recommendation for the worst cases, an
 * overall percentage and a rating.
 */
module Health {
  import opened Wrappers
  import opened Rounding
  import opened Inventory

  datatype Level = Good | Warning | Critical

  /** The five sub-scores, in the order they are evaluated. */
  datatype ScoreKey = VmWaste | CpuRatio | OsCurrency | Storage | Density

  function Rank(k: ScoreKey): nat {
    match k
    case VmWaste => 0
    case CpuRatio => 1
    case OsCurrency => 2
    case Storage => 3
    case Density => 4
  }

  /** The flag texts, reduced to the sub-score, its level and the figures they quote. */
  datatype Flag =
    | WasteFlag(level: Level, poweredOff: int, percent: int)
    | RatioFlag(level: Level, ratio: real)
    | OldOsFlag(level: Level, count: int)
    | StorageFlag(level: Level, utilization: real)
    | DensityFlag(level: Level, density: real)
  {
    function Key(): ScoreKey {
      match this
      case WasteFlag(_, _, _) => VmWaste
      case RatioFlag(_, _) => CpuRatio
      case OldOsFlag(_, _) => OsCurrency
      case StorageFlag(_, _) => Storage
      case DensityFlag(_, _) => Density
    }
  }

  /** The recommendation texts, reduced to the sub-score and the figures they quote. */
  datatype Advice =
    | Decommission(poweredOff: int)
    | ReduceOvercommit
    | ModernizeOs(count: int)
    | ExpandStorage
    | ImproveDensity
  {
    function Key(): ScoreKey {
      match this
      case Decommission(_) => VmWaste
      case ReduceOvercommit => CpuRatio
      case ModernizeOs(_) => OsCurrency
      case ExpandStorage => Storage
      case ImproveDensity => Density
    }
  }

  /** One evaluated sub-score: its level and the flag and recommendation it would emit. */
  datatype SubScore = SubScore(key: ScoreKey, level: Level, flag: Flag, advice: Advice)

  datatype Score = Score(key: ScoreKey, level: Level)

  datatype Rating = Healthy | NeedsAttention | AtRisk

  datatype Report = Report(scores: seq<Score>, flags: seq<Flag>, recommendations: seq<Advice>,
                           overall: Rating, overallPct: int)

  /** The outcome of a parser: the record with its scorecard, or `{"error": ...}`. */
  datatype Outcome = Parsed(data: Data, health: Report) | Failed

  /** A flag is raised for every sub-score that is not good. */
  predicate Flagged(l: Level) {
    l != Good
  }

  /**
   * A recommendation accompanies the critical level, except for density,
   * whose recommendation accompanies the warning level.
   */
  predicate Advised(k: ScoreKey, l: Level) {
    if k == Density then l == Warning else l == Critical
  }

  function Points(l: Level): nat {
    match l
    case Good => 2
    case Warning => 1
    case Critical => 0
  }

  /** A higher-is-worse sub-score: critical above `critical`, warning above `warning`. */
  function Tier(x: real, critical: real, warning: real): (l: Level)
    requires warning <= critical
    ensures l == Critical <==> x > critical
    ensures l == Warning <==> warning < x <= critical
    ensures l == Good <==> x <= warning
  {
    if x > critical then Critical else if x > warning then Warning else Good
  }

  /** The share of powered-off VMs, `powered_off / max(total_vms, 1)`, and its level. */
  function WasteLevel(off: int, total: int): (l: Level)
    ensures l == Critical <==> off as real > 0.2 * AtLeastOne(total)
    ensures l == Warning <==> 0.1 * AtLeastOne(total) < off as real <= 0.2 * AtLeastOne(total)
    ensures l == Good <==> off as real <= 0.1 * AtLeastOne(total)
  {
    ShareTier(off, total, 0.2, 0.1);
    Tier(off as real / AtLeastOne(total), 0.2, 0.1)
  }

  /** The share of VMs on a legacy OS and its level. */
  function OsLevel(legacy: int, total: int): (l: Level)
    ensures l == Critical <==> legacy as real > 0.2 * AtLeastOne(total)
    ensures l == Warning <==> 0.05 * AtLeastOne(total) < legacy as real <= 0.2 * AtLeastOne(total)
    ensures l == Good <==> legacy as real <= 0.05 * AtLeastOne(total)
  {
    ShareTier(legacy, total, 0.2, 0.05);
    Tier(legacy as real / AtLeastOne(total), 0.2, 0.05)
  }

  lemma ShareTier(n: int, total: int, hi: real, lo: real)
    ensures n as real / AtLeastOne(total) > hi <==> n as real > hi * AtLeastOne(total)
    ensures n as real / AtLeastOne(total) > lo <==> n as real > lo * AtLeastOne(total)
  {
  }

  /** Density is scored the other way round: above 30 is good, above 15 a warning, otherwise critical. */
  function DensityLevel(density: real): (l: Level)
    ensures l == Good <==> density > 30.0
    ensures l == Warning <==> 15.0 < density <= 30.0
    ensures l == Critical <==> density <= 15.0
  {
    if density > 30.0 then Good else if density > 15.0 then Warning else Critical
  }

  /** The five sub-scores of a record, in evaluation order, with the defaults `data.get` supplies. */
  function SubScores(d: Data): (subs: seq<SubScore>)
    ensures |subs| == 5
    ensures forall i :: 0 <= i < 5 ==> Rank(subs[i].key) == i
    ensures forall i :: 0 <= i < 5 ==> subs[i].flag.Key() == subs[i].key && subs[i].advice.Key() == subs[i].key
  {
    var total := d.totalVms.GetOr(1);
    var off := d.poweredOffVms.GetOr(0);
    var ratio := d.vcpuPcpuRatio.GetOr(0.0);
    var legacy := d.oldOsVms.GetOr(0);
    var storage := d.storageUtilization.GetOr(0.0);
    var density := d.vmDensity.GetOr(0.0);
    var waste := WasteLevel(off, total);
    var cpu := Tier(ratio, 8.0, 4.0);
    var os := OsLevel(legacy, total);
    var disk := Tier(storage, 85.0, 70.0);
    var dens := DensityLevel(density);
    [ SubScore(VmWaste, waste, WasteFlag(waste, off, RoundHalfEven(off as real / AtLeastOne(total) * 100.0)), Decommission(off)),
      SubScore(CpuRatio, cpu, RatioFlag(cpu, ratio), ReduceOvercommit),
      SubScore(OsCurrency, os, OldOsFlag(os, legacy), ModernizeOs(legacy)),
      SubScore(Storage, disk, StorageFlag(disk, storage), ExpandStorage),
      SubScore(Density, dens, DensityFlag(dens, density), ImproveDensity) ]
  }

  /** The flags of the sub-scores that are not good, in evaluation order. */
  function FlagsOf(subs: seq<SubScore>): (fs: seq<Flag>)
    ensures |fs| <= |subs|
  {
    if |subs| == 0 then []
    else (if Flagged(subs[0].level) then [subs[0].flag] else []) + FlagsOf(subs[1..])
  }

  /** The recommendations of the sub-scores that call for one, in evaluation order. */
  function AdviceOf(subs: seq<SubScore>): seq<Advice> {
    if |subs| == 0 then []
    else (if Advised(subs[0].key, subs[0].level) then [subs[0].advice] else []) + AdviceOf(subs[1..])
  }

  function ScoresOf(subs: seq<SubScore>): (ss: seq<Score>)
    ensures |ss| == |subs|
    ensures forall i :: 0 <= i < |subs| ==> ss[i] == Score(subs[i].key, subs[i].level)
  {
    seq(|subs|, i requires 0 <= i < |subs| => Score(subs[i].key, subs[i].level))
  }

  function TotalPoints(ss: seq<Score>): nat {
    if |ss| == 0 then 0 else Points(ss[0].level) + TotalPoints(ss[1..])
  }

  lemma {:induction false} TotalPointsBound(ss: seq<Score>)
    ensures TotalPoints(ss) <= 2 * |ss|
  {
    if |ss| > 0 {
      TotalPointsBound(ss[1..]);
    }
  }

  /** `round(total / max(len(scores) * 2, 1) * 100)`. */
  function Percent(ss: seq<Score>): int {
    RoundHalfEven(TotalPoints(ss) as real / AtLeastOne(|ss| * 2) * 100.0)
  }

  function RatingOf(pct: int): (r: Rating)
    ensures r == Healthy <==> pct >= 75
    ensures r == NeedsAttention <==> 50 <= pct < 75
    ensures r == AtRisk <==> pct < 50
  {
    if pct >= 75 then Healthy else if pct >= 50 then NeedsAttention else AtRisk
  }

  /** `calculate_health_score(data)`. */
  function Assess(d: Data): (r: Report)
    ensures |r.scores| == 5
    ensures forall i :: 0 <= i < 5 ==> Rank(r.scores[i].key) == i
    ensures |r.recommendations| <= |r.flags| <= 5
    ensures r.overallPct == 10 * TotalPoints(r.scores) && 0 <= r.overallPct <= 100
    ensures r.overall == RatingOf(r.overallPct)
  {
    Assemble(SubScores(d))
  }

  /** The scorecard built from the evaluated sub-scores. */
  function Assemble(subs: seq<SubScore>): (r: Report)
    requires |subs| == 5
    ensures |r.scores| == 5
    ensures forall i :: 0 <= i < 5 ==> r.scores[i] == Score(subs[i].key, subs[i].level)
    ensures r.flags == FlagsOf(subs) && r.recommendations == AdviceOf(subs)
    ensures |r.recommendations| <= |r.flags| <= 5
    ensures r.overallPct == 10 * TotalPoints(r.scores) && 0 <= r.overallPct <= 100
    ensures r.overall == RatingOf(r.overallPct)
  {
    var ss := ScoresOf(subs);
    AdviceWithinFlags(subs);
    PercentOfFive(ss);
    TotalPointsBound(ss);
    Report(ss, FlagsOf(subs), AdviceOf(subs), RatingOf(Percent(ss)), Percent(ss))
  }

  /** Every recommendation comes with a flag of the same sub-score, so there are never more of them. */
  lemma {:induction false} AdviceWithinFlags(subs: seq<SubScore>)
    ensures |AdviceOf(subs)| <= |FlagsOf(subs)|
    ensures forall a :: a in AdviceOf(subs) ==> exists i :: 0 <= i < |subs| && subs[i].advice == a && Flagged(subs[i].level)
  {
    if |subs| > 0 {
      AdviceWithinFlags(subs[1..]);
      forall a | a in AdviceOf(subs)
        ensures exists i :: 0 <= i < |subs| && subs[i].advice == a && Flagged(subs[i].level)
      {
        if a !in AdviceOf(subs[1..]) {
          assert a == subs[0].advice && Advised(subs[0].key, subs[0].level);
        } else {
          var i :| 0 <= i < |subs[1..]| && subs[1..][i].advice == a && Flagged(subs[1..][i].level);
          assert subs[i + 1] == subs[1..][i];
        }
      }
    }
  }

  /** With five sub-scores the percentage is exactly ten points per scoring point. */
  lemma PercentOfFive(ss: seq<Score>)
    requires |ss| == 5
    ensures Percent(ss) == 10 * TotalPoints(ss)
  {
    TotalPointsBound(ss);
    var p := TotalPoints(ss);
    assert p as real / AtLeastOne(10) * 100.0 == (10 * p) as real;
    RoundInteger(10 * p);
  }

  /** Every flag comes from one of the sub-scores, in evaluation order. */
  lemma {:induction false} FlagsFromSubScores(subs: seq<SubScore>)
    ensures forall f :: f in FlagsOf(subs) ==> exists i :: 0 <= i < |subs| && subs[i].flag == f && Flagged(subs[i].level)
  {
    if |subs| > 0 {
      var tail := subs[1..];
      FlagsFromSubScores(tail);
      forall f | f in FlagsOf(subs)
        ensures exists i :: 0 <= i < |subs| && subs[i].flag == f && Flagged(subs[i].level)
      {
        if f !in FlagsOf(tail) {
          assert f == subs[0].flag;
        } else {
          var i :| 0 <= i < |tail| && tail[i].flag == f && Flagged(tail[i].level);
          assert subs[i + 1] == tail[i];
        }
      }
    }
  }

  lemma {:induction false} FlagsInOrder(subs: seq<SubScore>)
    requires forall i, j :: 0 <= i < j < |subs| ==> Rank(subs[i].key) < Rank(subs[j].key)
    requires forall i :: 0 <= i < |subs| ==> subs[i].flag.Key() == subs[i].key
    ensures forall i, j :: 0 <= i < j < |FlagsOf(subs)| ==> Rank(FlagsOf(subs)[i].Key()) < Rank(FlagsOf(subs)[j].Key())
  {
    if |subs| > 0 {
      var tail := subs[1..];
      forall i, j | 0 <= i < j < |tail| ensures Rank(tail[i].key) < Rank(tail[j].key) {
        assert tail[i] == subs[i + 1] && tail[j] == subs[j + 1];
      }
      forall i | 0 <= i < |tail| ensures tail[i].flag.Key() == tail[i].key {
        assert tail[i] == subs[i + 1];
      }
      FlagsInOrder(tail);
      var rest := FlagsOf(tail);
      forall i | 0 <= i < |tail| ensures Rank(tail[i].key) > Rank(subs[0].key) {
        assert tail[i] == subs[i + 1];
      }
      FlagsRankAbove(tail, Rank(subs[0].key));
      if Flagged(subs[0].level) {
        assert FlagsOf(subs) == [subs[0].flag] + rest;
        FlagBeforeOrdered(subs[0].flag, rest);
      } else {
        assert FlagsOf(subs) == rest;
      }
    }
  }

  /** Flags raised by sub-scores all ranked above `r` are ranked above `r`. */
  lemma {:induction false} FlagsRankAbove(subs: seq<SubScore>, r: int)
    requires forall i :: 0 <= i < |subs| ==> Rank(subs[i].key) > r
    requires forall i :: 0 <= i < |subs| ==> subs[i].flag.Key() == subs[i].key
    ensures forall f :: f in FlagsOf(subs) ==> Rank(f.Key()) > r
  {
    if |subs| > 0 {
      var tail := subs[1..];
      forall i | 0 <= i < |tail| ensures Rank(tail[i].key) > r && tail[i].flag.Key() == tail[i].key {
        assert tail[i] == subs[i + 1];
      }
      FlagsRankAbove(tail, r);
    }
  }

  /** A flag ranked before every flag of an ordered list keeps the list ordered when put in front. */
  lemma FlagBeforeOrdered(first: Flag, rest: seq<Flag>)
    requires forall f :: f in rest ==> Rank(f.Key()) > Rank(first.Key())
    requires forall i, j :: 0 <= i < j < |rest| ==> Rank(rest[i].Key()) < Rank(rest[j].Key())
    ensures forall i, j :: 0 <= i < j < |[first] + rest| ==> Rank(([first] + rest)[i].Key()) < Rank(([first] + rest)[j].Key())
  {
    var fs := [first] + rest;
    forall i, j | 0 <= i < j < |fs| ensures Rank(fs[i].Key()) < Rank(fs[j].Key()) {
      assert fs[j] == rest[j - 1];
      if i == 0 {
        assert fs[j] in rest;
      } else {
        assert fs[i] == rest[i - 1];
      }
    }
  }

  /** The scorecard's flags appear in the fixed evaluation order, at most one per sub-score. */
  lemma FlagsFollowEvaluationOrder(d: Data)
    ensures var fs := Assess(d).flags;
            forall i, j :: 0 <= i < j < |fs| ==> Rank(fs[i].Key()) < Rank(fs[j].Key())
  {
    FlagsInOrder(SubScores(d));
  }

  /** Every recommendation is emitted together with a flag of the same sub-score. */
  lemma RecommendationsHaveFlags(d: Data)
    ensures forall a :: a in Assess(d).recommendations ==>
              exists f :: f in Assess(d).flags && f.Key() == a.Key()
  {
    var subs := SubScores(d);
    AdviceWithinFlags(subs);
    FlagsInOrder(subs);
    forall a | a in Assess(d).recommendations
      ensures exists f :: f in Assess(d).flags && f.Key() == a.Key()
    {
      var i :| 0 <= i < |subs| && subs[i].advice == a && Flagged(subs[i].level);
      FlaggedIsListed(subs, i);
    }
  }

  lemma {:induction false} FlaggedIsListed(subs: seq<SubScore>, i: nat)
    requires i < |subs| && Flagged(subs[i].level)
    ensures subs[i].flag in FlagsOf(subs)
  {
    if i > 0 {
      FlaggedIsListed(subs[1..], i - 1);
    }
  }

  /** The scorecard's levels, read from the record. */
  lemma ScoreLevels(d: Data)
    ensures var ss := Assess(d).scores; var total := d.totalVms.GetOr(1);
            ss[0] == Score(VmWaste, WasteLevel(d.poweredOffVms.GetOr(0), total))
            && ss[1] == Score(CpuRatio, Tier(d.vcpuPcpuRatio.GetOr(0.0), 8.0, 4.0))
            && ss[2] == Score(OsCurrency, OsLevel(d.oldOsVms.GetOr(0), total))
            && ss[3] == Score(Storage, Tier(d.storageUtilization.GetOr(0.0), 85.0, 70.0))
            && ss[4] == Score(Density, DensityLevel(d.vmDensity.GetOr(0.0)))
  {
  }

  /** Without a ratio the CPU sub-score is good; without a density the density sub-score is critical and flagged. */
  lemma MissingFieldDefaults(d: Data)
    requires d.vcpuPcpuRatio.None? && d.vmDensity.None?
    ensures Assess(d).scores[1].level == Good
    ensures Assess(d).scores[4].level == Critical
    ensures DensityFlag(Critical, 0.0) in Assess(d).flags
  {
    FlaggedIsListed(SubScores(d), 4);
  }

  /** A density warning carries both a flag and a recommendation; a critical density only a flag. */
  lemma DensityAdvice(d: Data)
    ensures var dens := DensityLevel(d.vmDensity.GetOr(0.0));
            (ImproveDensity in Assess(d).recommendations <==> dens == Warning)
            && (DensityFlag(dens, d.vmDensity.GetOr(0.0)) in Assess(d).flags <==> dens != Good)
  {
    var subs := SubScores(d);
    var density := d.vmDensity.GetOr(0.0);
    assert subs[4] == SubScore(Density, DensityLevel(density), DensityFlag(DensityLevel(density), density), ImproveDensity);
    assert forall i :: 0 <= i < 4 ==> subs[i].advice.Key() != Density && subs[i].flag.Key() != Density;
    AdviceListed(subs);
    FlagsListed(subs);
  }

  lemma {:induction false} AdviceListed(subs: seq<SubScore>)
    ensures forall a :: a in AdviceOf(subs) <==> exists i :: 0 <= i < |subs| && subs[i].advice == a && Advised(subs[i].key, subs[i].level)
  {
    if |subs| > 0 {
      AdviceListed(subs[1..]);
      assert forall i :: 0 < i < |subs| ==> subs[i] == subs[1..][i - 1];
    }
  }

  lemma {:induction false} FlagsListed(subs: seq<SubScore>)
    ensures forall f :: f in FlagsOf(subs) <==> exists i :: 0 <= i < |subs| && subs[i].flag == f && Flagged(subs[i].level)
  {
    if |subs| > 0 {
      FlagsListed(subs[1..]);
      assert forall i :: 0 < i < |subs| ==> subs[i] == subs[1..][i - 1];
    }
  }

  /** The percentage as ten times the points of the five levels read from the record. */
  lemma PercentOfRecord(d: Data)
    ensures var total := d.totalVms.GetOr(1);
            Assess(d).overallPct == 10 * (Points(WasteLevel(d.poweredOffVms.GetOr(0), total))
                                          + Points(Tier(d.vcpuPcpuRatio.GetOr(0.0), 8.0, 4.0))
                                          + Points(OsLevel(d.oldOsVms.GetOr(0), total))
                                          + Points(Tier(d.storageUtilization.GetOr(0.0), 85.0, 70.0))
                                          + Points(DensityLevel(d.vmDensity.GetOr(0.0))))
  {
    ScoreLevels(d);
    UnrollFive(Assess(d).scores);
  }

  /** A record that is no worse on every input never gets a lower percentage. */
  lemma Monotone(a: Data, b: Data)
    requires a.totalVms.GetOr(1) == b.totalVms.GetOr(1)
    requires b.poweredOffVms.GetOr(0) <= a.poweredOffVms.GetOr(0)
    requires b.vcpuPcpuRatio.GetOr(0.0) <= a.vcpuPcpuRatio.GetOr(0.0)
    requires b.oldOsVms.GetOr(0) <= a.oldOsVms.GetOr(0)
    requires b.storageUtilization.GetOr(0.0) <= a.storageUtilization.GetOr(0.0)
    requires b.vmDensity.GetOr(0.0) >= a.vmDensity.GetOr(0.0)
    ensures Assess(a).overallPct <= Assess(b).overallPct
  {
    PercentOfRecord(a);
    PercentOfRecord(b);
    var total := a.totalVms.GetOr(1);
    assert Points(WasteLevel(a.poweredOffVms.GetOr(0), total)) <= Points(WasteLevel(b.poweredOffVms.GetOr(0), total));
    assert Points(OsLevel(a.oldOsVms.GetOr(0), total)) <= Points(OsLevel(b.oldOsVms.GetOr(0), total));
    assert Points(Tier(a.vcpuPcpuRatio.GetOr(0.0), 8.0, 4.0)) <= Points(Tier(b.vcpuPcpuRatio.GetOr(0.0), 8.0, 4.0));
    assert Points(Tier(a.storageUtilization.GetOr(0.0), 85.0, 70.0)) <= Points(Tier(b.storageUtilization.GetOr(0.0), 85.0, 70.0));
    assert Points(DensityLevel(a.vmDensity.GetOr(0.0))) <= Points(DensityLevel(b.vmDensity.GetOr(0.0)));
  }

  lemma UnrollFive(ss: seq<Score>)
    requires |ss| == 5
    ensures TotalPoints(ss) == Points(ss[0].level) + Points(ss[1].level) + Points(ss[2].level) + Points(ss[3].level) + Points(ss[4].level)
  {
    assert TotalPoints(ss[4..]) == Points(ss[4].level) + TotalPoints(ss[5..]);
    assert TotalPoints(ss[3..]) == Points(ss[3].level) + TotalPoints(ss[4..]) by { assert ss[3..][1..] == ss[4..]; }
    assert TotalPoints(ss[2..]) == Points(ss[2].level) + TotalPoints(ss[3..]) by { assert ss[2..][1..] == ss[3..]; }
    assert TotalPoints(ss[1..]) == Points(ss[1].level) + TotalPoints(ss[2..]) by { assert ss[1..][1..] == ss[2..]; }
  }

  /** The rating in terms of scoring points: Healthy from 8 of 10, Needs Attention from 5. */
  lemma RatingByPoints(d: Data)
    ensures var p := TotalPoints(Assess(d).scores);
            (Assess(d).overall == Healthy <==> p >= 8)
            && (Assess(d).overall == NeedsAttention <==> 5 <= p < 8)
            && (Assess(d).overall == AtRisk <==> p < 5)
  {
  }
}

=== FILE: inventory.dfy ===
/**
 * The parsed inventory record (the `data` dict every parser fills in) and the
 * derived fields the parsers share: power-state counts, the Windows/Linux and
 * legacy-OS classification, large-VM counts and the guarded ratios.
 * Every field is optional: a key the parser never set is `None`.
 */
module Inventory {
  import opened Wrappers
  import opened Text
  import opened Rounding
  import opened Workbook

  datatype Data = Data(
    totalVms: Option<nat>,
    poweredOnVms: Option<nat>,
    poweredOffVms: Option<nat>,
    totalVcpu: Option<int>,
    totalVramGb: Option<real>,
    osBreakdown: Option<map<string, nat>>,
    windowsVms: Option<nat>,
    linuxVms: Option<nat>,
    windowsRatio: Option<real>,
    largeVms: Option<nat>,
    oversizedCandidates: Option<nat>,
    oldOsVms: Option<nat>,
    oldOsList: Option<map<string, nat>>,
    totalClusters: Option<nat>,
    totalHosts: Option<nat>,
    totalPhysicalCores: Option<int>,
    totalPhysicalCpu: Option<int>,
    totalHostRamGb: Option<real>,
    vcpuPcpuRatio: Option<real>,
    vmDensity: Option<real>,
    totalStorageGb: Option<real>,
    consumedStorageGb: Option<real>,
    storageUtilization: Option<real>,
    source: Option<string>)

  /** `data = {}`. */
  const Empty: Data := Data(None, None, None, None, None, None, None, None, None, None, None, None,
                            None, None, None, None, None, None, None, None, None, None, None, None)

  /** `data.get(key)` used as a condition: present and non-zero. */
  predicate Truthy(o: Option<int>) {
    o.Some? && o.value != 0
  }

  predicate TruthyReal(o: Option<real>) {
    o.Some? && o.value != 0.0
  }

  /** `max(n, 1)` as a divisor. */
  function AtLeastOne(n: int): (d: real)
    ensures d >= 1.0 && d >= n as real
    ensures n >= 1 ==> d == n as real
  {
    if n >= 1 then n as real else 1.0
  }

  /** `int(pd.to_numeric(col, errors='coerce').fillna(0).sum())`. */
  function CoercedTotal(cells: seq<Cell>): int {
    Trunc(CoercedSum(cells))
  }

  /** The ways the parsers lower-case a text column before comparing it. */
  const OnWords: set<string> := {"poweredon", "on", "true"}
  const OffWords: set<string> := {"poweredoff", "off", "false"}
  const LegacyOnWords: set<string> := {"on", "poweredon"}
  const LegacyOffWords: set<string> := {"off", "poweredoff"}

  /** `(on, off)` from a power-state column: two disjoint word sets, so the counts never overlap. */
  function PowerCounts(cells: seq<Cell>, on: set<string>, off: set<string>, fold: bool): (r: (nat, nat))
    requires on !! off
    ensures r.0 == |set i | 0 <= i < |cells| && IsWord(cells[i], on, fold)|
    ensures r.1 == |set i | 0 <= i < |cells| && IsWord(cells[i], off, fold)|
    ensures r.0 + r.1 <= |cells|
  {
    CountWordsDisjoint(cells, on, off, fold);
    (CountWords(cells, on, fold), CountWords(cells, off, fold))
  }

  /**
   * The power-state fields of the LiveOptics parsers: counted from the
   * column when one was found, otherwise every VM is taken to be on.
   */
  function WithPower(d: Data, total: nat, col: Option<seq<Cell>>, on: set<string>, off: set<string>): (r: Data)
    requires on !! off
    requires col.Some? ==> |col.value| == total
    ensures r.poweredOnVms.Some? && r.poweredOffVms.Some?
    ensures col.None? ==> r.poweredOnVms == Some(total) && r.poweredOffVms == Some(0)
    ensures col.Some? ==> r.poweredOnVms == Some(|set i | 0 <= i < total && IsWord(col.value[i], on, true)|)
    ensures col.Some? ==> r.poweredOffVms == Some(|set i | 0 <= i < total && IsWord(col.value[i], off, true)|)
    ensures r.poweredOnVms.value + r.poweredOffVms.value <= total
    ensures r.(poweredOnVms := d.poweredOnVms, poweredOffVms := d.poweredOffVms) == d
  {
    match col
    case None => d.(poweredOnVms := Some(total), poweredOffVms := Some(0))
    case Some(cells) =>
      var counts := PowerCounts(cells, on, off, true);
      d.(poweredOnVms := Some(counts.0), poweredOffVms := Some(counts.1))
  }

  const WindowsWords: seq<string> := ["windows"]

  /** `windows_vms / max(total_vms, 1)` rounded to two decimals. */
  function WindowsRatio(windows: nat, total: nat): (r: real)
    ensures 0.0 <= r
    ensures windows <= total ==> r <= 1.0
  {
    var x := windows as real / AtLeastOne(total);
    ShareBounds(windows, total);
    Round2(x)
  }

  lemma ShareBounds(part: nat, total: nat)
    ensures 0.0 <= Round2(part as real / AtLeastOne(total))
    ensures part <= total ==> Round2(part as real / AtLeastOne(total)) <= 1.0
  {
    var x := part as real / AtLeastOne(total);
    Round2Monotone(0.0, x);
    Round2OfHundredths(0);
    if part <= total {
      AtMostOne(part as real, AtLeastOne(total));
      Round2Monotone(x, 1.0);
      Round2OfHundredths(100);
    }
  }

  /** A part no larger than a positive whole is at most all of it. */
  lemma AtMostOne(part: real, whole: real)
    requires 0.0 < whole && part <= whole
    ensures part / whole <= 1.0
  {
  }

  /**
   * The OS fields from an OS column: the breakdown by label, the Windows and
   * Linux counts (labels containing one of the words) and the Windows ratio.
   * Only text labels are classified.
   */
  function WithOs(d: Data, total: nat, cells: seq<Cell>, linuxWords: seq<string>): (r: Data)
    requires |cells| == total
    ensures r.osBreakdown.Some? && r.windowsVms.Some? && r.linuxVms.Some? && r.windowsRatio.Some?
    ensures forall k :: k in r.osBreakdown.value <==> Str(k) in cells
    ensures forall k :: k in r.osBreakdown.value ==> r.osBreakdown.value[k] == |set i | 0 <= i < |cells| && cells[i] == Str(k)|
    ensures r.windowsVms.value == |set i | 0 <= i < |cells| && TextContains(cells[i], WindowsWords)|
    ensures r.linuxVms.value == |set i | 0 <= i < |cells| && TextContains(cells[i], linuxWords)|
    ensures r.windowsVms.value <= total && r.linuxVms.value <= total
    ensures r.windowsRatio == Some(WindowsRatio(r.windowsVms.value, total))
    ensures 0.0 <= r.windowsRatio.value <= 1.0
    ensures r.(osBreakdown := d.osBreakdown, windowsVms := d.windowsVms, linuxVms := d.linuxVms,
               windowsRatio := d.windowsRatio) == d
  {
    var labels := Labels(cells);
    LabelsMeaning(cells);
    forall k | k in ValueCounts(labels)
      ensures ValueCounts(labels)[k] == |set i | 0 <= i < |cells| && cells[i] == Str(k)|
    {
      LabelsTally(cells, k);
    }
    var windows := CountContaining(labels, WindowsWords);
    var linux := CountContaining(labels, linuxWords);
    CountContainingCells(cells, WindowsWords);
    CountContainingCells(cells, linuxWords);
    d.(osBreakdown := Some(ValueCounts(labels)), windowsVms := Some(windows), linuxVms := Some(linux),
       windowsRatio := Some(WindowsRatio(windows, total)))
  }

  /** A label is a text cell of the column. */
  lemma {:induction false} LabelsMeaning(cells: seq<Cell>)
    ensures forall k :: k in Labels(cells) <==> Str(k) in cells
  {
    if |cells| > 0 {
      var init := cells[..|cells| - 1];
      LabelsMeaning(init);
      assert cells == init + [cells[|cells| - 1]];
    }
  }

  /**
   * The legacy-OS fields: the number of VMs whose lower-cased label contains
   * one of the keywords, and a tally of those labels.
   */
  function WithOldOs(d: Data, cells: seq<Cell>, keywords: seq<string>): (r: Data)
    ensures r.oldOsVms.Some? && r.oldOsList.Some?
    ensures forall k :: k in r.oldOsList.value <==> Str(k) in cells && ContainsAny(Lower(k), keywords)
    ensures forall k :: k in r.oldOsList.value ==> r.oldOsList.value[k] == |set i | 0 <= i < |cells| && cells[i] == Str(k)|
    ensures r.oldOsVms.value == |set i | 0 <= i < |cells| && TextContains(cells[i], keywords)|
    ensures r.oldOsVms.value <= |cells|
    ensures r.(oldOsVms := d.oldOsVms, oldOsList := d.oldOsList) == d
  {
    var labels := Labels(cells);
    var legacy := Containing(labels, keywords);
    LabelsMeaning(cells);
    ContainingMeaning(labels, keywords);
    CountContainingCells(cells, keywords);
    forall k | ContainsAny(Lower(k), keywords)
      ensures multiset(legacy)[k] == |set i | 0 <= i < |cells| && cells[i] == Str(k)|
    {
      LabelsTally(cells, k);
    }
    d.(oldOsVms := Some(|legacy|), oldOsList := Some(if |legacy| > 0 then ValueCounts(legacy) else map[]))
  }

  /** Filtering labels keeps every matching label, with all of its occurrences, and nothing else. */
  lemma {:induction false} ContainingMeaning(labels: seq<string>, needles: seq<string>)
    ensures forall k :: k in Containing(labels, needles) <==> k in labels && ContainsAny(Lower(k), needles)
    ensures forall k :: ContainsAny(Lower(k), needles) ==> multiset(Containing(labels, needles))[k] == multiset(labels)[k]
  {
    if |labels| > 0 {
      var init := labels[..|labels| - 1];
      ContainingMeaning(init, needles);
      assert labels == init + [labels[|labels| - 1]];
    }
  }

  /** The large and oversized counts: VMs with at least 8 and at least 16 vCPUs. */
  function WithLarge(d: Data, cells: seq<Cell>): (r: Data)
    ensures r.largeVms == Some(|set i | 0 <= i < |cells| && AtLeast(cells[i], 8.0)|)
    ensures r.oversizedCandidates == Some(|set i | 0 <= i < |cells| && AtLeast(cells[i], 16.0)|)
    ensures r.oversizedCandidates.value <= r.largeVms.value <= |cells|
    ensures r.(largeVms := d.largeVms, oversizedCandidates := d.oversizedCandidates) == d
  {
    CountAtLeastAntitone(cells, 8.0, 16.0);
    d.(largeVms := Some(CountAtLeast(cells, 8.0)), oversizedCandidates := Some(CountAtLeast(cells, 16.0)))
  }

  /** The power counts of a sheet of `total` VMs read from `col`; without a column every VM is on. */
  predicate PowerCounted(r: Data, total: nat, col: Option<seq<Cell>>, on: set<string>, off: set<string>) {
    match col
    case None => r.poweredOnVms == Some(total) && r.poweredOffVms == Some(0)
    case Some(cells) =>
      && r.poweredOnVms == Some(|set i | 0 <= i < |cells| && IsWord(cells[i], on, true)|)
      && r.poweredOffVms == Some(|set i | 0 <= i < |cells| && IsWord(cells[i], off, true)|)
  }

  /** The large and oversized counts of a vCPU column: the cells of at least 8 and of at least 16. */
  predicate LargeCounted(r: Data, cells: seq<Cell>) {
    && r.largeVms == Some(|set i | 0 <= i < |cells| && AtLeast(cells[i], 8.0)|)
    && r.oversizedCandidates == Some(|set i | 0 <= i < |cells| && AtLeast(cells[i], 16.0)|)
  }

  /**
   * The OS fields read from the OS column of a sheet of `total` VMs: the
   * label tally, the Windows and Linux counts and the ratio, and the
   * labels and count of the VMs whose OS names a legacy release.
   */
  ghost predicate OsCounted(r: Data, total: nat, cells: seq<Cell>, linuxWords: seq<string>, oldWords: seq<string>) {
    && r.osBreakdown.Some? && r.oldOsList.Some?
    && (forall k :: k in r.osBreakdown.value <==> Str(k) in cells)
    && (forall k :: k in r.osBreakdown.value ==> r.osBreakdown.value[k] == |set i | 0 <= i < |cells| && cells[i] == Str(k)|)
    && r.windowsVms == Some(|set i | 0 <= i < |cells| && TextContains(cells[i], WindowsWords)|)
    && r.linuxVms == Some(|set i | 0 <= i < |cells| && TextContains(cells[i], linuxWords)|)
    && r.windowsRatio == Some(WindowsRatio(r.windowsVms.value, total))
    && (forall k :: k in r.oldOsList.value <==> Str(k) in cells && ContainsAny(Lower(k), oldWords))
    && (forall k :: k in r.oldOsList.value ==> r.oldOsList.value[k] == |set i | 0 <= i < |cells| && cells[i] == Str(k)|)
    && r.oldOsVms == Some(|set i | 0 <= i < |cells| && TextContains(cells[i], oldWords)|)
  }

  /** The OS fields of both parsers' VM sheets: the breakdown and ratio, then the legacy-OS tally. */
  function WithOsFields(d: Data, total: nat, cells: seq<Cell>, linuxWords: seq<string>, oldWords: seq<string>): (r: Data)
    requires |cells| == total
    ensures OsCounted(r, total, cells, linuxWords, oldWords)
    ensures 0.0 <= r.windowsRatio.value <= 1.0
    ensures r.(osBreakdown := d.osBreakdown, windowsVms := d.windowsVms, linuxVms := d.linuxVms,
               windowsRatio := d.windowsRatio, oldOsVms := d.oldOsVms, oldOsList := d.oldOsList) == d
  {
    var d1 := WithOs(d, total, cells, linuxWords);
    var r := WithOldOs(d1, cells, oldWords);
    assert r.(oldOsVms := d1.oldOsVms, oldOsList := d1.oldOsList) == d1;
    r
  }

  /** `OsCounted` looks only at the six OS fields. */
  lemma OsCountedFrame(r: Data, r': Data, total: nat, os: Option<seq<Cell>>, linuxWords: seq<string>, oldWords: seq<string>)
    requires os.Some? ==> OsCounted(r, total, os.value, linuxWords, oldWords)
    requires r'.osBreakdown == r.osBreakdown && r'.windowsVms == r.windowsVms && r'.linuxVms == r.linuxVms
    requires r'.windowsRatio == r.windowsRatio && r'.oldOsVms == r.oldOsVms && r'.oldOsList == r.oldOsList
    ensures os.Some? ==> OsCounted(r', total, os.value, linuxWords, oldWords)
  {
  }

  /**
   * `round(vcpu / cores, 2)`, set only when both counts are present and
   * non-zero; otherwise the previous value is kept.
   */
  function WithRatio(d: Data): (r: Data)
    ensures r.vcpuPcpuRatio.Some? <==> d.vcpuPcpuRatio.Some? || (Truthy(d.totalVcpu) && Truthy(d.totalPhysicalCores))
    ensures Truthy(d.totalVcpu) && Truthy(d.totalPhysicalCores) ==>
              var exact := d.totalVcpu.value as real / d.totalPhysicalCores.value as real;
              exact - 0.005 <= r.vcpuPcpuRatio.value <= exact + 0.005
    ensures r.(vcpuPcpuRatio := d.vcpuPcpuRatio) == d
  {
    if Truthy(d.totalVcpu) && Truthy(d.totalPhysicalCores) then
      d.(vcpuPcpuRatio := Some(Round2(d.totalVcpu.value as real / d.totalPhysicalCores.value as real)))
    else d
  }

  /** `round(vms / hosts, 1)`, set only when both counts are present and non-zero. */
  function WithDensity(d: Data): (r: Data)
    ensures r.vmDensity.Some? <==> d.vmDensity.Some? || (Truthy(d.totalVms) && Truthy(d.totalHosts))
    ensures Truthy(d.totalVms) && Truthy(d.totalHosts) ==>
              var exact := d.totalVms.value as real / d.totalHosts.value as real;
              exact - 0.05 <= r.vmDensity.value <= exact + 0.05
    ensures r.(vmDensity := d.vmDensity) == d
  {
    if Truthy(d.totalVms) && Truthy(d.totalHosts) then
      d.(vmDensity := Some(Round1(d.totalVms.value as real / d.totalHosts.value as real)))
    else d
  }

  /**
   * The storage fields of both LiveOptics parsers: each total is its column's
   * coerced sum to cents, and the utilisation needs a positive capacity and a
   * non-zero consumption.
   */
  function WithStorage(d: Data, cap: Option<seq<Cell>>, used: Option<seq<Cell>>): (r: Data)
    requires d.storageUtilization.None?
    ensures r.totalStorageGb == (if cap.Some? then Some(Round2(CoercedSum(cap.value))) else d.totalStorageGb)
    ensures r.consumedStorageGb == (if used.Some? then Some(Round2(CoercedSum(used.value))) else d.consumedStorageGb)
    ensures r.storageUtilization.Some? <==>
              r.totalStorageGb.Some? && r.totalStorageGb.value > 0.0 && TruthyReal(r.consumedStorageGb)
    ensures r.storageUtilization.Some? ==>
              var exact := r.consumedStorageGb.value / r.totalStorageGb.value * 100.0;
              exact - 0.05 <= r.storageUtilization.value <= exact + 0.05
    ensures r.(totalStorageGb := d.totalStorageGb, consumedStorageGb := d.consumedStorageGb,
               storageUtilization := d.storageUtilization) == d
  {
    var d0 := if cap.Some? then d.(totalStorageGb := Some(Round2(CoercedSum(cap.value)))) else d;
    var d1 := if used.Some? then d0.(consumedStorageGb := Some(Round2(CoercedSum(used.value)))) else d0;
    var r := WithUtilization(d1, true);
    assert r.(storageUtilization := None) == d1.(storageUtilization := None);
    r
  }

  /**
   * `round(consumed / total * 100, 1)`, set only when the capacity is
   * positive and, if `needConsumed`, the consumed figure is non-zero.
   */
  function WithUtilization(d: Data, needConsumed: bool): (r: Data)
    requires d.totalStorageGb.Some? ==> d.consumedStorageGb.Some? || needConsumed
    ensures r.storageUtilization.Some? <==> d.storageUtilization.Some? || UtilizationGuard(d, needConsumed)
    ensures UtilizationGuard(d, needConsumed) ==>
              var exact := d.consumedStorageGb.value / d.totalStorageGb.value * 100.0;
              exact - 0.05 <= r.storageUtilization.value <= exact + 0.05
    ensures r.(storageUtilization := d.storageUtilization) == d
  {
    if UtilizationGuard(d, needConsumed) then
      d.(storageUtilization := Some(Round1(d.consumedStorageGb.value / d.totalStorageGb.value * 100.0)))
    else d
  }

  /** `data.get('total_storage_gb', 0) > 0`, and when `needConsumed` also `data.get('consumed_storage_gb')`. */
  predicate UtilizationGuard(d: Data, needConsumed: bool) {
    d.totalStorageGb.Some? && d.totalStorageGb.value > 0.0 && d.consumedStorageGb.Some?
    && (!needConsumed || d.consumedStorageGb.value != 0.0)
  }

  /** Consumption within capacity gives a utilisation within [0, 100]. */
  lemma UtilizationBounded(d: Data, needConsumed: bool)
    requires d.totalStorageGb.Some? && d.totalStorageGb.value > 0.0
    requires d.consumedStorageGb.Some? && 0.0 <= d.consumedStorageGb.value <= d.totalStorageGb.value
    requires d.storageUtilization.None?
    ensures var r := WithUtilization(d, needConsumed);
            r.storageUtilization.Some? ==> 0.0 <= r.storageUtilization.value <= 100.0
  {
    var x := d.consumedStorageGb.value / d.totalStorageGb.value * 100.0;
    assert 0.0 <= x <= 100.0;
    Round1Monotone(0.0, x);
    Round1Monotone(x, 100.0);
    Round1OfTenths(0);
    Round1OfTenths(1000);
  }
}

=== FILE: legacy_liveoptics.dfy ===
/**
 * The older LiveOptics parser (`parser/liveoptics.py`): the same sheets as
 * the newer one under shorter synonym lists, the older resolver (sheet names
 * lower-cased only, every column synonym allowed in the fallback), a host
 * memory threshold of 500, the cluster count taken from a cluster sheet, and
 * text columns read through pandas' `.str` accessor, which raises on a column
 * without text. Column headers are text here; a numeric or date header, on
 * which the header strip and `_find_col` also raise, is not modelled.
 */
module LegacyLiveOptics {
  import opened Wrappers
  import opened Text
  import opened Rounding
  import opened Workbook
  import opened Resolver
  import opened Units
  import opened Inventory
  import opened Health

  const VmSheets: seq<string> := ["vms", "virtual machines", "vm inventory"]
  const HostSheets: seq<string> := ["hosts", "host inventory", "esx hosts", "esxi hosts"]
  const ClusterSheets: seq<string> := ["clusters", "cluster summary", "cluster inventory"]
  const StorageSheets: seq<string> := ["datastores", "datastore inventory", "storage"]

  const PowerColumns: seq<string> := ["power state", "powerstate", "power"]
  const CpuColumns: seq<string> := ["vcpus", "cpus", "cpu count", "num cpu", "vcpu"]
  const VmMemoryColumns: seq<string> := ["memory (mb)", "memory(mb)", "memory mb", "ram (mb)", "memory"]
  const OsColumns: seq<string> := ["operating system", "os", "guest os", "os type"]
  const CoreColumns: seq<string> := ["total cores", "cores", "num cores", "cpu cores"]
  const SocketColumns: seq<string> := ["cpu sockets", "sockets", "num sockets"]
  const HostMemoryColumns: seq<string> :=
    ["memory (gb)", "memory(gb)", "memory gb", "ram (gb)", "total memory", "memory"]
  const CapacityColumns: seq<string> := ["capacity (gb)", "capacity(gb)", "capacity gb", "total capacity", "capacity"]
  const UsedColumns: seq<string> := ["used (gb)", "used(gb)", "used gb", "used space", "used"]

  const LinuxWords: seq<string> := ["linux", "red hat", "ubuntu", "centos", "suse", "rhel"]
  const OldOsWords: seq<string> := ["2008", "2003", "2012", "windows 7", "centos 6", "rhel 6", "rhel6"]

  /** `df[_find_col(df, synonyms)]` on a sheet whose headers were stripped, if a column is found. */
  function Find(s: Sheet, synonyms: seq<string>): Option<seq<Cell>> {
    var c := LegacyFindCol(s.columns, synonyms);
    if c.Some? then Some(Column(s, c.value)) else None
  }

  lemma FoundColumnLength(s: Sheet, synonyms: seq<string>)
    ensures Find(s, synonyms).Some? ==> |Find(s, synonyms).value| == |s.rows|
  {
  }

  /** A found column read through `.str`: pandas raises unless it holds text (or no rows at all). */
  predicate StrRaises(col: Option<seq<Cell>>) {
    col.Some? && !StrAccessorOk(col.value)
  }

  /** The VM sheet raises when its power-state or OS column has no text in it. */
  predicate VmSheetRaises(raw: Sheet) {
    var s := StripHeaders(raw);
    StrRaises(Find(s, PowerColumns)) || StrRaises(Find(s, OsColumns))
  }

  /** The VM count and the power-state counts; every VM counts as on when there is no power column. */
  function PowerStage(s: Sheet): (r: Data)
    ensures r.totalVms == Some(|s.rows|)
    ensures r.poweredOnVms.Some? && r.poweredOffVms.Some?
    ensures Find(s, PowerColumns).None? ==> r.poweredOnVms == Some(|s.rows|) && r.poweredOffVms == Some(0)
    ensures PowerCounted(r, |s.rows|, Find(s, PowerColumns), LegacyOnWords, LegacyOffWords)
    ensures r.poweredOnVms.value + r.poweredOffVms.value <= |s.rows|
    ensures r.(totalVms := None, poweredOnVms := None, poweredOffVms := None) == Empty
  {
    FoundColumnLength(s, PowerColumns);
    WithPower(Empty.(totalVms := Some(|s.rows|)), |s.rows|, Find(s, PowerColumns), LegacyOnWords, LegacyOffWords)
  }

  /** The vCPU total, the large and oversized counts, and the VM memory in GiB. */
  function CpuMemoryStage(d: Data, s: Sheet): (r: Data)
    requires d.largeVms.None? && d.totalVramGb.None?
    ensures r.largeVms.Some? <==> Find(s, CpuColumns).Some?
    ensures r.largeVms.Some? ==> r.oversizedCandidates.Some? && r.oversizedCandidates.value <= r.largeVms.value <= |s.rows|
    ensures var cpu := Find(s, CpuColumns);
            cpu.Some? ==> r.totalVcpu == Some(CoercedTotal(cpu.value)) && LargeCounted(r, cpu.value)
    ensures r.totalVramGb.Some? <==> Find(s, VmMemoryColumns).Some?
    ensures r.totalVramGb.Some? ==> r.totalVramGb.value == VmMemoryGb(NumericValues(Find(s, VmMemoryColumns).value))
    ensures r.(totalVcpu := d.totalVcpu, totalVramGb := d.totalVramGb, largeVms := d.largeVms,
               oversizedCandidates := d.oversizedCandidates) == d
  {
    FoundColumnLength(s, CpuColumns);
    var cpu := Find(s, CpuColumns);
    var d1 := if cpu.Some? then WithLarge(d.(totalVcpu := Some(CoercedTotal(cpu.value))), cpu.value) else d;
    var mem := Find(s, VmMemoryColumns);
    if mem.Some? then d1.(totalVramGb := Some(VmMemoryGb(NumericValues(mem.value)))) else d1
  }

  /** The OS breakdown, the Windows/Linux counts and ratio, and the legacy-OS tally. */
  function OsStage(d: Data, s: Sheet): (r: Data)
    requires d.windowsRatio.None? && d.oldOsList.None?
    ensures r.windowsRatio.Some? <==> Find(s, OsColumns).Some?
    ensures r.windowsRatio.Some? ==> 0.0 <= r.windowsRatio.value <= 1.0
    ensures var os := Find(s, OsColumns);
            os.Some? ==> OsCounted(r, |s.rows|, os.value, LinuxWords, OldOsWords)
    ensures r.(osBreakdown := d.osBreakdown, windowsVms := d.windowsVms, linuxVms := d.linuxVms,
               windowsRatio := d.windowsRatio, oldOsVms := d.oldOsVms, oldOsList := d.oldOsList) == d
  {
    FoundColumnLength(s, OsColumns);
    var os := Find(s, OsColumns);
    if os.Some? then WithOsFields(d, |s.rows|, os.value, LinuxWords, OldOsWords) else d
  }

  /** The fields read from the VM sheet, after its headers are stripped. */
  function VmSheet(raw: Sheet): (r: Data)
    ensures r.totalVms == Some(|raw.rows|)
    ensures r.poweredOnVms.Some? && r.poweredOffVms.Some?
    ensures r.poweredOnVms.value + r.poweredOffVms.value <= |raw.rows|
    ensures var s := StripHeaders(raw);
            && PowerCounted(r, |raw.rows|, Find(s, PowerColumns), LegacyOnWords, LegacyOffWords)
            && (Find(s, CpuColumns).Some? ==>
                  r.totalVcpu == Some(CoercedTotal(Find(s, CpuColumns).value)) && LargeCounted(r, Find(s, CpuColumns).value))
            && (Find(s, VmMemoryColumns).Some? ==> r.totalVramGb == Some(VmMemoryGb(NumericValues(Find(s, VmMemoryColumns).value))))
            && (Find(s, OsColumns).Some? ==> OsCounted(r, |raw.rows|, Find(s, OsColumns).value, LinuxWords, OldOsWords))
    ensures r.largeVms.Some? ==> r.oversizedCandidates.Some? && r.oversizedCandidates.value <= r.largeVms.value <= |raw.rows|
    ensures r.windowsRatio.Some? ==> 0.0 <= r.windowsRatio.value <= 1.0
    ensures r.totalHosts.None? && r.vcpuPcpuRatio.None? && r.vmDensity.None? && r.totalPhysicalCores.None?
    ensures r.totalStorageGb.None? && r.consumedStorageGb.None? && r.storageUtilization.None? && r.source.None?
    ensures r.totalClusters.None?
  {
    var s := StripHeaders(raw);
    OsStage(CpuMemoryStage(PowerStage(s), s), s)
  }

  /** The host count and the core, socket and memory totals (memory above a mean of 500 read as MiB). */
  function HostCounts(d: Data, s: Sheet): (r: Data)
    ensures r.totalHosts == Some(|s.rows|)
    ensures Find(s, SocketColumns).Some? ==> r.totalPhysicalCpu == Some(CoercedTotal(Find(s, SocketColumns).value))
    ensures Find(s, SocketColumns).None? ==> r.totalPhysicalCpu == d.totalPhysicalCpu
    ensures Find(s, CoreColumns).Some? ==> r.totalPhysicalCores == Some(CoercedTotal(Find(s, CoreColumns).value))
    ensures Find(s, CoreColumns).None? ==> r.totalPhysicalCores == d.totalPhysicalCores
    ensures r.totalHostRamGb.Some? <==> d.totalHostRamGb.Some? || Find(s, HostMemoryColumns).Some?
    ensures Find(s, HostMemoryColumns).Some? ==>
              r.totalHostRamGb == Some(LegacyHostMemoryGb(NumericValues(Find(s, HostMemoryColumns).value)))
    ensures r.(totalHosts := d.totalHosts, totalPhysicalCores := d.totalPhysicalCores,
               totalPhysicalCpu := d.totalPhysicalCpu, totalHostRamGb := d.totalHostRamGb) == d
  {
    var cores := Find(s, CoreColumns);
    var sockets := Find(s, SocketColumns);
    var mem := Find(s, HostMemoryColumns);
    var d0 := d.(totalHosts := Some(|s.rows|));
    var d1 := if cores.Some? then d0.(totalPhysicalCores := Some(CoercedTotal(cores.value))) else d0;
    var d2 := if sockets.Some? then d1.(totalPhysicalCpu := Some(CoercedTotal(sockets.value))) else d1;
    if mem.Some? then d2.(totalHostRamGb := Some(LegacyHostMemoryGb(NumericValues(mem.value)))) else d2
  }

  /** The host fields, then the guarded vCPU:pCPU ratio and VM density. */
  function HostSheet(d: Data, raw: Sheet): (r: Data)
    requires d.vcpuPcpuRatio.None? && d.vmDensity.None?
    ensures r.totalHosts == Some(|raw.rows|)
    ensures r.vcpuPcpuRatio.Some? <==> Truthy(d.totalVcpu) && Truthy(r.totalPhysicalCores)
    ensures r.vmDensity.Some? <==> Truthy(d.totalVms) && |raw.rows| != 0
    ensures r.vmDensity.Some? ==>
              var exact := d.totalVms.value as real / |raw.rows| as real;
              exact - 0.05 <= r.vmDensity.value <= exact + 0.05
    ensures r.(totalHosts := d.totalHosts, totalPhysicalCores := d.totalPhysicalCores,
               totalPhysicalCpu := d.totalPhysicalCpu, totalHostRamGb := d.totalHostRamGb,
               vcpuPcpuRatio := d.vcpuPcpuRatio, vmDensity := d.vmDensity) == d
  {
    WithDensity(WithRatio(HostCounts(d, StripHeaders(raw))))
  }

  /** The storage totals and the utilisation, set only for a positive capacity and a non-zero consumption. */
  function StorageSheet(d: Data, raw: Sheet): (r: Data)
    requires d.storageUtilization.None? && d.totalStorageGb.None? && d.consumedStorageGb.None?
    ensures var s := StripHeaders(raw);
            && (Find(s, CapacityColumns).Some? <==> r.totalStorageGb.Some?)
            && (r.totalStorageGb.Some? ==> r.totalStorageGb.value == Round2(CoercedSum(Find(s, CapacityColumns).value)))
            && (Find(s, UsedColumns).Some? <==> r.consumedStorageGb.Some?)
            && (r.consumedStorageGb.Some? ==> r.consumedStorageGb.value == Round2(CoercedSum(Find(s, UsedColumns).value)))
    ensures r.storageUtilization.Some? <==>
              r.totalStorageGb.Some? && r.totalStorageGb.value > 0.0 && TruthyReal(r.consumedStorageGb)
    ensures r.storageUtilization.Some? ==>
              var exact := r.consumedStorageGb.value / r.totalStorageGb.value * 100.0;
              exact - 0.05 <= r.storageUtilization.value <= exact + 0.05
    ensures r.(totalStorageGb := d.totalStorageGb, consumedStorageGb := d.consumedStorageGb,
               storageUtilization := d.storageUtilization) == d
  {
    var s := StripHeaders(raw);
    WithStorage(d, Find(s, CapacityColumns), Find(s, UsedColumns))
  }

  /** Reading the workbook raises exactly when the VM sheet is found and raises. */
  predicate Raises(b: Book) {
    var vm := LegacyFindSheet(SheetNames(b), VmSheets);
    vm.Some? && VmSheetRaises(GetSheet(b, vm.value))
  }

  /** The fields of the VM, host and cluster sheets, whichever of them the workbook has. */
  function Sheets(b: Book): (d: Data)
    ensures var names := SheetNames(b);
            && (d.totalVms.Some? <==> LegacyFindSheet(names, VmSheets).Some?)
            && (d.totalHosts.Some? <==> LegacyFindSheet(names, HostSheets).Some?)
            && (d.totalClusters.Some? <==> LegacyFindSheet(names, ClusterSheets).Some?)
            && (d.totalClusters.Some? ==> d.totalClusters.value == |GetSheet(b, LegacyFindSheet(names, ClusterSheets).value).rows|)
            && (d.poweredOnVms.Some? ==> d.poweredOffVms.Some? && d.totalVms.Some?
                                         && d.poweredOnVms.value + d.poweredOffVms.value <= d.totalVms.value)
            && (d.vcpuPcpuRatio.Some? <==> d.totalHosts.Some? && Truthy(d.totalVcpu) && Truthy(d.totalPhysicalCores))
            && (d.vmDensity.Some? <==> d.totalHosts.Some? && Truthy(d.totalVms) && d.totalHosts.value != 0)
            && (d.largeVms.Some? ==> d.oversizedCandidates.Some? && d.oversizedCandidates.value <= d.largeVms.value)
            && (d.windowsRatio.Some? ==> 0.0 <= d.windowsRatio.value <= 1.0)
            && d.totalStorageGb.None? && d.consumedStorageGb.None? && d.storageUtilization.None? && d.source.None?
  {
    var names := SheetNames(b);
    var vm := LegacyFindSheet(names, VmSheets);
    var d1 := if vm.Some? then VmSheet(GetSheet(b, vm.value)) else Empty;
    var host := LegacyFindSheet(names, HostSheets);
    var d2 := if host.Some? then HostSheet(d1, GetSheet(b, host.value)) else d1;
    var cluster := LegacyFindSheet(names, ClusterSheets);
    if cluster.Some? then d2.(totalClusters := Some(|GetSheet(b, cluster.value).rows|)) else d2
  }

  /** The record built from a workbook that does not raise: the sheet fields, the storage fields, and the source tag. */
  function Collect(b: Book): (d: Data)
    ensures d.source == Some("LiveOptics")
    ensures d.storageUtilization.Some? <==>
              d.totalStorageGb.Some? && d.totalStorageGb.value > 0.0 && TruthyReal(d.consumedStorageGb)
    ensures d.(totalStorageGb := None, consumedStorageGb := None, storageUtilization := None, source := None) == Sheets(b)
  {
    var d2 := Sheets(b);
    var storage := LegacyFindSheet(SheetNames(b), StorageSheets);
    var d3 := if storage.Some? then StorageSheet(d2, GetSheet(b, storage.value)) else d2;
    assert d3.(totalStorageGb := None, consumedStorageGb := None, storageUtilization := None) == d2;
    d3.(source := Some("LiveOptics"))
  }

  /** `parse_liveoptics(filepath)`: an unreadable workbook or a text column without text gives the error outcome. */
  function Parse(f: WorkbookFile): (r: Outcome)
    ensures r.Failed? <==> f.Unreadable? || Raises(f.book)
    ensures r.Parsed? ==> r.data == Collect(f.book) && r.health == Assess(r.data)
  {
    match f
    case Unreadable(_) => Failed
    case Readable(b) =>
      if Raises(b) then Failed
      else
        var d := Collect(b);
        Parsed(d, Assess(d))
  }
}

=== FILE: liveoptics.dfy ===
/**
 * The newer LiveOptics parser (`_app/parser/liveoptics.py`): sheets and
 * columns are found through the synonym resolver, every numeric column is
 * coerced (`pd.to_numeric(..., errors='coerce').fillna(0)`) and every text
 * comparison goes through `astype(str)`, so once the workbook is open and
 * its column headers are text the parse succeeds. Headers are text by
 * construction here: a numeric or date header, on which the source's header
 * strip and `_find_col` raise, is not modelled.
 */
module LiveOptics {
  import opened Wrappers
  import opened Text
  import opened Rounding
  import opened Workbook
  import opened Resolver
  import opened Units
  import opened Inventory
  import opened Health

  const VmSheets: seq<string> := ["vms", "virtual machines", "vm inventory"]
  const HostSheets: seq<string> := ["esx hosts", "esxi hosts", "hosts", "host inventory"]
  const StorageSheets: seq<string> := ["host devices", "datastores", "datastore inventory", "storage"]

  const PowerColumns: seq<string> := ["power state", "powerstate", "isrunning"]
  const CpuColumns: seq<string> := ["virtual cpu", "vcpus", "cpus", "cpu count", "num cpu", "vcpu"]
  const VmMemoryColumns: seq<string> :=
    ["provisioned memory (mib)", "memory (mib)", "provisioned memory", "memory (mb)", "memory(mb)",
     "memory mb", "ram (mb)", "memory"]
  const OsColumns: seq<string> := ["vm os", "operating system", "guest os", "os type"]
  const ClusterColumns: seq<string> := ["cluster"]
  const SocketColumns: seq<string> := ["cpu sockets", "sockets", "num sockets"]
  const CoreColumns: seq<string> := ["cpu cores", "total cores", "cores", "num cores", "cores per socket"]
  const HostMemoryColumns: seq<string> :=
    ["memory (kib)", "memory(kib)", "memory (kb)", "memory (gb)", "memory(gb)", "memory gb", "ram (gb)",
     "total memory", "memory"]
  const VmCountColumns: seq<string> := ["guest vm count", "number of vms", "vm count", "vms"]
  const CapacityColumns: seq<string> :=
    ["capacity (gib)", "capacity(gib)", "capacity (gb)", "capacity(gb)", "capacity gb", "total capacity", "capacity"]
  const UsedColumns: seq<string> :=
    ["used capacity (gib)", "used (gib)", "used capacity (gb)", "used (gb)", "used gb", "used space", "used"]

  const LinuxWords: seq<string> := ["linux", "red hat", "ubuntu", "centos", "suse", "rhel"]
  const OldOsWords: seq<string> := ["2008", "2003", "2012", "windows 7", "centos 6", "rhel 6", "rhel6", "windows 10"]

  /** `df[_find_col(df, synonyms)]` on a sheet whose headers were stripped, if a column is found. */
  function Find(s: Sheet, synonyms: seq<string>): Option<seq<Cell>> {
    var c := FindCol(s.columns, synonyms);
    if c.Some? then Some(Column(s, c.value)) else None
  }

  lemma FoundColumnLength(s: Sheet, synonyms: seq<string>)
    ensures Find(s, synonyms).Some? ==> |Find(s, synonyms).value| == |s.rows|
  {
  }

  /** The VM count and the power-state counts; every VM counts as on when there is no power column. */
  function PowerStage(s: Sheet): (r: Data)
    ensures r.totalVms == Some(|s.rows|)
    ensures r.poweredOnVms.Some? && r.poweredOffVms.Some?
    ensures Find(s, PowerColumns).None? ==> r.poweredOnVms == Some(|s.rows|) && r.poweredOffVms == Some(0)
    ensures PowerCounted(r, |s.rows|, Find(s, PowerColumns), OnWords, OffWords)
    ensures r.poweredOnVms.value + r.poweredOffVms.value <= |s.rows|
    ensures r.(totalVms := None, poweredOnVms := None, poweredOffVms := None) == Empty
  {
    FoundColumnLength(s, PowerColumns);
    WithPower(Empty.(totalVms := Some(|s.rows|)), |s.rows|, Find(s, PowerColumns), OnWords, OffWords)
  }

  /** The vCPU total, the large and oversized counts, and the VM memory in GiB. */
  function CpuMemoryStage(d: Data, s: Sheet): (r: Data)
    ensures r.largeVms.Some? <==> Find(s, CpuColumns).Some?
    ensures r.largeVms.Some? ==> r.oversizedCandidates.Some? && r.oversizedCandidates.value <= r.largeVms.value <= |s.rows|
    ensures var cpu := Find(s, CpuColumns);
            cpu.Some? ==> r.totalVcpu == Some(CoercedTotal(cpu.value)) && LargeCounted(r, cpu.value)
    ensures r.totalVramGb.Some? <==> Find(s, VmMemoryColumns).Some?
    ensures r.totalVramGb.Some? ==> r.totalVramGb.value == VmMemoryGb(NumericValues(Find(s, VmMemoryColumns).value))
    ensures r.(totalVcpu := d.totalVcpu, totalVramGb := d.totalVramGb, largeVms := d.largeVms,
               oversizedCandidates := d.oversizedCandidates) == d
    requires d.largeVms.None? && d.totalVramGb.None?
  {
    FoundColumnLength(s, CpuColumns);
    var cpu := Find(s, CpuColumns);
    var d1 := if cpu.Some? then WithLarge(d.(totalVcpu := Some(CoercedTotal(cpu.value))), cpu.value) else d;
    var mem := Find(s, VmMemoryColumns);
    if mem.Some? then d1.(totalVramGb := Some(VmMemoryGb(NumericValues(mem.value)))) else d1
  }

  /** The OS breakdown, the Windows/Linux counts and ratio, and the legacy-OS tally. */
  function OsStage(d: Data, s: Sheet): (r: Data)
    requires d.windowsRatio.None? && d.oldOsList.None?
    ensures r.windowsRatio.Some? <==> Find(s, OsColumns).Some?
    ensures r.windowsRatio.Some? ==> 0.0 <= r.windowsRatio.value <= 1.0
    ensures var os := Find(s, OsColumns);
            os.Some? ==> OsCounted(r, |s.rows|, os.value, LinuxWords, OldOsWords)
    ensures r.(osBreakdown := d.osBreakdown, windowsVms := d.windowsVms, linuxVms := d.linuxVms,
               windowsRatio := d.windowsRatio, oldOsVms := d.oldOsVms, oldOsList := d.oldOsList) == d
  {
    FoundColumnLength(s, OsColumns);
    var os := Find(s, OsColumns);
    if os.Some? then WithOsFields(d, |s.rows|, os.value, LinuxWords, OldOsWords) else d
  }

  /** The number of distinct non-empty cluster names, when the sheet has a cluster column. */
  function ClusterStage(d: Data, cluster: Option<seq<Cell>>): (r: Data)
    requires d.totalClusters.None?
    ensures r.totalClusters.Some? <==> cluster.Some?
    ensures cluster.Some? ==> r.totalClusters == Some(Nunique(cluster.value))
    ensures r.totalClusters.Some? ==> r.totalClusters.value <= |cluster.value|
    ensures r.(totalClusters := d.totalClusters) == d
  {
    if cluster.Some? then d.(totalClusters := Some(Nunique(cluster.value))) else d
  }

  /** The power, vCPU, memory and OS fields of a VM sheet whose headers were stripped. */
  function VmFields(s: Sheet): (r: Data)
    ensures r.totalVms == Some(|s.rows|)
    ensures r.poweredOnVms.Some? && r.poweredOffVms.Some?
    ensures r.poweredOnVms.value + r.poweredOffVms.value <= |s.rows|
    ensures PowerCounted(r, |s.rows|, Find(s, PowerColumns), OnWords, OffWords)
    ensures var cpu := Find(s, CpuColumns);
            cpu.Some? ==> r.totalVcpu == Some(CoercedTotal(cpu.value)) && LargeCounted(r, cpu.value)
    ensures var mem := Find(s, VmMemoryColumns);
            mem.Some? ==> r.totalVramGb == Some(VmMemoryGb(NumericValues(mem.value)))
    ensures var os := Find(s, OsColumns);
            os.Some? ==> OsCounted(r, |s.rows|, os.value, LinuxWords, OldOsWords)
    ensures r.largeVms.Some? ==> r.oversizedCandidates.Some? && r.oversizedCandidates.value <= r.largeVms.value <= |s.rows|
    ensures r.windowsRatio.Some? ==> 0.0 <= r.windowsRatio.value <= 1.0
    ensures r.totalHosts.None? && r.vcpuPcpuRatio.None? && r.vmDensity.None? && r.totalPhysicalCores.None?
    ensures r.totalStorageGb.None? && r.consumedStorageGb.None? && r.storageUtilization.None? && r.source.None?
    ensures r.totalClusters.None?
  {
    var d1 := CpuMemoryStage(PowerStage(s), s);
    var r := OsStage(d1, s);
    assert r.totalVcpu == d1.totalVcpu && r.largeVms == d1.largeVms && r.oversizedCandidates == d1.oversizedCandidates;
    r
  }

  /** The fields read from the VM sheet, after its headers are stripped. */
  function VmSheet(raw: Sheet): (r: Data)
    ensures r.totalVms == Some(|raw.rows|)
    ensures r.poweredOnVms.Some? && r.poweredOffVms.Some?
    ensures r.poweredOnVms.value + r.poweredOffVms.value <= |raw.rows|
    ensures var s := StripHeaders(raw);
            && PowerCounted(r, |raw.rows|, Find(s, PowerColumns), OnWords, OffWords)
            && (Find(s, CpuColumns).Some? ==>
                  r.totalVcpu == Some(CoercedTotal(Find(s, CpuColumns).value)) && LargeCounted(r, Find(s, CpuColumns).value))
            && (Find(s, VmMemoryColumns).Some? ==> r.totalVramGb == Some(VmMemoryGb(NumericValues(Find(s, VmMemoryColumns).value))))
            && (Find(s, OsColumns).Some? ==> OsCounted(r, |raw.rows|, Find(s, OsColumns).value, LinuxWords, OldOsWords))
            && (r.totalClusters.Some? <==> Find(s, ClusterColumns).Some?)
            && (Find(s, ClusterColumns).Some? ==> r.totalClusters == Some(Nunique(Find(s, ClusterColumns).value)))
    ensures r.largeVms.Some? ==> r.oversizedCandidates.Some? && r.oversizedCandidates.value <= r.largeVms.value <= |raw.rows|
    ensures r.windowsRatio.Some? ==> 0.0 <= r.windowsRatio.value <= 1.0
    ensures r.totalHosts.None? && r.vcpuPcpuRatio.None? && r.vmDensity.None? && r.totalPhysicalCores.None?
    ensures r.totalStorageGb.None? && r.consumedStorageGb.None? && r.storageUtilization.None? && r.source.None?
  {
    var s := StripHeaders(raw);
    var d := VmFields(s);
    var r := ClusterStage(d, Find(s, ClusterColumns));
    OsCountedFrame(d, r, |raw.rows|, Find(s, OsColumns), LinuxWords, OldOsWords);
    r
  }

  /** The sum of the host sheet's VM-count column, if it has one. */
  function VmCountSum(raw: Sheet): Option<real> {
    var col := Find(StripHeaders(raw), VmCountColumns);
    if col.Some? then Some(CoercedSum(col.value)) else None
  }

  /** A positive column sum needs at least one row. */
  lemma PositiveSumHasRows(raw: Sheet)
    ensures VmCountSum(raw).Some? && VmCountSum(raw).value > 0.0 ==> |raw.rows| > 0
  {
    var s := StripHeaders(raw);
    FoundColumnLength(s, VmCountColumns);
    if Find(s, VmCountColumns).Some? {
      NonZeroSumHasCells(Find(s, VmCountColumns).value);
    }
  }

  lemma NonZeroSumHasCells(cells: seq<Cell>)
    ensures CoercedSum(cells) != 0.0 ==> |cells| > 0
  {
  }

  /** The host count and the socket, core and memory totals. */
  function HostCounts(d: Data, s: Sheet): (r: Data)
    ensures r.totalHosts == Some(|s.rows|)
    ensures Find(s, SocketColumns).Some? ==> r.totalPhysicalCpu == Some(CoercedTotal(Find(s, SocketColumns).value))
    ensures Find(s, SocketColumns).None? ==> r.totalPhysicalCpu == d.totalPhysicalCpu
    ensures Find(s, CoreColumns).Some? ==> r.totalPhysicalCores == Some(CoercedTotal(Find(s, CoreColumns).value))
    ensures Find(s, CoreColumns).None? ==> r.totalPhysicalCores == d.totalPhysicalCores
    ensures r.totalHostRamGb.Some? <==> d.totalHostRamGb.Some? || Find(s, HostMemoryColumns).Some?
    ensures Find(s, HostMemoryColumns).Some? ==> r.totalHostRamGb == Some(HostMemoryGb(NumericValues(Find(s, HostMemoryColumns).value)))
    ensures r.(totalHosts := d.totalHosts, totalPhysicalCores := d.totalPhysicalCores,
               totalPhysicalCpu := d.totalPhysicalCpu, totalHostRamGb := d.totalHostRamGb) == d
  {
    var sockets := Find(s, SocketColumns);
    var cores := Find(s, CoreColumns);
    var mem := Find(s, HostMemoryColumns);
    var d0 := d.(totalHosts := Some(|s.rows|));
    var d1 := if sockets.Some? then d0.(totalPhysicalCpu := Some(CoercedTotal(sockets.value))) else d0;
    var d2 := if cores.Some? then d1.(totalPhysicalCores := Some(CoercedTotal(cores.value))) else d1;
    if mem.Some? then d2.(totalHostRamGb := Some(HostMemoryGb(NumericValues(mem.value)))) else d2
  }

  /** The density read from the VM-count column, `round(sum / hosts, 1)`, when its sum is positive. */
  function ColumnDensity(d: Data, raw: Sheet): (r: Data)
    requires d.vmDensity.None?
    ensures var c := VmCountSum(raw);
            r.vmDensity.Some? <==> c.Some? && c.value > 0.0
    ensures var c := VmCountSum(raw);
            c.Some? && c.value > 0.0 ==>
              var exact := c.value / |raw.rows| as real;
              exact - 0.05 <= r.vmDensity.value <= exact + 0.05
              && (c.value > 0.05 * |raw.rows| as real ==> TruthyReal(r.vmDensity))
    ensures r.(vmDensity := d.vmDensity) == d
  {
    var c := VmCountSum(raw);
    PositiveSumHasRows(raw);
    if c.Some? && c.value > 0.0 then
      var density := Round1(c.value / |raw.rows| as real);
      DensityFromColumnIsTruthy(c.value, |raw.rows|, density);
      d.(vmDensity := Some(density))
    else d
  }

  /** The host fields, the density read from the VM-count column, the ratio guard and the density fallback. */
  function HostSheet(d: Data, raw: Sheet): (r: Data)
    requires d.vcpuPcpuRatio.None? && d.vmDensity.None?
    ensures r.totalHosts == Some(|raw.rows|)
    ensures r.vmDensity.Some? ==> |raw.rows| > 0
    ensures r.vcpuPcpuRatio.Some? <==> Truthy(d.totalVcpu) && Truthy(r.totalPhysicalCores)
    ensures var c := VmCountSum(raw);
            c.Some? && c.value > 0.0 ==> r.vmDensity.Some?
    ensures var c := VmCountSum(raw);
            c.Some? && c.value > 0.05 * |raw.rows| as real ==>
              var exact := c.value / |raw.rows| as real;
              exact - 0.05 <= r.vmDensity.value <= exact + 0.05
    ensures var c := VmCountSum(raw);
            (c.None? || c.value <= 0.0) ==> (r.vmDensity.Some? <==> Truthy(d.totalVms) && |raw.rows| != 0)
    ensures var c := VmCountSum(raw);
            (c.None? || c.value <= 0.0) && r.vmDensity.Some? ==>
              var exact := d.totalVms.value as real / |raw.rows| as real;
              exact - 0.05 <= r.vmDensity.value <= exact + 0.05
    ensures r.(totalHosts := d.totalHosts, totalPhysicalCores := d.totalPhysicalCores,
               totalPhysicalCpu := d.totalPhysicalCpu, totalHostRamGb := d.totalHostRamGb,
               vcpuPcpuRatio := d.vcpuPcpuRatio, vmDensity := d.vmDensity) == d
  {
    var d5 := WithRatio(ColumnDensity(HostCounts(d, StripHeaders(raw)), raw));
    if TruthyReal(d5.vmDensity) then d5 else WithDensity(d5)
  }

  /** A density of more than 0.05 rounds to a non-zero value, so the fallback leaves it alone. */
  lemma DensityFromColumnIsTruthy(sum: real, hosts: nat, density: real)
    requires hosts > 0 && density == Round1(sum / hosts as real)
    ensures sum > 0.05 * hosts as real ==> density != 0.0
  {
    if sum > 0.05 * hosts as real {
      assert sum / hosts as real > 0.05;
    }
  }

  /** The storage totals and the utilisation, set only for a positive capacity and a non-zero consumption. */
  function StorageSheet(d: Data, raw: Sheet): (r: Data)
    requires d.storageUtilization.None? && d.totalStorageGb.None? && d.consumedStorageGb.None?
    ensures var s := StripHeaders(raw);
            && (Find(s, CapacityColumns).Some? <==> r.totalStorageGb.Some?)
            && (r.totalStorageGb.Some? ==> r.totalStorageGb.value == Round2(CoercedSum(Find(s, CapacityColumns).value)))
            && (Find(s, UsedColumns).Some? <==> r.consumedStorageGb.Some?)
            && (r.consumedStorageGb.Some? ==> r.consumedStorageGb.value == Round2(CoercedSum(Find(s, UsedColumns).value)))
    ensures r.storageUtilization.Some? <==>
              r.totalStorageGb.Some? && r.totalStorageGb.value > 0.0 && TruthyReal(r.consumedStorageGb)
    ensures r.storageUtilization.Some? ==>
              var exact := r.consumedStorageGb.value / r.totalStorageGb.value * 100.0;
              exact - 0.05 <= r.storageUtilization.value <= exact + 0.05
    ensures r.(totalStorageGb := d.totalStorageGb, consumedStorageGb := d.consumedStorageGb,
               storageUtilization := d.storageUtilization) == d
  {
    var s := StripHeaders(raw);
    WithStorage(d, Find(s, CapacityColumns), Find(s, UsedColumns))
  }

  /** The fields of the VM and host sheets, whichever of them the workbook has. */
  function Sheets(b: Book): (d: Data)
    ensures var names := SheetNames(b);
            && (d.totalVms.Some? <==> FindSheet(names, VmSheets).Some?)
            && (d.totalHosts.Some? <==> FindSheet(names, HostSheets).Some?)
            && (d.poweredOnVms.Some? ==> d.poweredOffVms.Some? && d.totalVms.Some?
                                         && d.poweredOnVms.value + d.poweredOffVms.value <= d.totalVms.value)
            && (d.vcpuPcpuRatio.Some? ==> Truthy(d.totalVcpu) && Truthy(d.totalPhysicalCores))
            && (d.vmDensity.Some? ==> d.totalHosts.Some? && d.totalHosts.value > 0)
            && (d.largeVms.Some? ==> d.oversizedCandidates.Some? && d.oversizedCandidates.value <= d.largeVms.value)
            && (d.windowsRatio.Some? ==> 0.0 <= d.windowsRatio.value <= 1.0)
            && d.totalStorageGb.None? && d.consumedStorageGb.None? && d.storageUtilization.None? && d.source.None?
  {
    var names := SheetNames(b);
    var vm := FindSheet(names, VmSheets);
    var d1 := if vm.Some? then VmSheet(GetSheet(b, vm.value)) else Empty;
    var host := FindSheet(names, HostSheets);
    if host.Some? then HostSheet(d1, GetSheet(b, host.value)) else d1
  }

  /** The record built from an open workbook: the sheet fields, the storage fields, and the source tag. */
  function Collect(b: Book): (d: Data)
    ensures d.source == Some("LiveOptics")
    ensures d.storageUtilization.Some? <==>
              d.totalStorageGb.Some? && d.totalStorageGb.value > 0.0 && TruthyReal(d.consumedStorageGb)
    ensures d.(totalStorageGb := None, consumedStorageGb := None, storageUtilization := None, source := None) == Sheets(b)
  {
    var d2 := Sheets(b);
    var storage := FindSheet(SheetNames(b), StorageSheets);
    var d3 := if storage.Some? then StorageSheet(d2, GetSheet(b, storage.value)) else d2;
    assert d3.(totalStorageGb := None, consumedStorageGb := None, storageUtilization := None) == d2;
    d3.(source := Some("LiveOptics"))
  }

  /** `parse_liveoptics(filepath)`: only a workbook that cannot be opened gives the error outcome. */
  function Parse(f: WorkbookFile): (r: Outcome)
    ensures r.Failed? <==> f.Unreadable?
    ensures r.Parsed? ==> r.data == Collect(f.book) && r.health == Assess(r.data)
  {
    match f
    case Unreadable(_) => Failed
    case Readable(b) =>
      var d := Collect(b);
      Parsed(d, Assess(d))
  }
}

=== FILE: pricing.dfy ===
/**
 * The default price book (`pricing/defaults.py`): the four candidate
 * platforms with their licence terms, and the hardware and staffing
 * assumptions. A pricing override is a patch of rate keys that replaces the
 * platform's own values (`dict.update`).
 */
module Pricing {
  import opened Wrappers

  datatype Platform = Vcf | Nutanix | OpenShift | AzureStack {
    /** The key the platform has in `PLATFORMS` and in every per-platform dict. */
    function Name(): string {
      match this
      case Vcf => "VMware VCF"
      case Nutanix => "Nutanix"
      case OpenShift => "Red Hat OpenShift"
      case AzureStack => "Azure Stack HCI"
    }
  }

  /** The order in which the scenario page inserts the selected platforms. */
  const Platforms: seq<Platform> := [Vcf, Nutanix, OpenShift, AzureStack]

  datatype LicenseModel = PerCore | PerNode

  /**
   * One entry of `PLATFORMS` (its free-text notes aside). A key the entry does
   * not have is `None`: `platform.get('min_cores', 0)` then reads 0 and
   * `platform['cost_per_core_per_year']` raises.
   */
  datatype Terms = Terms(
    model: LicenseModel,
    perCore: Option<real>,
    perNode: Option<real>,
    supportShare: real,
    minCores: Option<int>,
    minNodes: Option<int>)

  function Defaults(p: Platform): (t: Terms)
    ensures t.model == PerNode <==> p == Nutanix
    ensures t.model == PerCore ==> t.perCore.Some? && t.minCores == Some(16)
    ensures t.model == PerNode ==> t.perNode.Some? && t.minNodes == Some(3)
    ensures 0.0 < t.supportShare <= 0.20
  {
    match p
    case Vcf => Terms(PerCore, Some(150.0), None, 0.20, Some(16), None)
    case Nutanix => Terms(PerNode, None, Some(8000.0), 0.20, None, Some(3))
    case OpenShift => Terms(PerCore, Some(120.0), None, 0.20, Some(16), None)
    case AzureStack => Terms(PerCore, Some(100.0), None, 0.18, Some(16), None)
  }

  /** The rate key the licence formula reads for the terms' model. */
  function Rate(t: Terms): Option<real> {
    match t.model
    case PerCore => t.perCore
    case PerNode => t.perNode
  }

  /** `platform.get('min_cores', 0)` or `platform.get('min_nodes', 0)`, by model. */
  function MinUnits(t: Terms): int {
    match t.model
    case PerCore => t.minCores.GetOr(0)
    case PerNode => t.minNodes.GetOr(0)
  }

  /** The rate keys a pricing override can carry: `cost_per_core_per_year` and `cost_per_node_per_year`. */
  datatype RatePatch = RatePatch(perCore: Option<real>, perNode: Option<real>)

  const NoPatch: RatePatch := RatePatch(None, None)

  /** `platform.update(pricing)`: each key the patch has replaces the platform's value; nothing is added up. */
  function Apply(t: Terms, patch: RatePatch): (r: Terms)
    ensures patch.perCore.Some? ==> r.perCore == patch.perCore
    ensures patch.perCore.None? ==> r.perCore == t.perCore
    ensures patch.perNode.Some? ==> r.perNode == patch.perNode
    ensures patch.perNode.None? ==> r.perNode == t.perNode
    ensures r.(perCore := t.perCore, perNode := t.perNode) == t
  {
    t.(perCore := if patch.perCore.Some? then patch.perCore else t.perCore,
       perNode := if patch.perNode.Some? then patch.perNode else t.perNode)
  }

  /** A platform's default terms, patched or not, always have the rate key of their own model. */
  lemma DefaultsHaveRate(p: Platform, patch: RatePatch)
    ensures Rate(Apply(Defaults(p), patch)).Some?
  {
  }

  /** `HARDWARE`. */
  datatype Hardware = Hardware(hostCost: real, refreshYears: real, kwPerHost: real, costPerKwh: real, dcPerHost: real)

  const DefaultHardware: Hardware := Hardware(35000.0, 4.0, 0.5, 0.10, 2000.0)

  /** `FTE['avg_fully_loaded_cost']`. */
  const DefaultFteCost: real := 150000.0

  /** The hardware keys a caller may override. */
  datatype HardwarePatch = HardwarePatch(
    hostCost: Option<real>, refreshYears: Option<real>, kwPerHost: Option<real>,
    costPerKwh: Option<real>, dcPerHost: Option<real>)

  const NoHardwarePatch: HardwarePatch := HardwarePatch(None, None, None, None, None)

  /** `h = HARDWARE.copy(); h.update(patch)`. */
  function PatchedHardware(patch: HardwarePatch): (h: Hardware)
    ensures patch == NoHardwarePatch ==> h == DefaultHardware
    ensures h.hostCost == (if patch.hostCost.Some? then patch.hostCost.value else DefaultHardware.hostCost)
    ensures h.refreshYears == (if patch.refreshYears.Some? then patch.refreshYears.value else DefaultHardware.refreshYears)
    ensures h.kwPerHost == (if patch.kwPerHost.Some? then patch.kwPerHost.value else DefaultHardware.kwPerHost)
    ensures h.costPerKwh == (if patch.costPerKwh.Some? then patch.costPerKwh.value else DefaultHardware.costPerKwh)
    ensures h.dcPerHost == (if patch.dcPerHost.Some? then patch.dcPerHost.value else DefaultHardware.dcPerHost)
  {
    Hardware(
      patch.hostCost.GetOr(DefaultHardware.hostCost),
      patch.refreshYears.GetOr(DefaultHardware.refreshYears),
      patch.kwPerHost.GetOr(DefaultHardware.kwPerHost),
      patch.costPerKwh.GetOr(DefaultHardware.costPerKwh),
      patch.dcPerHost.GetOr(DefaultHardware.dcPerHost))
  }
}

=== FILE: quotes.dfy ===
/**
 * Pricing-override resolution on the scenario page (`_get_pricing_override`):
 * a non-zero vendor quote beats the manual override, which beats the default
 * price. A total-contract-value quote is spread over the licence units.
 */
module Quotes {
  import opened Wrappers
  import opened Text
  import opened Rounding
  import opened Inventory
  import opened Pricing

  /** One entry of `st.session_state.quotes`: the quote type chosen and the amount entered. */
  datatype Quote = Quote(kind: string, value: real)

  const TotalContractValue: string := "Total Contract Value"

  /** `'Total Contract Value' in quote_type`. */
  predicate IsContractTotal(q: Quote) {
    Contains(q.kind, TotalContractValue)
  }

  /** `parsed.get('total_hosts', 1)`: note the default of 1 here, not 0 as in the calculators. */
  function QuoteHosts(d: Data): nat { d.totalHosts.GetOr(1) }

  /** `parsed.get('total_physical_cores', hosts * 20)`. */
  function QuoteCores(d: Data): int { d.totalPhysicalCores.GetOr(QuoteHosts(d) * 20) }

  /** What a contract total is divided by: cores for a per-core platform, nodes (hosts) for a per-node one. */
  function QuoteUnits(p: Platform, d: Data): int {
    match Defaults(p).model
    case PerCore => QuoteCores(d)
    case PerNode => QuoteHosts(d)
  }

  /** The per-unit yearly rate a quote stands for. */
  function QuotedRate(p: Platform, q: Quote, d: Data): (rate: real)
    ensures IsContractTotal(q) ==>
              var exact := q.value / AtLeastOne(QuoteUnits(p, d));
              exact - 0.005 <= rate <= exact + 0.005
    ensures !IsContractTotal(q) ==> rate == q.value
  {
    if IsContractTotal(q) then Round2(q.value / AtLeastOne(QuoteUnits(p, d))) else q.value
  }

  /** Whether a quote for the platform takes effect: there is one and its value is not 0. */
  predicate Quoted(p: Platform, quotes: map<Platform, Quote>) {
    p in quotes && quotes[p].value != 0.0
  }

  /**
   * `_get_pricing_override(platform, manual_overrides, quotes, parsed)`: a
   * copy of the platform's manual override, with the rate key of the
   * platform's default model replaced by the quoted rate when a quote takes
   * effect.
   */
  function PricingOverride(p: Platform, manual: map<Platform, RatePatch>, quotes: map<Platform, Quote>, d: Data): (r: RatePatch)
    ensures var base := if p in manual then manual[p] else NoPatch;
            && (!Quoted(p, quotes) ==> r == base)
            && (Quoted(p, quotes) && Defaults(p).model == PerCore ==>
                  r.perCore == Some(QuotedRate(p, quotes[p], d)) && r.perNode == base.perNode)
            && (Quoted(p, quotes) && Defaults(p).model == PerNode ==>
                  r.perNode == Some(QuotedRate(p, quotes[p], d)) && r.perCore == base.perCore)
  {
    var base := if p in manual then manual[p] else NoPatch;
    if !Quoted(p, quotes) then base
    else
      var rate := QuotedRate(p, quotes[p], d);
      match Defaults(p).model
      case PerCore => base.(perCore := Some(rate))
      case PerNode => base.(perNode := Some(rate))
  }

  /** The manual override the scenario page builds: the model's rate key, set to the price entered (initially the default). */
  function ManualOverride(p: Platform, price: real): (r: RatePatch)
    ensures Rate(Apply(Defaults(p), r)) == Some(price)
  {
    match Defaults(p).model
    case PerCore => RatePatch(Some(price), None)
    case PerNode => RatePatch(None, Some(price))
  }

  /**
   * The precedence the page promises, on the terms the calculator ends up
   * using: the quoted rate when a quote takes effect, else the manual price,
   * else the default rate.
   */
  lemma Precedence(p: Platform, manual: map<Platform, RatePatch>, quotes: map<Platform, Quote>, d: Data)
    ensures var rate := Rate(Apply(Defaults(p), PricingOverride(p, manual, quotes, d)));
            && (Quoted(p, quotes) ==> rate == Some(QuotedRate(p, quotes[p], d)))
            && (!Quoted(p, quotes) && p in manual ==> rate == Rate(Apply(Defaults(p), manual[p])))
            && (!Quoted(p, quotes) && p !in manual ==> rate == Rate(Defaults(p)))
  {
    var r := PricingOverride(p, manual, quotes, d);
    if !Quoted(p, quotes) && p !in manual {
      assert r == NoPatch;
    }
  }

  /** With the page's manual override in place, the quote wins when it takes effect and the entered price otherwise. */
  lemma QuoteBeatsManual(p: Platform, price: real, quotes: map<Platform, Quote>, d: Data)
    ensures var rate := Rate(Apply(Defaults(p), PricingOverride(p, map[p := ManualOverride(p, price)], quotes, d)));
            rate == if Quoted(p, quotes) then Some(QuotedRate(p, quotes[p], d)) else Some(price)
  {
    Precedence(p, map[p := ManualOverride(p, price)], quotes, d);
  }

  /** A contract total spread over `units` units multiplies back to the total, up to the rounding of the rate. */
  lemma ContractTotalRoundTrip(p: Platform, q: Quote, d: Data)
    requires IsContractTotal(q) && QuoteUnits(p, d) >= 1
    ensures var units := QuoteUnits(p, d) as real;
            var rate := QuotedRate(p, q, d);
            q.value - 0.005 * units <= rate * units <= q.value + 0.005 * units
  {
    var units := QuoteUnits(p, d) as real;
    var rate := QuotedRate(p, q, d);
    assert AtLeastOne(QuoteUnits(p, d)) == units;
    SpreadRoundTrip(q.value, units, rate);
  }

  lemma SpreadRoundTrip(total: real, units: real, rate: real)
    requires units >= 1.0 && total / units - 0.005 <= rate <= total / units + 0.005
    ensures total - 0.005 * units <= rate * units <= total + 0.005 * units
  {
    var lo := total / units - 0.005;
    var hi := total / units + 0.005;
    ScaleBy(lo, rate, units);
    ScaleBy(rate, hi, units);
    assert lo * units == total - 0.005 * units;
    assert hi * units == total + 0.005 * units;
  }

  lemma ScaleBy(a: real, b: real, c: real)
    requires a <= b && 0.0 <= c
    ensures a * c <= b * c
  {
  }
}

=== FILE: recommendation.dfy ===
/**
 * The comparison page's recommendation (`get_recommendation` and the
 * override selector): each scenario gets a combined score of 60% fit and 40%
 * of half its ROI percentage capped at 50, rounded to one decimal; the
 * recommendation is the first scenario with the highest combined score, and
 * a manual override, when set, replaces it.
 */
module Recommendation {
  import opened Wrappers
  import opened Rounding
  import opened Pricing

  /** What the recommendation reads from one entry of `scenario_results`. */
  datatype Scenario = Scenario(platform: Platform, fitScore: int, roiPct: real)

  /** `min(roi_pct / 2, 50)`. */
  function RoiPoints(roiPct: real): (c: real)
    ensures c <= 50.0 && c <= roiPct / 2.0
    ensures c == 50.0 || c == roiPct / 2.0
  {
    if roiPct / 2.0 <= 50.0 then roiPct / 2.0 else 50.0
  }

  /** `round(fit_score * 0.6 + roi_points * 0.4, 1)`. */
  function Combined(fitScore: int, roiPct: real): (c: real)
    ensures var exact := fitScore as real * 0.6 + RoiPoints(roiPct) * 0.4;
            exact - 0.05 <= c <= exact + 0.05
  {
    Round1(fitScore as real * 0.6 + RoiPoints(roiPct) * 0.4)
  }

  /** The ROI part adds at most 20 points, exactly, even after rounding. */
  lemma CombinedAtMost(fitScore: int, roiPct: real)
    ensures Combined(fitScore, roiPct) <= fitScore as real * 0.6 + 20.0
  {
    var cap := fitScore as real * 0.6 + 20.0;
    assert cap == (6 * fitScore + 200) as real / 10.0;
    Round1OfTenths(6 * fitScore + 200);
    Round1Monotone(fitScore as real * 0.6 + RoiPoints(roiPct) * 0.4, cap);
  }

  /** No lower bound: a low enough ROI drives the combined score under any bound at or below 60% of the fit. */
  lemma NotBoundedBelow(fitScore: int, bound: real)
    requires bound <= fitScore as real * 0.6
    ensures Combined(fitScore, 5.0 * (bound - fitScore as real * 0.6) - 5.0) < bound
  {
  }

  /** Rounding before the comparison turns near-ties into ties: ROI 0.1% and 0% score the same. */
  lemma NearTiesCollapse()
    ensures Combined(50, 0.1) == Combined(50, 0.0)
    ensures 50.0 * 0.6 + RoiPoints(0.1) * 0.4 != 50.0 * 0.6 + RoiPoints(0.0) * 0.4
  {
    assert RoundHalfEven(300.2) == 300;
    assert RoundHalfEven(300.0) == 300;
  }

  /** The combined scores of the scenarios, in insertion order. */
  function Scores(results: seq<Scenario>): (s: seq<real>)
    ensures |s| == |results|
    ensures forall i :: 0 <= i < |results| ==> s[i] == Combined(results[i].fitScore, results[i].roiPct)
  {
    seq(|results|, i requires 0 <= i < |results| => Combined(results[i].fitScore, results[i].roiPct))
  }

  /** `max(scores, key=scores.get)` picks index k: no score beats it, and every earlier one is strictly lower. */
  predicate FirstMaximum(s: seq<real>, k: int) {
    && 0 <= k < |s|
    && (forall j :: 0 <= j < |s| ==> s[j] <= s[k])
    && (forall j :: 0 <= j < k ==> s[j] < s[k])
  }

  /**
   * `get_recommendation(scenario_results)`: the combined scores, and the
   * platform of the first scenario with the highest one. With no scenario
   * `max` raises, here `None`.
   */
  method Recommend(results: seq<Scenario>) returns (recommended: Option<Platform>, scores: seq<real>)
    ensures scores == Scores(results)
    ensures recommended.None? <==> |results| == 0
    ensures recommended.Some? ==>
              exists k :: FirstMaximum(scores, k) && recommended.value == results[k].platform
  {
    scores := Scores(results);
    if |results| == 0 {
      return None, scores;
    }
    var best := 0;
    var i := 1;
    while i < |results|
      invariant 1 <= i <= |results|
      invariant 0 <= best < i
      invariant forall j :: 0 <= j < i ==> scores[j] <= scores[best]
      invariant forall j :: 0 <= j < best ==> scores[j] < scores[best]
    {
      if scores[i] > scores[best] {
        best := i;
      }
      i := i + 1;
    }
    assert FirstMaximum(scores, best);
    recommended := Some(results[best].platform);
  }

  /** An equal score later in the order never displaces an earlier one: with two scenarios tied, the first wins. */
  lemma TieGoesToFirst(a: Scenario, b: Scenario)
    requires Combined(a.fitScore, a.roiPct) == Combined(b.fitScore, b.roiPct)
    ensures FirstMaximum(Scores([a, b]), 0)
    ensures !FirstMaximum(Scores([a, b]), 1)
  {
  }

  /** The override selector: "Auto (Recommended)" or one of the selected platforms. */
  datatype OverrideChoice = Auto | Chosen(platform: Platform)

  /** `recommendation_override` after the selector runs. */
  function OverrideFor(choice: OverrideChoice): (r: Option<Platform>)
    ensures r.None? <==> choice == Auto
    ensures choice.Chosen? ==> r == Some(choice.platform)
  {
    match choice
    case Auto => None
    case Chosen(p) => Some(p)
  }

  /** `override if override else recommended`: every platform name is non-empty, so a set override is truthy. */
  function FinalRecommendation(override: Option<Platform>, recommended: Platform): (r: Platform)
    ensures override.Some? ==> r == override.value
    ensures override.None? ==> r == recommended
  {
    match override
    case Some(p) => p
    case None => recommended
  }

  /** A chosen platform is final whatever the scores say; "Auto" gives back the computed one. */
  lemma OverrideWins(choice: OverrideChoice, recommended: Platform)
    ensures choice.Chosen? ==> FinalRecommendation(OverrideFor(choice), recommended) == choice.platform
    ensures choice == Auto ==> FinalRecommendation(OverrideFor(choice), recommended) == recommended
  {
  }
}

=== FILE: renewal.dfy ===
/**
 * The renewal analyzer: what a renewal at the announced price increase costs,
 * the month-by-month cumulative cost of renewing against migrating, and the
 * first month after the migration at which migrating has become cheaper.
 * Today's date is not read: the days until the renewal are an input.
 */
module Renewal {
  import opened Wrappers
  import opened Rounding

  /** The migration-timeline choices; `int(choice.split()[0])` reads the months off the label. */
  datatype Timeline = SixMonths | TwelveMonths | EighteenMonths | TwentyFourMonths

  function Months(t: Timeline): (n: nat)
    ensures 6 <= n <= 24 && n % 6 == 0
  {
    match t
    case SixMonths => 6
    case TwelveMonths => 12
    case EighteenMonths => 18
    case TwentyFourMonths => 24
  }

  /** The page's inputs: annual spend, expected increase in percent, renewal term in years, timeline, one-time migration cost. */
  datatype Inputs = Inputs(current: real, increasePct: real, years: nat, timeline: Timeline, migrationCost: real)

  /** `max(round(days_to_renewal / 30), 0)`. */
  function MonthsToRenewal(days: int): (n: nat)
    ensures days <= 15 ==> n == 0
    ensures days >= 0 ==> n as real * 30.0 - 15.0 <= days as real <= n as real * 30.0 + 15.0
  {
    var r := RoundHalfEven(days as real / 30.0);
    if r < 0 then 0 else r
  }

  /** A later renewal date never gives fewer months. */
  lemma MonthsMonotone(d1: int, d2: int)
    requires d1 <= d2
    ensures MonthsToRenewal(d1) <= MonthsToRenewal(d2)
  {
    RoundMonotone(d1 as real / 30.0, d2 as real / 30.0);
  }

  /** Half months round to the even neighbour: 15 days is 0 months, 45 days 2 months, 75 days 2 months. */
  lemma HalfMonthsRoundToEven()
    ensures MonthsToRenewal(15) == 0 && MonthsToRenewal(45) == 2 && MonthsToRenewal(75) == 2
  {
    assert 45 as real / 30.0 == 1.5;
    assert 75 as real / 30.0 == 2.5;
  }

  datatype Banner = Critical | Urgent | PlanNow | StrategicWindow

  /** The urgency banner for the months left. */
  function BannerFor(months: nat): (b: Banner)
    ensures b == Critical <==> months <= 3
    ensures b == Urgent <==> 3 < months <= 6
    ensures b == PlanNow <==> 6 < months <= 12
    ensures b == StrategicWindow <==> months > 12
  {
    if months <= 3 then Critical
    else if months <= 6 then Urgent
    else if months <= 12 then PlanNow
    else StrategicWindow
  }

  /** `current_annual_spend * (1 + broadcom_increase / 100)`. */
  function Increased(i: Inputs): (r: real)
    ensures r - i.current == i.current * i.increasePct / 100.0
    ensures i.current >= 0.0 && i.increasePct >= 0.0 ==> r >= i.current
  {
    i.current * (1.0 + i.increasePct / 100.0)
  }

  /** `increased_annual_spend * contract_years`. */
  function RenewalTotal(i: Inputs): (r: real)
    ensures r - i.current * i.years as real == i.current * i.increasePct / 100.0 * i.years as real
  {
    Increased(i) * i.years as real
  }

  /** `current_annual_spend + renewal_total_cost`: this year's spend, then the renewed term. */
  function DoNothingCost(i: Inputs): (r: real)
    ensures r - RenewalTotal(i) == i.current
  {
    i.current + RenewalTotal(i)
  }

  /** `monthly_vmware_cost`, which is also the cost of each month of delay. */
  function Monthly(i: Inputs): (r: real)
    ensures r * 12.0 == Increased(i)
  {
    Increased(i) / 12.0
  }

  /** `renew_cumulative[m]`. */
  function RenewAt(i: Inputs, m: nat): real {
    Monthly(i) * m as real
  }

  /** `min(a, b)` on reals. */
  function MinReal(a: real, b: real): (r: real)
    ensures r <= a && r <= b && (r == a || r == b)
  {
    if a <= b then a else b
  }

  /** `migrate_cumulative[m]`: the old rate plus a pro-rated migration cost while migrating, 80% of the old rate afterwards. */
  function MigrateAt(i: Inputs, m: nat): real {
    var mm := Months(i.timeline);
    if m <= mm then i.current / 12.0 * m as real + i.migrationCost * MinReal(m as real / mm as real, 1.0)
    else (i.current / 12.0 * mm as real + i.migrationCost) + i.current * 0.8 / 12.0 * (m - mm) as real
  }

  /** By how much renewing has cost more than migrating after m months. */
  function Gap(i: Inputs, m: nat): real {
    RenewAt(i, m) - MigrateAt(i, m)
  }

  /** The migrate path starts at 0 and has paid the whole migration cost by the end of the migration. */
  lemma MigrateEnds(i: Inputs)
    ensures MigrateAt(i, 0) == 0.0
    ensures RenewAt(i, 0) == 0.0
    ensures MigrateAt(i, Months(i.timeline)) == i.current / 12.0 * Months(i.timeline) as real + i.migrationCost
  {
    var mm := Months(i.timeline) as real;
    assert mm / mm == 1.0;
  }

  /** The post-migration formula, taken at the migration's last month, gives the value the series has there: no jump. */
  lemma ContinuousAtCompletion(i: Inputs)
    ensures var mm := Months(i.timeline);
            MigrateAt(i, mm) == (i.current / 12.0 * mm as real + i.migrationCost) + i.current * 0.8 / 12.0 * (mm - mm) as real
  {
    MigrateEnds(i);
  }

  /** Each month renewing adds the increased monthly rate. */
  lemma RenewStep(i: Inputs, m: nat)
    ensures RenewAt(i, m + 1) - RenewAt(i, m) == Monthly(i)
  {
  }

  /** Each month after the migration, migrating adds 80% of the old monthly rate. */
  lemma MigrateStepAfter(i: Inputs, m: nat)
    requires m >= Months(i.timeline)
    ensures MigrateAt(i, m + 1) - MigrateAt(i, m) == i.current * 0.8 / 12.0
  {
    if m == Months(i.timeline) {
      MigrateEnds(i);
    }
  }

  /** Each month during the migration, migrating adds the old monthly rate and a share of the migration cost. */
  lemma MigrateStepDuring(i: Inputs, m: nat)
    requires m < Months(i.timeline)
    ensures MigrateAt(i, m + 1) - MigrateAt(i, m) == i.current / 12.0 + i.migrationCost / Months(i.timeline) as real
  {
    var mm := Months(i.timeline) as real;
    assert (m + 1) as real / mm - m as real / mm == 1.0 / mm;
    assert i.migrationCost * ((m + 1) as real / mm) - i.migrationCost * (m as real / mm) == i.migrationCost * (1.0 / mm);
  }

  /** After the migration, with a non-negative spend and increase, the advantage of migrating never shrinks. */
  lemma GapGrows(i: Inputs, m: nat)
    requires i.current >= 0.0 && i.increasePct >= 0.0
    requires m >= Months(i.timeline)
    ensures Gap(i, m) <= Gap(i, m + 1)
  {
    RenewStep(i, m);
    MigrateStepAfter(i, m);
  }

  lemma {:induction false} GapMonotone(i: Inputs, a: nat, b: nat)
    requires i.current >= 0.0 && i.increasePct >= 0.0
    requires Months(i.timeline) <= a <= b
    ensures Gap(i, a) <= Gap(i, b)
    decreases b - a
  {
    if a < b {
      GapGrows(i, a);
      GapMonotone(i, a + 1, b);
    }
  }

  /** `months_range`: `range(0, contract_years * 12 + 1)`. */
  function Horizon(i: Inputs): (n: nat)
    ensures n >= 1
  {
    i.years * 12 + 1
  }

  /** The two cumulative series the chart draws, month 0 through the end of the term. */
  method Series(i: Inputs) returns (renew: seq<real>, migrate: seq<real>)
    ensures |renew| == |migrate| == Horizon(i)
    ensures forall m :: 0 <= m < |renew| ==> renew[m] == RenewAt(i, m)
    ensures forall m :: 0 <= m < |migrate| ==> migrate[m] == MigrateAt(i, m)
  {
    renew := [];
    migrate := [];
    var m := 0;
    while m < Horizon(i)
      invariant 0 <= m <= Horizon(i)
      invariant |renew| == |migrate| == m
      invariant forall k :: 0 <= k < m ==> renew[k] == RenewAt(i, k)
      invariant forall k :: 0 <= k < m ==> migrate[k] == MigrateAt(i, k)
    {
      renew := renew + [RenewAt(i, m)];
      migrate := migrate + [MigrateAt(i, m)];
      m := m + 1;
    }
  }

  /** Whether migrating is strictly cheaper at month j, a month after the migration has finished. */
  predicate CrossesAt(renew: seq<real>, migrate: seq<real>, migrationMonths: nat, j: int)
    requires |renew| == |migrate|
  {
    migrationMonths < j < |renew| && migrate[j] < renew[j]
  }

  /** The crossover loop: the first month after the migration at which migrating is strictly cheaper, if any. */
  method Crossover(renew: seq<real>, migrate: seq<real>, migrationMonths: nat) returns (month: Option<nat>)
    requires |renew| == |migrate|
    ensures month.Some? ==> CrossesAt(renew, migrate, migrationMonths, month.value)
    ensures month.Some? ==> forall j :: 0 <= j < month.value ==> !CrossesAt(renew, migrate, migrationMonths, j)
    ensures month.None? ==> forall j :: 0 <= j < |renew| ==> !CrossesAt(renew, migrate, migrationMonths, j)
  {
    var k := 0;
    while k < |renew|
      invariant 0 <= k <= |renew|
      invariant forall j :: 0 <= j < k ==> !CrossesAt(renew, migrate, migrationMonths, j)
    {
      if migrate[k] < renew[k] && k > migrationMonths {
        return Some(k);
      }
      k := k + 1;
    }
    return None;
  }

  /**
   * On the analyzer's own series, with a non-negative spend and increase, a
   * crossover exists exactly when migrating is ahead at the end of the term,
   * and once migrating is ahead it stays ahead.
   */
  lemma CrossoverIffAheadAtEnd(i: Inputs)
    requires i.current >= 0.0 && i.increasePct >= 0.0
    ensures var mm := Months(i.timeline);
            var last := Horizon(i) - 1;
            (exists j :: mm < j <= last && Gap(i, j) > 0.0) <==> (mm < last && Gap(i, last) > 0.0)
    ensures forall a, b :: Months(i.timeline) <= a <= b && Gap(i, a) > 0.0 ==> Gap(i, b) > 0.0
  {
    var mm := Months(i.timeline);
    var last := Horizon(i) - 1;
    if exists j :: mm < j <= last && Gap(i, j) > 0.0 {
      var j :| mm < j <= last && Gap(i, j) > 0.0;
      GapMonotone(i, j, last);
    }
    forall a: nat, b: nat | Months(i.timeline) <= a <= b && Gap(i, a) > 0.0
      ensures Gap(i, b) > 0.0
    {
      GapMonotone(i, a, b);
    }
  }

  /**
   * The page's break-even computation end to end: build both series, search
   * them. The month found is the first after the migration at which renewing
   * has cost more; there is none exactly when migrating is not ahead at the
   * end of the term.
   */
  method BreakEven(i: Inputs) returns (month: Option<nat>)
    requires i.current >= 0.0 && i.increasePct >= 0.0
    ensures month.Some? ==> Months(i.timeline) < month.value < Horizon(i) && Gap(i, month.value) > 0.0
    ensures month.Some? ==> forall j :: Months(i.timeline) < j < month.value ==> Gap(i, j) <= 0.0
    ensures month.None? <==> !(Months(i.timeline) < Horizon(i) - 1 && Gap(i, Horizon(i) - 1) > 0.0)
  {
    var renew, migrate := Series(i);
    month := Crossover(renew, migrate, Months(i.timeline));
    CrossoverIffAheadAtEnd(i);
    if month.None? {
      forall j | Months(i.timeline) < j <= Horizon(i) - 1
        ensures Gap(i, j) <= 0.0
      {
        assert !CrossesAt(renew, migrate, Months(i.timeline), j);
      }
    } else {
      forall j | Months(i.timeline) < j < month.value
        ensures Gap(i, j) <= 0.0
      {
        assert !CrossesAt(renew, migrate, Months(i.timeline), j);
      }
    }
  }

  /** `delay_cost` for a delay of the given months. */
  function DelayCost(i: Inputs, months: nat): (r: real)
    ensures r == RenewAt(i, months)
  {
    Monthly(i) * months as real
  }

  /** The 12-month figure the page shows, twice the 6-month cost, is a year of the increased spend. */
  lemma TwelveMonthDelay(i: Inputs)
    ensures DelayCost(i, 6) * 2.0 == DelayCost(i, 12)
    ensures DelayCost(i, 12) == Increased(i)
  {
  }

  /** `savings_vs_renew`: the renewal total less the migrate path at `min(contract_years * 12, len - 1)`, the last month. */
  function Savings(i: Inputs): (r: real)
    ensures r == Gap(i, Horizon(i) - 1)
  {
    var last := MinNat(i.years * 12, Horizon(i) - 1);
    RenewalTotal(i) - MigrateAt(i, last)
  }

  function MinNat(a: nat, b: nat): (r: nat)
    ensures r <= a && r <= b && (r == a || r == b)
  {
    if a <= b then a else b
  }

  /** When the term outlasts the migration, the savings are positive exactly when a crossover month exists. */
  lemma SavingsIffCrossover(i: Inputs)
    requires i.current >= 0.0 && i.increasePct >= 0.0
    requires Months(i.timeline) < i.years * 12
    ensures Savings(i) > 0.0 <==> exists j :: Months(i.timeline) < j < Horizon(i) && Gap(i, j) > 0.0
  {
    CrossoverIffAheadAtEnd(i);
  }

  /** On a one-year term with a 12-month or longer migration there is never a crossover month, whatever the savings. */
  lemma NoCrossoverInShortTerm(i: Inputs)
    requires i.years == 1 && Months(i.timeline) >= 12
    ensures forall j :: Months(i.timeline) < j < Horizon(i) ==> Gap(i, j) <= 0.0
  {
  }
}

=== FILE: resolver.dfy ===
/**
 * The field resolver: finds the sheet or column that matches one of a list of
 * synonyms. Both parser versions first build a Python dict from a normalised
 * name to the original name (`{c.lower().strip(): c for c in names}`), then
 * try the synonyms in order against the dict keys; `_find_col` falls back to
 * substring matching. The newer `_find_col` ignores synonyms shorter than four
 * characters in that fallback, the older one has no such floor.
 */
module Resolver {
  import opened Wrappers
  import opened Text

  /** How a dict key is derived from a name: `lower().strip()` or just `lower()`. */
  datatype KeyRule = LowerStrip | LowerOnly

  function Key(rule: KeyRule, s: string): string {
    match rule
    case LowerStrip => Strip(Lower(s))
    case LowerOnly => Lower(s)
  }

  /** One dict item: normalised key and original name. */
  datatype Entry = Entry(key: string, name: string)

  ghost predicate DistinctKeys(idx: seq<Entry>) {
    forall i, j :: 0 <= i < j < |idx| ==> idx[i].key != idx[j].key
  }

  /** Some dict item has key `k` (`k in d`). */
  predicate HasKey(idx: seq<Entry>, k: string) {
    exists j :: 0 <= j < |idx| && idx[j].key == k
  }

  /**
   * `d[k] = v` on a dict held as its items in iteration order: an existing key
   * keeps its position and takes the new value, a new key goes to the end.
   */
  function Put(idx: seq<Entry>, k: string, v: string): (r: seq<Entry>)
    requires DistinctKeys(idx)
    ensures DistinctKeys(r)
  {
    if HasKey(idx, k) then seq(|idx|, p requires 0 <= p < |idx| => if idx[p].key == k then Entry(k, v) else idx[p])
    else idx + [Entry(k, v)]
  }

  /** The keys of a list of names, position by position. */
  function Keys(names: seq<string>, rule: KeyRule): (ks: seq<string>)
    ensures |ks| == |names|
    ensures forall m :: 0 <= m < |names| ==> ks[m] == Key(rule, names[m])
  {
    seq(|names|, m requires 0 <= m < |names| => Key(rule, names[m]))
  }

  /**
   * The reference reading of `d[k]` for `d = {keys[m]: names[m] for m in range(n)}`:
   * a later name with the same key overwrites an earlier one, so the value is
   * the last of the first `n` names whose key is `k`.
   */
  function LastWithKey(keys: seq<string>, names: seq<string>, n: nat, k: string): Option<string>
    requires |keys| == |names| && n <= |names|
    decreases n
  {
    if n == 0 then None
    else if keys[n - 1] == k then Some(names[n - 1])
    else LastWithKey(keys, names, n - 1, k)
  }

  /** The value kept for `k` is the name at the last position whose key is `k`; there is none only if no key is `k`. */
  lemma {:induction false} LastWithKeyMeaning(keys: seq<string>, names: seq<string>, n: nat, k: string)
    requires |keys| == |names| && n <= |names|
    ensures LastWithKey(keys, names, n, k).None? <==> forall m :: 0 <= m < n ==> keys[m] != k
    ensures LastWithKey(keys, names, n, k).Some? ==>
              exists m :: 0 <= m < n && keys[m] == k && names[m] == LastWithKey(keys, names, n, k).value
                          && forall m' :: m < m' < n ==> keys[m'] != k
    decreases n
  {
    if n > 0 && keys[n - 1] != k {
      LastWithKeyMeaning(keys, names, n - 1, k);
    }
  }

  /** The reference reading of the dict's keys in iteration order: each distinct key once, where it first occurs. */
  function Distinct(keys: seq<string>, n: nat): (ks: seq<string>)
    requires n <= |keys|
    ensures forall k :: k in ks <==> k in keys[..n]
    decreases n
  {
    if n == 0 then []
    else
      var p := Distinct(keys, n - 1);
      assert keys[..n] == keys[..n - 1] + [keys[n - 1]];
      if keys[n - 1] in p then p else p + [keys[n - 1]]
  }

  /** The first string of `s`, in order, that contains `needle`. */
  function FirstIn(s: seq<string>, needle: string): Option<string>
    decreases |s|
  {
    if |s| == 0 then None
    else
      var p := FirstIn(s[..|s| - 1], needle);
      if p.Some? then p
      else if Contains(s[|s| - 1], needle) then Some(s[|s| - 1])
      else None
  }

  /** `FirstIn` finds the earliest containing string, and fails only when no string contains the needle. */
  lemma {:induction false} FirstInMeaning(s: seq<string>, needle: string)
    ensures FirstIn(s, needle).None? <==> forall j :: 0 <= j < |s| ==> !Contains(s[j], needle)
    ensures FirstIn(s, needle).Some? ==>
              exists j :: 0 <= j < |s| && s[j] == FirstIn(s, needle).value && Contains(s[j], needle)
                          && forall j' :: 0 <= j' < j ==> !Contains(s[j'], needle)
    decreases |s|
  {
    if |s| > 0 {
      FirstInMeaning(s[..|s| - 1], needle);
    }
  }

  /** Dropping repeated strings does not change which string first contains the needle. */
  lemma {:induction false} FirstInDistinct(keys: seq<string>, n: nat, needle: string)
    requires n <= |keys|
    ensures FirstIn(Distinct(keys, n), needle) == FirstIn(keys[..n], needle)
    decreases n
  {
    if n > 0 {
      FirstInDistinct(keys, n - 1, needle);
      var p := Distinct(keys, n - 1);
      var k := keys[n - 1];
      assert keys[..n][..n - 1] == keys[..n - 1];
      if k in p {
        if FirstIn(keys[..n - 1], needle).None? {
          FirstInMeaning(keys[..n - 1], needle);
          var j :| 0 <= j < n - 1 && keys[..n - 1][j] == k;
          assert !Contains(k, needle);
        }
      } else {
        assert (p + [k])[..|p|] == p;
      }
    }
  }

  /** The keys of the dict's items, in iteration order. */
  function EntryKeys(idx: seq<Entry>): (ks: seq<string>)
    ensures |ks| == |idx|
    ensures forall j :: 0 <= j < |idx| ==> ks[j] == idx[j].key
  {
    seq(|idx|, j requires 0 <= j < |idx| => idx[j].key)
  }

  /** The dict comprehension `{keys[m]: names[m] for m in range(n)}`, item by item. */
  function IndexPrefix(keys: seq<string>, names: seq<string>, n: nat): (idx: seq<Entry>)
    requires |keys| == |names| && n <= |names|
    ensures DistinctKeys(idx)
    decreases n
  {
    if n == 0 then []
    else Put(IndexPrefix(keys, names, n - 1), keys[n - 1], names[n - 1])
  }

  /** `d[k]` after `d[k0] = v`: the new value for `k0`, the old one for every other key. */
  lemma LookupPut(idx: seq<Entry>, k0: string, v: string, k: string)
    requires DistinctKeys(idx)
    ensures Lookup(Put(idx, k0, v), k) == if k == k0 then Some(v) else Lookup(idx, k)
  {
    if k == k0 {
      LookupPutSame(idx, k0, v);
    } else {
      LookupPutOther(idx, k0, v, k);
    }
  }

  lemma LookupPutSame(idx: seq<Entry>, k0: string, v: string)
    requires DistinctKeys(idx)
    ensures Lookup(Put(idx, k0, v), k0) == Some(v)
  {
    var r := Put(idx, k0, v);
    if HasKey(idx, k0) {
      var p :| 0 <= p < |idx| && idx[p].key == k0;
      assert r[p] == Entry(k0, v);
      LookupAt(r, k0, p);
    } else {
      assert r[|idx|] == Entry(k0, v);
      LookupAt(r, k0, |idx|);
    }
  }

  lemma LookupPutOther(idx: seq<Entry>, k0: string, v: string, k: string)
    requires DistinctKeys(idx) && k != k0
    ensures Lookup(Put(idx, k0, v), k) == Lookup(idx, k)
  {
    var r := Put(idx, k0, v);
    if HasKey(idx, k) {
      var p :| 0 <= p < |idx| && idx[p].key == k;
      assert r[p] == idx[p];
      LookupAt(r, k, p);
      LookupAt(idx, k, p);
    } else {
      forall j | 0 <= j < |r| ensures r[j].key != k {
        if j < |idx| {
          assert r[j] == idx[j] || r[j] == Entry(k0, v);
        }
      }
    }
  }

  /** With distinct keys, `d[k]` is the name of the one item carrying `k`. */
  lemma LookupAt(idx: seq<Entry>, k: string, j: int)
    requires DistinctKeys(idx) && 0 <= j < |idx| && idx[j].key == k
    ensures Lookup(idx, k) == Some(idx[j].name)
  {
    var q :| 0 <= q < |idx| && idx[q] == Entry(k, Lookup(idx, k).value);
  }

  /** The dict's keys are the distinct keys in order of first occurrence. */
  lemma {:induction false} IndexKeys(keys: seq<string>, names: seq<string>, n: nat)
    requires |keys| == |names| && n <= |names|
    ensures EntryKeys(IndexPrefix(keys, names, n)) == Distinct(keys, n)
    decreases n
  {
    if n > 0 {
      IndexKeys(keys, names, n - 1);
      var prev := IndexPrefix(keys, names, n - 1);
      var k := keys[n - 1];
      assert HasKey(prev, k) <==> k in EntryKeys(prev) by {
        if k in EntryKeys(prev) {
          var j :| 0 <= j < |prev| && EntryKeys(prev)[j] == k;
        }
      }
    }
  }

  /** The dict's value for every key is the last name with that key. */
  lemma {:induction false} IndexValues(keys: seq<string>, names: seq<string>, n: nat, k: string)
    requires |keys| == |names| && n <= |names|
    ensures Lookup(IndexPrefix(keys, names, n), k) == LastWithKey(keys, names, n, k)
    decreases n
  {
    if n > 0 {
      IndexValues(keys, names, n - 1, k);
      IndexStep(keys, names, n, k);
    }
  }

  /** Adding one more item to the dict overrides the value of its key only. */
  lemma IndexStep(keys: seq<string>, names: seq<string>, n: nat, k: string)
    requires |keys| == |names| && 0 < n <= |names|
    ensures Lookup(IndexPrefix(keys, names, n), k)
            == if keys[n - 1] == k then Some(names[n - 1]) else Lookup(IndexPrefix(keys, names, n - 1), k)
  {
    var prev := IndexPrefix(keys, names, n - 1);
    assert IndexPrefix(keys, names, n) == Put(prev, keys[n - 1], names[n - 1]);
    LookupPut(prev, keys[n - 1], names[n - 1], k);
  }

  /** The dict built from all the names. */
  function Index(keys: seq<string>, names: seq<string>): (idx: seq<Entry>)
    requires |keys| == |names|
    ensures DistinctKeys(idx)
  {
    IndexPrefix(keys, names, |names|)
  }

  /** `k in d` and `d[k]`. */
  function Lookup(idx: seq<Entry>, k: string): (r: Option<string>)
    ensures r.Some? <==> HasKey(idx, k)
    ensures r.Some? ==> Entry(k, r.value) in idx
  {
    if |idx| == 0 then None
    else if idx[0].key == k then Some(idx[0].name)
    else
      var r := Lookup(idx[1..], k);
      assert forall j :: 1 <= j < |idx| ==> idx[1..][j - 1] == idx[j];
      r
  }

  /** How a synonym is turned into a key: lower-cased (`candidate.lower()`) or as written. */
  function CandidateKey(c: string, fold: bool): string {
    if fold then Lower(c) else c
  }

  /** The synonyms turned into keys, in order. */
  function Needles(cands: seq<string>, fold: bool): (ns: seq<string>)
    ensures |ns| == |cands|
    ensures forall i :: 0 <= i < |cands| ==> ns[i] == CandidateKey(cands[i], fold)
  {
    seq(|cands|, i requires 0 <= i < |cands| => CandidateKey(cands[i], fold))
  }

  /** The exact phase's test: the synonym is one of the names' keys (`cand.lower() in cols_lower`). */
  predicate Exact(keys: seq<string>, needle: string) {
    needle in keys
  }

  /** The fallback's test: the synonym is at least `floor` long and occurs inside one of the names' keys. */
  predicate Partial(keys: seq<string>, needle: string, floor: nat) {
    |needle| >= floor && exists m :: 0 <= m < |keys| && Contains(keys[m], needle)
  }

  /** The test of the exact phase (`exact`) or of the fallback phase. */
  predicate Matches(keys: seq<string>, needle: string, exact: bool, floor: nat) {
    if exact then Exact(keys, needle) else Partial(keys, needle, floor)
  }

  /** The position of the first synonym, from `from` on, that passes the phase's test. */
  function FirstMatch(keys: seq<string>, needles: seq<string>, exact: bool, floor: nat, from: nat): (r: Option<nat>)
    requires from <= |needles|
    ensures r.Some? ==> from <= r.value < |needles| && Matches(keys, needles[r.value], exact, floor)
                        && forall j :: from <= j < r.value ==> !Matches(keys, needles[j], exact, floor)
    ensures r.None? ==> forall j :: from <= j < |needles| ==> !Matches(keys, needles[j], exact, floor)
    decreases |needles| - from
  {
    if from == |needles| then None
    else if Matches(keys, needles[from], exact, floor) then Some(from)
    else FirstMatch(keys, needles, exact, floor, from + 1)
  }

  /** The fallback's inner loop: the name of the first dict item, from `from` on, whose key contains `needle`. */
  function ScanEntries(idx: seq<Entry>, needle: string, from: nat): Option<string>
    requires from <= |idx|
    decreases |idx| - from
  {
    if from == |idx| then None
    else if Contains(idx[from].key, needle) then Some(idx[from].name)
    else ScanEntries(idx, needle, from + 1)
  }

  /** The scan returns the name of the first item whose key contains the needle, and fails only when there is none. */
  lemma {:induction false} ScanEntriesFirst(idx: seq<Entry>, needle: string, from: nat)
    requires from <= |idx|
    ensures ScanEntries(idx, needle, from).Some? <==> exists j :: from <= j < |idx| && Contains(idx[j].key, needle)
    ensures ScanEntries(idx, needle, from).Some? ==>
              exists j :: from <= j < |idx| && idx[j].name == ScanEntries(idx, needle, from).value
                          && Contains(idx[j].key, needle)
                          && forall j' :: from <= j' < j ==> !Contains(idx[j'].key, needle)
    decreases |idx| - from
  {
    if from < |idx| && !Contains(idx[from].key, needle) {
      ScanEntriesFirst(idx, needle, from + 1);
    }
  }

  /**
   * The fallback's scan over the dict returns the value of the first key, in
   * column order, that contains the needle.
   */
  lemma ScanMeaning(keys: seq<string>, names: seq<string>, needle: string)
    requires |keys| == |names|
    ensures FirstIn(keys, needle).None? ==> ScanEntries(Index(keys, names), needle, 0).None?
    ensures FirstIn(keys, needle).Some? ==>
              ScanEntries(Index(keys, names), needle, 0) == LastWithKey(keys, names, |names|, FirstIn(keys, needle).value)
  {
    var idx := Index(keys, names);
    var n := |names|;
    assert keys[..n] == keys;
    IndexKeys(keys, names, n);
    FirstInDistinct(keys, n, needle);
    var ks := EntryKeys(idx);
    FirstInMeaning(ks, needle);
    ScanEntriesFirst(idx, needle, 0);
    if FirstIn(keys, needle).Some? {
      var j :| 0 <= j < |ks| && ks[j] == FirstIn(ks, needle).value && Contains(ks[j], needle)
               && forall j' :: 0 <= j' < j ==> !Contains(ks[j'], needle);
      var j2 :| 0 <= j2 < |idx| && idx[j2].name == ScanEntries(idx, needle, 0).value
               && Contains(idx[j2].key, needle) && forall j' :: 0 <= j' < j2 ==> !Contains(idx[j'].key, needle);
      assert j == j2;
      IndexValues(keys, names, n, ks[j]);
      var q :| 0 <= q < |idx| && idx[q] == Entry(ks[j], Lookup(idx, ks[j]).value);
      assert q == j;
    }
  }

  /**
   * `_find_col` over precomputed keys: the dict value for the first synonym
   * that is a key; failing that, the dict value for the first key, in column
   * order, that contains the first synonym passing the fallback's test; else
   * nothing. A dict value is the last name carrying that key.
   */
  function FindKeyed(keys: seq<string>, names: seq<string>, needles: seq<string>, floor: nat): (r: Option<string>)
    requires |keys| == |names|
    ensures r.Some? ==> r.value in names
    ensures FirstMatch(keys, needles, true, floor, 0).Some? ==>
              r.Some? && r == LastWithKey(keys, names, |names|, needles[FirstMatch(keys, needles, true, floor, 0).value])
    ensures FirstMatch(keys, needles, true, floor, 0).None? && FirstMatch(keys, needles, false, floor, 0).Some? ==>
              var needle := needles[FirstMatch(keys, needles, false, floor, 0).value];
              FirstIn(keys, needle).Some? && r.Some? && r == LastWithKey(keys, names, |names|, FirstIn(keys, needle).value)
    ensures FirstMatch(keys, needles, true, floor, 0).None? && FirstMatch(keys, needles, false, floor, 0).None? ==>
              r.None?
  {
    var idx := Index(keys, names);
    match FirstMatch(keys, needles, true, floor, 0)
    case Some(i) =>
      IndexValues(keys, names, |names|, needles[i]);
      LastWithKeyMeaning(keys, names, |names|, needles[i]);
      Lookup(idx, needles[i])
    case None =>
      match FirstMatch(keys, needles, false, floor, 0)
      case Some(i) =>
        ScanMeaning(keys, names, needles[i]);
        FirstInMeaning(keys, needles[i]);
        LastWithKeyMeaning(keys, names, |names|, FirstIn(keys, needles[i]).value);
        ScanEntries(idx, needles[i], 0)
      case None => None
  }

  /** `_find_col`, either version: the column names are normalised with `lower().strip()`, the synonyms lower-cased. */
  function FindColWith(columns: seq<string>, cands: seq<string>, floor: nat): (r: Option<string>)
    ensures r.Some? ==> r.value in columns
  {
    FindKeyed(Keys(columns, LowerStrip), columns, Needles(cands, true), floor)
  }

  /** The newer `_find_col`: fallback synonyms need at least four characters. */
  function FindCol(columns: seq<string>, cands: seq<string>): Option<string> {
    FindColWith(columns, cands, 4)
  }

  /** The older `_find_col`: every synonym takes part in the fallback. */
  function LegacyFindCol(columns: seq<string>, cands: seq<string>): Option<string> {
    FindColWith(columns, cands, 0)
  }

  /** The exact phase alone: the dict value for the first synonym that is a key, else nothing. */
  function FindExact(keys: seq<string>, names: seq<string>, needles: seq<string>): (r: Option<string>)
    requires |keys| == |names|
    ensures r.Some? ==> r.value in names
    ensures FirstMatch(keys, needles, true, 0, 0).Some? ==>
              r.Some? && r == LastWithKey(keys, names, |names|, needles[FirstMatch(keys, needles, true, 0, 0).value])
    ensures FirstMatch(keys, needles, true, 0, 0).None? ==> r.None?
  {
    match FirstMatch(keys, needles, true, 0, 0)
    case Some(i) =>
      IndexValues(keys, names, |names|, needles[i]);
      LastWithKeyMeaning(keys, names, |names|, needles[i]);
      Lookup(Index(keys, names), needles[i])
    case None => None
  }

  /** `_find_sheet`, either version: the sheet for the first synonym that is a dict key. */
  function FindSheetWith(sheetNames: seq<string>, cands: seq<string>, rule: KeyRule, fold: bool): (r: Option<string>)
    ensures r.Some? ==> r.value in sheetNames
  {
    FindExact(Keys(sheetNames, rule), sheetNames, Needles(cands, fold))
  }

  /** The newer `_find_sheet`: `lower().strip()` sheet names, synonyms lower-cased. */
  function FindSheet(sheetNames: seq<string>, cands: seq<string>): Option<string> {
    FindSheetWith(sheetNames, cands, LowerStrip, true)
  }

  /** The older `_find_sheet`: sheet names lower-cased but not stripped, synonyms compared as written. */
  function LegacyFindSheet(sheetNames: seq<string>, cands: seq<string>): Option<string> {
    FindSheetWith(sheetNames, cands, LowerOnly, false)
  }

  lemma StripTrimmed(s: string)
    requires |s| > 0 && !IsSpace(s[0]) && !IsSpace(s[|s| - 1])
    ensures Strip(s) == s
  {
    assert StripLeft(s) == s;
    assert StripRight(s) == s;
  }

  lemma KeyHost()
    ensures Key(LowerStrip, "Host") == "host"
  {
    var s := Lower("Host");
    assert s == "host";
    StripTrimmed(s);
  }

  lemma KeyVmOs()
    ensures Key(LowerStrip, "VM OS") == "vm os"
  {
    var s := Lower("VM OS");
    assert s == "vm os";
    assert s[0] == 'v' && s[|s| - 1] == 's';
    StripTrimmed(s);
  }

  lemma KeysHostVmOs()
    ensures Keys(["Host", "VM OS"], LowerStrip) == ["host", "vm os"]
  {
    KeyHost();
    KeyVmOs();
  }

  lemma NeedlesOs()
    ensures Needles(["operating system", "os", "guest os", "os type"], true) == ["operating system", "os", "guest os", "os type"]
    ensures Needles(["vm os", "operating system", "guest os", "os type"], true) == ["vm os", "operating system", "guest os", "os type"]
  {
    assert Lower("operating system") == "operating system" && Lower("os") == "os";
    assert Lower("guest os") == "guest os" && Lower("os type") == "os type" && Lower("vm os") == "vm os";
  }

  lemma FirstHostOs()
    ensures FirstIn(["host", "vm os"], "os") == Some("host")
  {
    assert OccursAt("host", "os", 1);
    assert ["host", "vm os"][..1] == ["host"];
    assert ["host"][..0] == [];
  }

  lemma LegacyOsMatches()
    ensures FirstMatch(["host", "vm os"], ["operating system", "os", "guest os", "os type"], true, 0, 0).None?
    ensures FirstMatch(["host", "vm os"], ["operating system", "os", "guest os", "os type"], false, 0, 0) == Some(1)
  {
    var keys := ["host", "vm os"];
    var needles := ["operating system", "os", "guest os", "os type"];
    assert OccursAt(keys[0], "os", 1);
    assert Contains(keys[0], "os");
    assert Partial(keys, needles[1], 0);
    assert FirstMatch(keys, needles, false, 0, 1) == Some(1);
    assert !Partial(keys, needles[0], 0);
  }

  /**
   * The two `_find_col` versions part ways on a short synonym: for a sheet
   * with columns "Host" and "VM OS", the older OS synonyms reach the fallback
   * and 'os' matches inside "host", while the newer list matches "VM OS"
   * exactly (and would in any case skip 'os' in the fallback).
   */
  lemma OsColumnDivergence()
    ensures LegacyFindCol(["Host", "VM OS"], ["operating system", "os", "guest os", "os type"]) == Some("Host")
    ensures FindCol(["Host", "VM OS"], ["vm os", "operating system", "guest os", "os type"]) == Some("VM OS")
  {
    LegacyOsColumn();
    NewerOsColumn();
  }

  lemma LegacyOsColumn()
    ensures LegacyFindCol(["Host", "VM OS"], ["operating system", "os", "guest os", "os type"]) == Some("Host")
  {
    KeysHostVmOs();
    NeedlesOs();
    LegacyOsMatches();
    FirstHostOs();
    var keys := ["host", "vm os"];
    var names := ["Host", "VM OS"];
    LastWithKeyMeaning(keys, names, 2, "host");
    assert LastWithKey(keys, names, 2, "host") == Some("Host");
  }

  lemma NewerOsColumn()
    ensures FindCol(["Host", "VM OS"], ["vm os", "operating system", "guest os", "os type"]) == Some("VM OS")
  {
    KeysHostVmOs();
    NeedlesOs();
    var keys := ["host", "vm os"];
    var names := ["Host", "VM OS"];
    var newer := ["vm os", "operating system", "guest os", "os type"];
    assert FirstMatch(keys, newer, true, 4, 0) == Some(0);
    LastWithKeyMeaning(keys, names, 2, "vm os");
    assert LastWithKey(keys, names, 2, "vm os") == Some("VM OS");
  }

  lemma SpacedVmsLowered()
    ensures Key(LowerOnly, " VMs") == " vms"
  {
    assert Lower(" VMs") == " vms";
  }

  lemma DropLeadingSpace()
    ensures StripLeft(" vms") == StripLeft("vms")
  {
    assert " vms"[1..] == "vms";
  }

  lemma StripVms()
    ensures Strip(" vms") == "vms"
  {
    DropLeadingSpace();
    assert StripLeft("vms") == "vms";
    assert StripRight("vms") == "vms";
  }

  lemma SpacedVmsStripped()
    ensures Key(LowerStrip, " VMs") == "vms"
  {
    SpacedVmsLowered();
    StripVms();
  }

  lemma NeedlesVms()
    ensures Needles(["vms", "virtual machines", "vm inventory"], true) == ["vms", "virtual machines", "vm inventory"]
  {
    assert Lower("vms") == "vms" && Lower("virtual machines") == "virtual machines" && Lower("vm inventory") == "vm inventory";
  }

  /** The older `_find_sheet` does not strip: a sheet named " VMs" is found by the newer version only. */
  lemma SheetStripDivergence()
    ensures FindSheet([" VMs"], ["vms", "virtual machines", "vm inventory"]) == Some(" VMs")
    ensures LegacyFindSheet([" VMs"], ["vms", "virtual machines", "vm inventory"]).None?
  {
    var cands := ["vms", "virtual machines", "vm inventory"];
    SpacedVmsLowered();
    SpacedVmsStripped();
    assert Keys([" VMs"], LowerStrip) == ["vms"];
    assert Keys([" VMs"], LowerOnly) == [" vms"];
    NeedlesVms();
    assert FirstMatch(["vms"], cands, true, 0, 0) == Some(0);
    assert FirstMatch([" vms"], cands, true, 0, 0).None?;
  }
}

=== FILE: rounding.dfy ===
/**
 * Python's numeric conversions on exact reals: the built-in `round` (nearest,
 * ties to even) with 0, 1 or 2 decimals, and `int()` (truncation toward zero).
 */
module Rounding {

  /** `round(x)`: the nearest integer; an exact tie goes to the even neighbour. */
  function RoundHalfEven(x: real): (r: int)
    ensures x - 0.5 <= r as real <= x + 0.5
    ensures (r as real - x == 0.5 || x - r as real == 0.5) ==> r % 2 == 0
  {
    var f := x.Floor;
    var frac := x - f as real;
    if frac < 0.5 then f
    else if frac > 0.5 then f + 1
    else if f % 2 == 0 then f else f + 1
  }

  /** Rounding never reverses the order of two values. */
  lemma RoundMonotone(x: real, y: real)
    requires x <= y
    ensures RoundHalfEven(x) <= RoundHalfEven(y)
  {
  }

  /** Rounding an integer gives it back. */
  lemma RoundInteger(n: int)
    ensures RoundHalfEven(n as real) == n
  {
  }

  /**
   * `k / scale` is the multiple of `1 / scale` nearest to `x`, with an exact
   * tie going to an even `k`: what `round(x, d)` returns for `scale == 10^d`.
   */
  predicate NearestOnGrid(x: real, scale: real, k: int) {
    && x * scale - 0.5 <= k as real <= x * scale + 0.5
    && ((k as real - x * scale == 0.5 || x * scale - k as real == 0.5) ==> k % 2 == 0)
  }

  /** `round(x, 1)`: a whole number of tenths, the nearest one to x. */
  function Round1(x: real): (r: real)
    ensures x - 0.05 <= r <= x + 0.05
    ensures exists k: int :: r == k as real / 10.0 && NearestOnGrid(x, 10.0, k)
  {
    var k := RoundHalfEven(x * 10.0);
    assert NearestOnGrid(x, 10.0, k);
    k as real / 10.0
  }

  /** `round(x, 2)`: a whole number of hundredths, the nearest one to x. */
  function Round2(x: real): (r: real)
    ensures x - 0.005 <= r <= x + 0.005
    ensures exists k: int :: r == k as real / 100.0 && NearestOnGrid(x, 100.0, k)
  {
    var k := RoundHalfEven(x * 100.0);
    assert NearestOnGrid(x, 100.0, k);
    k as real / 100.0
  }

  /** `round(x, 1)` keeps the order of its arguments. */
  lemma Round1Monotone(x: real, y: real)
    requires x <= y
    ensures Round1(x) <= Round1(y)
  {
    RoundMonotone(x * 10.0, y * 10.0);
  }

  /** `round(x, 2)` keeps the order of its arguments. */
  lemma Round2Monotone(x: real, y: real)
    requires x <= y
    ensures Round2(x) <= Round2(y)
  {
    RoundMonotone(x * 100.0, y * 100.0);
  }

  /** A value that already has one decimal is left alone by `round(x, 1)`. */
  lemma Round1OfTenths(n: int)
    ensures Round1(n as real / 10.0) == n as real / 10.0
  {
    assert (n as real / 10.0) * 10.0 == n as real;
    RoundInteger(n);
  }

  /** A value that already has two decimals is left alone by `round(x, 2)`. */
  lemma Round2OfHundredths(n: int)
    ensures Round2(n as real / 100.0) == n as real / 100.0
  {
    assert (n as real / 100.0) * 100.0 == n as real;
    RoundInteger(n);
  }

  /** `int(x)` for a float `x`: drops the fraction, rounding toward zero. */
  function Trunc(x: real): (r: int)
    ensures 0.0 <= x ==> 0 <= r && r as real <= x < r as real + 1.0
    ensures x < 0.0 ==> r <= 0 && r as real - 1.0 < x <= r as real
  {
    if x >= 0.0 then x.Floor else -((-x).Floor)
  }
}

=== FILE: rvtools.dfy ===
/**
 * The RVTools parser (`parse_rvtools`): fixed sheet names (vInfo, vHost,
 * vCluster, vPartition) and fixed column headers, compared exactly. Numeric
 * columns are summed without coercion, so a text cell in one of them raises
 * and the whole parse yields the error outcome.
 */
module RvTools {
  import opened Wrappers
  import opened Rounding
  import opened Workbook
  import opened Inventory
  import opened Health

  const LinuxWords: seq<string> := ["linux", "red hat", "ubuntu", "centos", "suse"]
  const OldOsWords: seq<string> := ["2008", "2003", "2012", "windows 7", "centos 6", "rhel 6"]

  /** `df[col].sum()` on an optional column: text makes pandas raise, empty cells are skipped. */
  predicate SumRaises(s: Sheet, col: string) {
    col in s.columns && !AllNumeric(Column(s, col))
  }

  /** `int(df[col].sum()) if col in df.columns else 0`: the column total truncated toward zero, 0 without the column. */
  function IntTotal(s: Sheet, col: string): int {
    if col in s.columns then Trunc(CoercedSum(Column(s, col))) else 0
  }

  /** `round(df[col].sum() / 1024, 2) if col in df.columns else 0`: the column total in MiB read as GiB, to cents. */
  function GiBTotal(s: Sheet, col: string): real {
    if col in s.columns then Round2(CoercedSum(Column(s, col)) / 1024.0) else 0.0
  }

  /** The vInfo sheet raises when a summed or compared numeric column holds text, or the OS column has no text for `.str`. */
  predicate VInfoRaises(s: Sheet) {
    SumRaises(s, "CPUs") || SumRaises(s, "Memory") || ("OS" in s.columns && !StrAccessorOk(Column(s, "OS")))
  }

  /** The fields read from the vInfo sheet. */
  function VInfo(s: Sheet): (r: Data)
    ensures r.totalVms == Some(|s.rows|)
    ensures r.poweredOnVms.Some? && r.poweredOffVms.Some?
    ensures r.poweredOnVms.value + r.poweredOffVms.value <= |s.rows|
    ensures "Powerstate" !in s.columns ==> r.poweredOnVms == Some(0) && r.poweredOffVms == Some(0)
    ensures "Powerstate" in s.columns ==>
              && r.poweredOnVms == Some(|set i | 0 <= i < |s.rows| && Column(s, "Powerstate")[i] == Str("poweredOn")|)
              && r.poweredOffVms == Some(|set i | 0 <= i < |s.rows| && Column(s, "Powerstate")[i] == Str("poweredOff")|)
    ensures r.totalVcpu == Some(IntTotal(s, "CPUs")) && r.totalVramGb == Some(GiBTotal(s, "Memory"))
    ensures r.largeVms.Some? <==> "CPUs" in s.columns
    ensures r.largeVms.Some? ==> r.oversizedCandidates.Some? && r.oversizedCandidates.value <= r.largeVms.value <= |s.rows|
    ensures "CPUs" in s.columns ==>
              && r.largeVms == Some(|set i | 0 <= i < |s.rows| && AtLeast(Column(s, "CPUs")[i], 8.0)|)
              && r.oversizedCandidates == Some(|set i | 0 <= i < |s.rows| && AtLeast(Column(s, "CPUs")[i], 16.0)|)
    ensures r.windowsRatio.Some? <==> "OS" in s.columns
    ensures r.windowsRatio.Some? ==> 0.0 <= r.windowsRatio.value <= 1.0
    ensures r.oldOsVms.Some? <==> "OS" in s.columns
    ensures "OS" in s.columns ==>
              && r.windowsVms == Some(|set i | 0 <= i < |s.rows| && TextContains(Column(s, "OS")[i], WindowsWords)|)
              && r.linuxVms == Some(|set i | 0 <= i < |s.rows| && TextContains(Column(s, "OS")[i], LinuxWords)|)
              && r.oldOsVms == Some(|set i | 0 <= i < |s.rows| && TextContains(Column(s, "OS")[i], OldOsWords)|)
    ensures r.totalHosts.None? && r.vcpuPcpuRatio.None? && r.vmDensity.None? && r.totalStorageGb.None?
    ensures r.storageUtilization.None? && r.totalPhysicalCores.None?
  {
    var total := |s.rows|;
    var power := if "Powerstate" in s.columns then PowerCounts(Column(s, "Powerstate"), {"poweredOn"}, {"poweredOff"}, false) else (0, 0);
    var powerCol := if "Powerstate" in s.columns then Column(s, "Powerstate") else [];
    ExactWord(powerCol, "poweredOn");
    ExactWord(powerCol, "poweredOff");
    var d0 := Empty.(totalVms := Some(total), poweredOnVms := Some(power.0), poweredOffVms := Some(power.1),
                     totalVcpu := Some(IntTotal(s, "CPUs")), totalVramGb := Some(GiBTotal(s, "Memory")));
    Classified(d0, s)
  }

  /** The OS, large-VM and legacy-OS fields of the vInfo sheet, added to `d`. */
  function Classified(d: Data, s: Sheet): (r: Data)
    requires d.windowsRatio.None? && d.largeVms.None? && d.oldOsVms.None?
    ensures r.largeVms.Some? <==> "CPUs" in s.columns
    ensures r.largeVms.Some? ==> r.oversizedCandidates.Some? && r.oversizedCandidates.value <= r.largeVms.value <= |s.rows|
    ensures "CPUs" in s.columns ==>
              && r.largeVms == Some(|set i | 0 <= i < |s.rows| && AtLeast(Column(s, "CPUs")[i], 8.0)|)
              && r.oversizedCandidates == Some(|set i | 0 <= i < |s.rows| && AtLeast(Column(s, "CPUs")[i], 16.0)|)
    ensures r.windowsRatio.Some? <==> "OS" in s.columns
    ensures r.windowsRatio.Some? ==> 0.0 <= r.windowsRatio.value <= 1.0
    ensures r.oldOsVms.Some? <==> "OS" in s.columns
    ensures "OS" in s.columns ==>
              && r.windowsVms == Some(|set i | 0 <= i < |s.rows| && TextContains(Column(s, "OS")[i], WindowsWords)|)
              && r.linuxVms == Some(|set i | 0 <= i < |s.rows| && TextContains(Column(s, "OS")[i], LinuxWords)|)
              && r.oldOsVms == Some(|set i | 0 <= i < |s.rows| && TextContains(Column(s, "OS")[i], OldOsWords)|)
    ensures r.(osBreakdown := d.osBreakdown, windowsVms := d.windowsVms, linuxVms := d.linuxVms,
               windowsRatio := d.windowsRatio, largeVms := d.largeVms, oversizedCandidates := d.oversizedCandidates,
               oldOsVms := d.oldOsVms, oldOsList := d.oldOsList) == d
  {
    var d1 := if "OS" in s.columns then WithOs(d, |s.rows|, Column(s, "OS"), LinuxWords) else d;
    var d2 := if "CPUs" in s.columns then WithLarge(d1, Column(s, "CPUs")) else d1;
    assert d2.(largeVms := d1.largeVms, oversizedCandidates := d1.oversizedCandidates) == d1;
    var d3 := if "OS" in s.columns then WithOldOs(d2, Column(s, "OS"), OldOsWords) else d2;
    assert d3.(oldOsVms := d2.oldOsVms, oldOsList := d2.oldOsList) == d2;
    d3
  }

  /** `col == w` on a column compares whole texts, without lower-casing. */
  lemma ExactWord(col: seq<Cell>, w: string)
    ensures (set i | 0 <= i < |col| && IsWord(col[i], {w}, false)) == set i | 0 <= i < |col| && col[i] == Str(w)
  {
  }

  predicate VHostRaises(s: Sheet) {
    SumRaises(s, "# Cores") || SumRaises(s, "# CPU") || SumRaises(s, "Memory")
  }

  /** The fields read from the vHost sheet, then the guarded vCPU:pCPU ratio and VM density. */
  function VHost(d: Data, s: Sheet): (r: Data)
    requires d.vcpuPcpuRatio.None? && d.vmDensity.None?
    ensures r.totalHosts == Some(|s.rows|)
    ensures r.totalPhysicalCores == Some(IntTotal(s, "# Cores")) && r.totalPhysicalCpu == Some(IntTotal(s, "# CPU"))
    ensures r.totalHostRamGb == Some(GiBTotal(s, "Memory"))
    ensures r.totalVms == d.totalVms && r.totalVcpu == d.totalVcpu
    ensures r.vcpuPcpuRatio.Some? <==> Truthy(d.totalVcpu) && Truthy(r.totalPhysicalCores)
    ensures r.vmDensity.Some? <==> Truthy(d.totalVms) && Truthy(r.totalHosts)
    ensures r.vcpuPcpuRatio.Some? ==>
              var exact := d.totalVcpu.value as real / r.totalPhysicalCores.value as real;
              exact - 0.005 <= r.vcpuPcpuRatio.value <= exact + 0.005
    ensures r.vmDensity.Some? ==>
              var exact := d.totalVms.value as real / r.totalHosts.value as real;
              exact - 0.05 <= r.vmDensity.value <= exact + 0.05
    ensures r.(totalHosts := d.totalHosts, totalPhysicalCores := d.totalPhysicalCores,
               totalPhysicalCpu := d.totalPhysicalCpu, totalHostRamGb := d.totalHostRamGb,
               vcpuPcpuRatio := d.vcpuPcpuRatio, vmDensity := d.vmDensity) == d
  {
    var d0 := d.(totalHosts := Some(|s.rows|), totalPhysicalCores := Some(IntTotal(s, "# Cores")),
                 totalPhysicalCpu := Some(IntTotal(s, "# CPU")), totalHostRamGb := Some(GiBTotal(s, "Memory")));
    WithDensity(WithRatio(d0))
  }

  predicate VPartitionRaises(s: Sheet) {
    SumRaises(s, "Capacity MB") || SumRaises(s, "Consumed MB")
  }

  /** The storage totals from the vPartition sheet and the utilisation, set only for a positive capacity. */
  function VPartition(d: Data, s: Sheet): (r: Data)
    requires d.storageUtilization.None?
    ensures r.totalStorageGb == Some(GiBTotal(s, "Capacity MB")) && r.consumedStorageGb == Some(GiBTotal(s, "Consumed MB"))
    ensures r.storageUtilization.Some? <==> r.totalStorageGb.value > 0.0
    ensures r.storageUtilization.Some? ==>
              var exact := r.consumedStorageGb.value / r.totalStorageGb.value * 100.0;
              exact - 0.05 <= r.storageUtilization.value <= exact + 0.05
    ensures r.(totalStorageGb := d.totalStorageGb, consumedStorageGb := d.consumedStorageGb,
               storageUtilization := d.storageUtilization) == d
  {
    var d0 := d.(totalStorageGb := Some(GiBTotal(s, "Capacity MB")), consumedStorageGb := Some(GiBTotal(s, "Consumed MB")));
    WithUtilization(d0, false)
  }

  /** Whether reading the workbook raises: one of the sheets that is present has a bad column. */
  predicate Raises(b: Book) {
    var names := SheetNames(b);
    ("vInfo" in names && VInfoRaises(GetSheet(b, "vInfo")))
    || ("vHost" in names && VHostRaises(GetSheet(b, "vHost")))
    || ("vPartition" in names && VPartitionRaises(GetSheet(b, "vPartition")))
  }

  /** The VM facts every stage after vInfo keeps. */
  predicate VmFactsHold(d: Data) {
    && (d.largeVms.Some? ==> d.oversizedCandidates.Some? && d.oversizedCandidates.value <= d.largeVms.value)
    && (d.windowsRatio.Some? ==> 0.0 <= d.windowsRatio.value <= 1.0)
    && (d.poweredOnVms.Some? ==> d.poweredOffVms.Some? && d.totalVms.Some?
                                 && d.poweredOnVms.value + d.poweredOffVms.value <= d.totalVms.value)
  }

  /** The record after the vInfo and vHost sheets, before storage. */
  function InfoAndHosts(b: Book): (d: Data)
    ensures var names := SheetNames(b);
            && (d.vcpuPcpuRatio.Some? <==> "vHost" in names && Truthy(d.totalVcpu) && Truthy(d.totalPhysicalCores))
            && (d.vmDensity.Some? <==> "vHost" in names && Truthy(d.totalVms) && Truthy(d.totalHosts))
            && (d.totalVms.Some? <==> "vInfo" in names)
            && (d.totalHosts.Some? <==> "vHost" in names)
            && d.totalStorageGb.None? && d.storageUtilization.None? && d.totalClusters.None?
            && VmFactsHold(d)
  {
    var names := SheetNames(b);
    var d1 := if "vInfo" in names then VInfo(GetSheet(b, "vInfo")) else Empty;
    if "vHost" in names then VHost(d1, GetSheet(b, "vHost")) else d1
  }

  /** The record built from a workbook that does not raise. */
  function Collect(b: Book): (d: Data)
    ensures var names := SheetNames(b);
            && (d.vcpuPcpuRatio.Some? <==> "vHost" in names && Truthy(d.totalVcpu) && Truthy(d.totalPhysicalCores))
            && (d.vmDensity.Some? <==> "vHost" in names && Truthy(d.totalVms) && Truthy(d.totalHosts))
            && (d.storageUtilization.Some? <==> d.totalStorageGb.Some? && d.totalStorageGb.value > 0.0)
            && (d.totalStorageGb.Some? <==> "vPartition" in names)
            && (d.totalVms.Some? <==> "vInfo" in names)
            && (d.totalHosts.Some? <==> "vHost" in names)
            && d.totalClusters == (if "vCluster" in names then Some(|GetSheet(b, "vCluster").rows|) else None)
            && (d.largeVms.Some? ==> d.oversizedCandidates.Some? && d.oversizedCandidates.value <= d.largeVms.value)
            && (d.windowsRatio.Some? ==> 0.0 <= d.windowsRatio.value <= 1.0)
            && (d.poweredOnVms.Some? ==> d.poweredOffVms.Some? && d.totalVms.Some?
                                         && d.poweredOnVms.value + d.poweredOffVms.value <= d.totalVms.value)
  {
    var names := SheetNames(b);
    var d2 := InfoAndHosts(b);
    var d3 := if "vCluster" in names then d2.(totalClusters := Some(|GetSheet(b, "vCluster").rows|)) else d2;
    var d4 := if "vPartition" in names then VPartition(d3, GetSheet(b, "vPartition")) else d3;
    assert d4.(totalClusters := d2.totalClusters, totalStorageGb := None, consumedStorageGb := d2.consumedStorageGb,
               storageUtilization := None) == d2;
    d4
  }

  /** `parse_rvtools(filepath)`. */
  function Parse(f: WorkbookFile): (r: Outcome)
    ensures r.Failed? <==> f.Unreadable? || Raises(f.book)
    ensures r.Parsed? ==> r.data == Collect(f.book) && r.health == Assess(r.data)
  {
    match f
    case Unreadable(_) => Failed
    case Readable(b) =>
      if Raises(b) then Failed
      else
        var d := Collect(b);
        Parsed(d, Assess(d))
  }
}

=== FILE: tco.dfy ===
/**
 * The total-cost-of-ownership calculators (`calculator/tco.py`): the cost of
 * staying on the current VMware estate, the cost of moving to one of the
 * candidate platforms, and the ROI of the move. Costs are exact reals; the
 * reported figures are those costs rounded to cents.
 */
module Tco {
  import opened Wrappers
  import opened Rounding
  import opened Inventory
  import opened Pricing

  /**
   * The `overrides` dict both calculators take. An absent key reads as the
   * calculator's default, which is also what a missing or empty dict gives.
   */
  datatype Overrides = Overrides(
    hardware: HardwarePatch,
    fteCost: Option<real>,
    years: Option<int>,
    fteCount: Option<real>,
    fteReduction: Option<real>,
    efficiency: Option<real>,
    pricing: Option<RatePatch>)

  const NoOverrides: Overrides := Overrides(NoHardwarePatch, None, None, None, None, None, None)

  /** The vSphere licence the current estate is assumed to pay, per core per year. */
  const VspherePerCore: real := 50.0
  const HoursPerYear: real := 8760.0
  const HardwareSupportShare: real := 0.20
  const ImplementationPerHost: real := 2500.0
  const MinEffectiveHosts: int := 3

  function Years(o: Overrides): int { o.years.GetOr(3) }
  function FteCount(o: Overrides): real { o.fteCount.GetOr(3.0) }
  function FteCost(o: Overrides): real { o.fteCost.GetOr(DefaultFteCost) }
  function FteReduction(o: Overrides): real { o.fteReduction.GetOr(0.40) }
  function Efficiency(o: Overrides): real { o.efficiency.GetOr(0.80) }

  /** `parsed_data.get('total_hosts', 0)`. */
  function Hosts(d: Data): nat { d.totalHosts.GetOr(0) }

  /** `parsed_data.get('total_physical_cores', hosts * 20)`. */
  function Cores(d: Data): int { d.totalPhysicalCores.GetOr(Hosts(d) * 20) }

  /** The division by the refresh cycle and by the analysis period must not be by zero. */
  predicate Computable(o: Overrides) {
    Years(o) != 0 && PatchedHardware(o.hardware).refreshYears != 0.0
  }

  /** How many hardware refresh cycles the period spans: `years / refresh_cycle_years`. */
  function Refreshes(years: int, h: Hardware): real
    requires h.refreshYears != 0.0
  {
    years as real / h.refreshYears
  }

  /** Power and rack cost of `hosts` hosts over the period. */
  function Facilities(hosts: real, h: Hardware, years: int): real {
    (hosts * h.kwPerHost * HoursPerYear * h.costPerKwh + hosts * h.dcPerHost) * years as real
  }

  /** Hardware cost of `hosts` hosts over the period: `hosts * cost_per_host * (years / refresh_cycle_years)`. */
  function HardwareCost(hosts: real, h: Hardware, years: int): real
    requires h.refreshYears != 0.0
  {
    hosts * h.hostCost * Refreshes(years, h)
  }

  /** `total / years`: the average over the period, which times the period gives the total back. */
  function AnnualAverage(total: real, years: int): (a: real)
    requires years != 0
    ensures a * years as real == total
  {
    total / years as real
  }

  datatype CurrentCosts = CurrentCosts(
    hardware: real, facilities: real, fte: real, licensing: real, support: real,
    total: real, years: int, annualAverage: real)

  /** `calculate_current_tco` before rounding. */
  function CurrentExact(d: Data, o: Overrides): (c: CurrentCosts)
    requires Computable(o)
    ensures var h := PatchedHardware(o.hardware);
            var hosts := Hosts(d) as real;
            var years := Years(o) as real;
            && c.years == Years(o)
            && c.hardware == HardwareCost(hosts, h, Years(o))
            && c.facilities == Facilities(hosts, h, Years(o))
            && c.fte == FteCount(o) * FteCost(o) * years
            && c.licensing == Cores(d) as real * VspherePerCore * years
            && c.support == hosts * h.hostCost * HardwareSupportShare * years
    ensures c.total == c.hardware + c.facilities + c.fte + c.licensing + c.support
    ensures c.annualAverage * c.years as real == c.total
  {
    var h := PatchedHardware(o.hardware);
    var hosts := Hosts(d) as real;
    var years := Years(o) as real;
    var hardware := HardwareCost(hosts, h, Years(o));
    var facilities := Facilities(hosts, h, Years(o));
    var fte := FteCount(o) * FteCost(o) * years;
    var licensing := Cores(d) as real * VspherePerCore * years;
    var support := hosts * h.hostCost * HardwareSupportShare * years;
    var total := hardware + facilities + fte + licensing + support;
    CurrentCosts(hardware, facilities, fte, licensing, support, total, Years(o), AnnualAverage(total, Years(o)))
  }

  /** `r` is `x` reported to the cent: at most half a cent away from it. */
  predicate HalfCent(r: real, x: real) {
    x - 0.005 <= r <= x + 0.005
  }

  /** The dict `calculate_current_tco` returns: every amount rounded to cents. */
  function CurrentTco(d: Data, o: Overrides): (c: CurrentCosts)
    requires Computable(o)
    ensures var e := CurrentExact(d, o);
            && c.years == e.years
            && HalfCent(c.hardware, e.hardware) && HalfCent(c.facilities, e.facilities) && HalfCent(c.fte, e.fte)
            && HalfCent(c.licensing, e.licensing) && HalfCent(c.support, e.support)
            && HalfCent(c.total, e.total) && HalfCent(c.annualAverage, e.annualAverage)
  {
    var e := CurrentExact(d, o);
    CurrentCosts(Round2(e.hardware), Round2(e.facilities), Round2(e.fte), Round2(e.licensing),
                 Round2(e.support), Round2(e.total), e.years, Round2(e.annualAverage))
  }

  /**
   * `calculate_current_tco` including its failure: a zero refresh cycle or a
   * zero period makes a division raise ZeroDivisionError, here `None`.
   */
  function CalculateCurrentTco(d: Data, o: Overrides): (r: Option<CurrentCosts>)
    ensures r.None? <==> Years(o) == 0 || PatchedHardware(o.hardware).refreshYears == 0.0
    ensures r.Some? ==> r.value == CurrentTco(d, o)
  {
    if Computable(o) then Some(CurrentTco(d, o)) else None
  }

  /** A missing core count is taken as 20 cores per host. */
  lemma CurrentMissingCores(d: Data, o: Overrides)
    requires Computable(o) && d.totalPhysicalCores.None?
    ensures CurrentExact(d, o).licensing == Hosts(d) as real * 20.0 * VspherePerCore * Years(o) as real
  {
  }

  /** Every current-state cost is proportional to the period, so the annual average does not depend on it. */
  lemma CurrentScalesWithYears(d: Data, o: Overrides, y: int)
    requires Computable(o) && y != 0
    ensures Computable(o.(years := Some(y))) && Computable(o.(years := Some(1)))
    ensures CurrentExact(d, o.(years := Some(y))).total == y as real * CurrentExact(d, o.(years := Some(1))).total
    ensures CurrentExact(d, o.(years := Some(y))).annualAverage == CurrentExact(d, o.(years := Some(1))).annualAverage
  {
    var a := CurrentExact(d, o.(years := Some(y)));
    var b := CurrentExact(d, o.(years := Some(1)));
    CurrentTotalScales(d, o, y);
    assert a.annualAverage * y as real == y as real * b.annualAverage;
  }

  lemma CurrentTotalScales(d: Data, o: Overrides, y: int)
    requires Computable(o) && y != 0
    ensures Computable(o.(years := Some(y))) && Computable(o.(years := Some(1)))
    ensures CurrentExact(d, o.(years := Some(y))).total == y as real * CurrentExact(d, o.(years := Some(1))).total
  {
    var oy := o.(years := Some(y));
    var o1 := o.(years := Some(1));
    var h := PatchedHardware(o.hardware);
    var hosts := Hosts(d) as real;
    assert Years(oy) == y && Years(o1) == 1 && FteCount(oy) == FteCount(o1) && FteCost(oy) == FteCost(o1);
    assert PatchedHardware(oy.hardware) == h && PatchedHardware(o1.hardware) == h;
    var a := CurrentExact(d, oy);
    var b := CurrentExact(d, o1);
    HardwareScales(hosts, h, y);
    FacilitiesScale(hosts, h, y);
    PerYear(FteCount(o) * FteCost(o), y);
    PerYear(Cores(d) as real * VspherePerCore, y);
    PerYear(hosts * h.hostCost * HardwareSupportShare, y);
    assert a.total == y as real * b.total;
  }

  /** A yearly amount over `y` years is `y` times the amount over one year. */
  lemma PerYear(k: real, y: int)
    ensures k * y as real == y as real * (k * 1 as real)
  {
  }

  lemma HardwareScales(hosts: real, h: Hardware, y: int)
    requires h.refreshYears != 0.0
    ensures HardwareCost(hosts, h, y) == y as real * HardwareCost(hosts, h, 1)
  {
    assert Refreshes(y, h) == y as real * Refreshes(1, h);
    PerYear(hosts * h.hostCost, y);
  }

  lemma FacilitiesScale(hosts: real, h: Hardware, y: int)
    ensures Facilities(hosts, h, y) == y as real * Facilities(hosts, h, 1)
  {
    PerYear(hosts * h.kwPerHost * HoursPerYear * h.costPerKwh + hosts * h.dcPerHost, y);
  }

  datatype PlatformCosts = PlatformCosts(
    platform: Platform, licensing: real, support: real, hardware: real, facilities: real,
    fte: real, implementation: real, total: real, years: int, annualAverage: real, effectiveHosts: int)

  /** `PLATFORMS[name].copy()` updated with the caller's pricing override. */
  function PlatformTerms(p: Platform, o: Overrides): Terms {
    Apply(Defaults(p), o.pricing.GetOr(NoPatch))
  }

  /** The units a licence is counted in: cores for a per-core licence, hosts for a per-node one. */
  function LicenseUnits(d: Data, t: Terms): int {
    match t.model
    case PerCore => Cores(d)
    case PerNode => Hosts(d)
  }

  function Max(a: int, b: int): (m: int)
    ensures m >= a && m >= b && (m == a || m == b)
  {
    if a >= b then a else b
  }

  /** `max(round(hosts * efficiency), 3)`: consolidation never goes below three hosts. */
  function EffectiveHosts(hosts: nat, efficiency: real): (e: int)
    ensures e >= MinEffectiveHosts
    ensures e >= RoundHalfEven(hosts as real * efficiency)
    ensures RoundHalfEven(hosts as real * efficiency) >= MinEffectiveHosts ==> e == RoundHalfEven(hosts as real * efficiency)
    ensures RoundHalfEven(hosts as real * efficiency) < MinEffectiveHosts ==> e == MinEffectiveHosts
  {
    Max(RoundHalfEven(hosts as real * efficiency), MinEffectiveHosts)
  }

  /** `max(units, minimum) * rate * years`: the licence is billed on at least the terms' minimum. */
  function Licensing(d: Data, t: Terms, years: int): real
    requires Rate(t).Some?
  {
    Max(LicenseUnits(d, t), MinUnits(t)) as real * Rate(t).value * years as real
  }

  /** The licence is billed on at least the terms' minimum and at least the units the estate has. */
  lemma LicensingFloor(d: Data, t: Terms, years: int)
    requires Rate(t).Some? && Rate(t).value >= 0.0 && years >= 0
    ensures Licensing(d, t, years) >= MinUnits(t) as real * Rate(t).value * years as real
    ensures Licensing(d, t, years) >= LicenseUnits(d, t) as real * Rate(t).value * years as real
  {
    var units := Max(LicenseUnits(d, t), MinUnits(t));
    var k := Rate(t).value * years as real;
    assert k >= 0.0;
    assert units as real * k >= MinUnits(t) as real * k;
    assert units as real * k >= LicenseUnits(d, t) as real * k;
  }

  /** The operations staff left after the platform's FTE reduction, over the period. */
  function ReducedFte(o: Overrides): real {
    FteCount(o) * (1.0 - FteReduction(o)) * FteCost(o) * Years(o) as real
  }

  /** Support as the platform's share of the licence. */
  function SupportCost(licensing: real, t: Terms): real {
    licensing * t.supportShare
  }

  /** The implementation cost, `total_hosts * 2500`. */
  function ImplementationCost(hosts: nat): real {
    hosts as real * ImplementationPerHost
  }

  /** `calculate_platform_tco` before rounding, for an estate consolidated onto `eff` hosts. */
  function PlatformOn(d: Data, p: Platform, o: Overrides, eff: int): (c: PlatformCosts)
    requires Computable(o)
    ensures var t := PlatformTerms(p, o);
            var h := PatchedHardware(o.hardware);
            && Rate(t).Some?
            && c.platform == p && c.years == Years(o) && c.effectiveHosts == eff
            && c.licensing == Licensing(d, t, Years(o))
            && c.support == SupportCost(c.licensing, t)
            && c.hardware == HardwareCost(eff as real, h, Years(o))
            && c.facilities == Facilities(eff as real, h, Years(o))
            && c.fte == ReducedFte(o)
            && c.implementation == ImplementationCost(Hosts(d))
    ensures c.total == c.licensing + c.support + c.hardware + c.facilities + c.fte + c.implementation
    ensures c.annualAverage * c.years as real == c.total
  {
    var t := PlatformTerms(p, o);
    DefaultsHaveRate(p, o.pricing.GetOr(NoPatch));
    var h := PatchedHardware(o.hardware);
    var licensing := Licensing(d, t, Years(o));
    var support := SupportCost(licensing, t);
    var hardware := HardwareCost(eff as real, h, Years(o));
    var facilities := Facilities(eff as real, h, Years(o));
    var fte := ReducedFte(o);
    var implementation := ImplementationCost(Hosts(d));
    var total := licensing + support + hardware + facilities + fte + implementation;
    PlatformCosts(p, licensing, support, hardware, facilities, fte, implementation, total, Years(o), AnnualAverage(total, Years(o)), eff)
  }

  /** `calculate_platform_tco` before rounding: the hardware and facilities are those of the consolidated estate. */
  function PlatformExact(d: Data, p: Platform, o: Overrides): (c: PlatformCosts)
    requires Computable(o)
    ensures c.effectiveHosts == EffectiveHosts(Hosts(d), Efficiency(o))
    ensures c == PlatformOn(d, p, o, c.effectiveHosts)
  {
    PlatformOn(d, p, o, EffectiveHosts(Hosts(d), Efficiency(o)))
  }

  /** The dict `calculate_platform_tco` returns: every amount rounded to cents. */
  function PlatformTco(d: Data, p: Platform, o: Overrides): (c: PlatformCosts)
    requires Computable(o)
    ensures var e := PlatformExact(d, p, o);
            && c.platform == p && c.years == e.years && c.effectiveHosts == e.effectiveHosts
            && HalfCent(c.licensing, e.licensing) && HalfCent(c.support, e.support)
            && HalfCent(c.hardware, e.hardware) && HalfCent(c.facilities, e.facilities) && HalfCent(c.fte, e.fte)
            && HalfCent(c.total, e.total) && HalfCent(c.annualAverage, e.annualAverage)
            && c.implementation == e.implementation
  {
    var e := PlatformExact(d, p, o);
    RoundImplementation(Hosts(d));
    PlatformCosts(p, Round2(e.licensing), Round2(e.support), Round2(e.hardware), Round2(e.facilities),
                  Round2(e.fte), Round2(e.implementation), Round2(e.total), e.years, Round2(e.annualAverage),
                  e.effectiveHosts)
  }

  /** `calculate_platform_tco` including its failure, which is that of the current-state calculator. */
  function CalculatePlatformTco(d: Data, p: Platform, o: Overrides): (r: Option<PlatformCosts>)
    ensures r.None? <==> Years(o) == 0 || PatchedHardware(o.hardware).refreshYears == 0.0
    ensures r.Some? ==> r.value == PlatformTco(d, p, o)
  {
    if Computable(o) then Some(PlatformTco(d, p, o)) else None
  }

  /** The implementation cost is a whole number of dollars, so rounding to cents keeps it. */
  lemma RoundImplementation(hosts: nat)
    ensures Round2(hosts as real * ImplementationPerHost) == hosts as real * ImplementationPerHost
  {
    Round2OfHundredths(hosts * 250000);
  }

  /** The licence floor: ten cores of VCF are billed as sixteen, 16 x 150 x 3 = 7200 over three years. */
  lemma VcfCoreFloor(d: Data)
    requires d.totalPhysicalCores == Some(10)
    ensures PlatformExact(d, Vcf, NoOverrides).licensing == 7200.0
  {
  }

  /** A pricing override replaces the default rate: the licence is computed from the override alone. */
  lemma OverrideReplacesRate(d: Data, p: Platform, o: Overrides, rate: real)
    requires Computable(o) && Defaults(p).model == PerCore
    requires o.pricing.Some? && o.pricing.value.perCore == Some(rate)
    ensures PlatformExact(d, p, o).licensing == Max(Cores(d), 16) as real * rate * Years(o) as real
  {
    assert Rate(PlatformTerms(p, o)) == Some(rate);
  }

  /** A larger estate never costs less to license. */
  lemma LicensingMonotone(d: Data, e: Data, t: Terms, years: int)
    requires Rate(t).Some? && Rate(t).value >= 0.0 && years >= 0
    requires LicenseUnits(d, t) <= LicenseUnits(e, t)
    ensures Licensing(d, t, years) <= Licensing(e, t, years)
  {
    var k := Rate(t).value * years as real;
    assert k >= 0.0;
    var a := Max(LicenseUnits(d, t), MinUnits(t)) as real;
    var b := Max(LicenseUnits(e, t), MinUnits(t)) as real;
    assert a * k <= b * k;
    assert Licensing(d, t, years) == a * k;
  }

  datatype Roi = Roi(savings: real, roiPct: real, paybackMonths: real, isPositive: bool)

  /** The payback figure reported when the move saves nothing. */
  const NoPayback: real := 999.0

  function MaxReal(a: real, b: real): (m: real)
    ensures m >= a && m >= b && (m == a || m == b)
  {
    if a >= b then a else b
  }

  /** `calculate_roi(current_tco, platform_tco)` on the two reported (rounded) dicts. */
  function CalculateRoi(current: CurrentCosts, platform: PlatformCosts): (r: Roi)
    ensures var savings := current.total - platform.total;
            && (r.isPositive <==> savings > 0.0)
            && savings - 0.005 <= r.savings <= savings + 0.005
            && var exact := savings / MaxReal(platform.total, 1.0) * 100.0;
               exact - 0.05 <= r.roiPct <= exact + 0.05
    ensures !r.isPositive ==> r.paybackMonths == NoPayback
    ensures r.isPositive ==>
              var monthly := (current.total - platform.total) / Max(current.years * 12, 1) as real;
              var exact := platform.implementation / MaxReal(monthly, 1.0);
              exact - 0.05 <= r.paybackMonths <= exact + 0.05
  {
    var savings := current.total - platform.total;
    var roiPct := Round1(savings / MaxReal(platform.total, 1.0) * 100.0);
    var monthly := savings / Max(current.years * 12, 1) as real;
    var payback := if monthly > 0.0 then Round1(platform.implementation / MaxReal(monthly, 1.0)) else NoPayback;
    Roi(Round2(savings), roiPct, payback, savings > 0.0)
  }

  /** Equal totals: no savings, no return, and the payback sentinel. */
  lemma EqualTotals(current: CurrentCosts, platform: PlatformCosts)
    requires current.total == platform.total
    ensures CalculateRoi(current, platform) == Roi(0.0, 0.0, NoPayback, false)
  {
    Round1OfTenths(0);
    Round2OfHundredths(0);
  }
}

=== FILE: text.dfy ===
/**
 * The string operations the parsers rely on: ASCII lower-casing, Unicode
 * whitespace stripping and substring containment (Python's `str.lower`, `str.strip` and
 * the `in` operator on strings).
 */
module Text {

  function LowerChar(c: char): char {
    if 'A' <= c <= 'Z' then (c as int + 32) as char else c
  }

  /** `s.lower()`, restricted to the ASCII letters. */
  function Lower(s: string): (r: string)
    ensures |r| == |s|
    ensures forall i :: 0 <= i < |s| ==> r[i] == LowerChar(s[i])
  {
    seq(|s|, i requires 0 <= i < |s| => LowerChar(s[i]))
  }

  /**
   * The characters Python's `str.isspace()` accepts, which `str.strip()`
   * removes: the ASCII controls TAB to CR and FS to US, space, NEL, no-break
   * space, the Ogham space mark, the typographic spaces U+2000 to U+200A, the
   * line and paragraph separators, the narrow no-break and medium mathematical
   * spaces, and the ideographic space.
   */
  predicate IsSpace(c: char) {
    || ('\t' <= c <= '\r') || ('\U{1C}' <= c <= ' ')
    || c == '\U{85}' || c == '\U{A0}' || c == '\U{1680}'
    || ('\U{2000}' <= c <= '\U{200A}') || c == '\U{2028}' || c == '\U{2029}'
    || c == '\U{202F}' || c == '\U{205F}' || c == '\U{3000}'
  }

  /** Drops leading whitespace; the result is a suffix of `s`. */
  function StripLeft(s: string): (r: string)
    ensures |r| <= |s| && r == s[|s| - |r|..]
    ensures forall k :: 0 <= k < |s| - |r| ==> IsSpace(s[k])
    ensures |r| > 0 ==> !IsSpace(r[0])
    decreases |s|
  {
    if |s| > 0 && IsSpace(s[0]) then StripLeft(s[1..]) else s
  }

  /** Drops trailing whitespace; the result is a prefix of `s`. */
  function StripRight(s: string): (r: string)
    ensures |r| <= |s| && r == s[..|r|]
    ensures forall k :: |r| <= k < |s| ==> IsSpace(s[k])
    ensures |r| > 0 ==> !IsSpace(r[|r| - 1])
    decreases |s|
  {
    if |s| > 0 && IsSpace(s[|s| - 1]) then StripRight(s[..|s| - 1]) else s
  }

  /**
   * `s.strip()`: `s` with its leading and trailing whitespace cut off, that is
   * the infix `s[i..i + |r|]` with only whitespace before and after it, which
   * neither starts nor ends with whitespace.
   */
  function Strip(s: string): (r: string)
    ensures |r| <= |s|
    ensures exists i :: CutAt(s, r, i)
    ensures |r| > 0 ==> !IsSpace(r[0]) && !IsSpace(r[|r| - 1])
    ensures (forall k :: 0 <= k < |s| ==> !IsSpace(s[k])) ==> r == s
  {
    var l := StripLeft(s);
    var r := StripRight(l);
    var i := |s| - |l|;
    assert CutAt(s, r, i);
    assert |r| > 0 ==> r[0] == l[0];
    r
  }

  /** `r` is `s[i..i + |r|]`, and everything of `s` before and after it is whitespace. */
  predicate CutAt(s: string, r: string, i: int) {
    && 0 <= i && i + |r| <= |s| && r == s[i..i + |r|]
    && (forall k :: 0 <= k < i ==> IsSpace(s[k]))
    && (forall k :: i + |r| <= k < |s| ==> IsSpace(s[k]))
  }

  /** `needle` occurs in `hay` starting at position `i`. */
  predicate OccursAt(hay: string, needle: string, i: nat) {
    i + |needle| <= |hay| && hay[i..i + |needle|] == needle
  }

  /** Python's `needle in hay` for strings. */
  predicate Contains(hay: string, needle: string) {
    exists i: nat :: i <= |hay| && OccursAt(hay, needle, i)
  }

  /**
   * Python's `any(x in hay for x in needles)`, and equally pandas'
   * `str.contains('|'.join(needles))` when no needle holds a regex metacharacter.
   */
  function ContainsAny(hay: string, needles: seq<string>): (r: bool)
    ensures r <==> exists k :: 0 <= k < |needles| && Contains(hay, needles[k])
  {
    if |needles| == 0 then false
    else Contains(hay, needles[0]) || ContainsAny(hay, needles[1..])
  }
}

=== FILE: units.dfy ===
/**
 * The memory-unit normaliser. A memory column may hold GiB, MiB or KiB; the
 * parsers guess the unit from the column's mean (over all rows, with
 * non-numeric cells counted as zero) and divide the column's sum accordingly,
 * then round to two decimals.
 */
module Units {
  import opened Workbook
  import opened Rounding

  const KiBPerGiB: real := 1048576.0
  const MiBPerGiB: real := 1024.0

  /** `values.mean() > t`: pandas' mean of an empty column is NaN, and NaN compares false. */
  predicate MeanAbove(values: seq<real>, t: real) {
    |values| > 0 && Sum(values) > t * |values| as real
  }

  /** The divisor for VM memory: MiB are assumed when the mean exceeds 1000, GiB otherwise. */
  function VmMemoryDivisor(values: seq<real>): (d: real)
    ensures d == MiBPerGiB <==> MeanAbove(values, 1000.0)
    ensures d == 1.0 <==> !MeanAbove(values, 1000.0)
  {
    if MeanAbove(values, 1000.0) then MiBPerGiB else 1.0
  }

  /** The newer parser's divisor for host memory: KiB above a mean of one million, MiB above 1000, else GiB. */
  function HostMemoryDivisor(values: seq<real>): (d: real)
    ensures d == KiBPerGiB <==> MeanAbove(values, 1000000.0)
    ensures d == MiBPerGiB <==> MeanAbove(values, 1000.0) && !MeanAbove(values, 1000000.0)
    ensures d == 1.0 <==> !MeanAbove(values, 1000.0)
  {
    if MeanAbove(values, 1000000.0) then KiBPerGiB
    else if MeanAbove(values, 1000.0) then MiBPerGiB
    else 1.0
  }

  /** The older parser's divisor for host memory: MiB above a mean of 500, else GiB. */
  function LegacyHostMemoryDivisor(values: seq<real>): (d: real)
    ensures d == MiBPerGiB <==> MeanAbove(values, 500.0)
    ensures d == 1.0 <==> !MeanAbove(values, 500.0)
  {
    if MeanAbove(values, 500.0) then MiBPerGiB else 1.0
  }

  /** `round(values.sum() / d, 2)`. */
  function Normalised(values: seq<real>, d: real): real
    requires d != 0.0
  {
    Round2(Sum(values) / d)
  }

  function VmMemoryGb(values: seq<real>): real {
    Normalised(values, VmMemoryDivisor(values))
  }

  function HostMemoryGb(values: seq<real>): real {
    Normalised(values, HostMemoryDivisor(values))
  }

  function LegacyHostMemoryGb(values: seq<real>): real {
    Normalised(values, LegacyHostMemoryDivisor(values))
  }

  /** A mean above a threshold stays above any lower threshold. */
  lemma MeanAboveLower(values: seq<real>, lo: real, hi: real)
    requires lo <= hi && MeanAbove(values, hi)
    ensures MeanAbove(values, lo)
  {
  }

  /** The mean of a column scaled by `c > 0` is above `c * t` exactly when the original mean is above `t`. */
  lemma {:induction false} MeanAboveScaled(gib: seq<real>, c: real, t: real)
    requires c > 0.0
    ensures MeanAbove(Scale(gib, c), c * t) <==> MeanAbove(gib, t)
  {
    SumScale(gib, c);
    var n := |gib| as real;
    if |gib| > 0 {
      assert c * Sum(gib) > c * t * n <==> Sum(gib) > t * n;
    }
  }

  /** Host memory reported in KiB, with a mean above one million, normalises back to the GiB total. */
  lemma HostMemoryFromKiB(gib: seq<real>)
    requires MeanAbove(Scale(gib, KiBPerGiB), 1000000.0)
    ensures HostMemoryGb(Scale(gib, KiBPerGiB)) == Round2(Sum(gib))
  {
    var scaled := Scale(gib, KiBPerGiB);
    assert HostMemoryDivisor(scaled) == KiBPerGiB;
    SumScale(gib, KiBPerGiB);
    NormalisedScaled(scaled, KiBPerGiB, Sum(gib));
  }

  /** Host memory reported in MiB, with a mean in (1000, 1000000], normalises back to the GiB total. */
  lemma HostMemoryFromMiB(gib: seq<real>)
    requires MeanAbove(Scale(gib, MiBPerGiB), 1000.0) && !MeanAbove(Scale(gib, MiBPerGiB), 1000000.0)
    ensures HostMemoryGb(Scale(gib, MiBPerGiB)) == Round2(Sum(gib))
  {
    var scaled := Scale(gib, MiBPerGiB);
    assert HostMemoryDivisor(scaled) == MiBPerGiB;
    SumScale(gib, MiBPerGiB);
    NormalisedScaled(scaled, MiBPerGiB, Sum(gib));
  }

  /** Host memory reported in GiB with a mean of at most 1000 is only rounded. */
  lemma HostMemoryFromGiB(gib: seq<real>)
    requires !MeanAbove(gib, 1000.0)
    ensures HostMemoryGb(gib) == Round2(Sum(gib))
  {
  }

  /** VM memory reported in MiB with a mean above 1000 normalises back to the GiB total. */
  lemma VmMemoryFromMiB(gib: seq<real>)
    requires MeanAbove(Scale(gib, MiBPerGiB), 1000.0)
    ensures VmMemoryGb(Scale(gib, MiBPerGiB)) == Round2(Sum(gib))
  {
    var scaled := Scale(gib, MiBPerGiB);
    assert VmMemoryDivisor(scaled) == MiBPerGiB;
    SumScale(gib, MiBPerGiB);
    NormalisedScaled(scaled, MiBPerGiB, Sum(gib));
  }

  /** A column whose sum is `c` times a total normalises, with divisor `c`, to the rounded total. */
  lemma NormalisedScaled(values: seq<real>, c: real, total: real)
    requires c != 0.0 && Sum(values) == c * total
    ensures Normalised(values, c) == Round2(total)
  {
    DivideBack(Sum(values), total, c);
  }

  /** Dividing a scaled amount by its scale gives the amount back. */
  lemma DivideBack(scaled: real, total: real, c: real)
    requires c != 0.0 && scaled == c * total
    ensures scaled / c == total
  {
  }

  /**
   * The heuristic is only a guess: one host with 768 GiB already in GiB is
   * read as MiB by the older parser (threshold 500) and reported as 0.75 GiB,
   * while the newer parser (threshold 1000) keeps it.
   */
  lemma LegacyMisreadsLargeGiB()
    ensures LegacyHostMemoryGb([768.0]) == 0.75
    ensures HostMemoryGb([768.0]) == 768.0
  {
    assert Sum([768.0]) == 768.0;
    Round2OfHundredths(75);
    Round2OfHundredths(76800);
  }

  /** The newer parser has the same blind spot one tier up: a 1536 GiB host reads as 1.5 GiB. */
  lemma NewerMisreadsVeryLargeGiB()
    ensures HostMemoryGb([1536.0]) == 1.5
  {
    assert Sum([1536.0]) == 1536.0;
    Round2OfHundredths(150);
  }
}

=== FILE: validation.dfy ===
/**
 * The input validators: hard errors that would break a calculation, advisory
 * warnings that may skew one, and the discovery-completion percentage. Every
 * message is reduced to a tag carrying the figure it quotes.
 */
module Validation {
  import opened Wrappers
  import opened Rounding
  import opened Inventory
  import opened Pricing
  import opened Quotes
  import opened Tco

  datatype ParsedError = NoVms | NoHosts

  datatype ParsedWarning =
    | HostsMissing
    | RatioTooHigh(ratio: real)
    | RatioMissing
    | NoStorage
    | MostlyPoweredOff
    | NoOsData

  datatype Findings<E, W> = Findings(errors: seq<E>, warnings: seq<W>)

  /** `[x]` when the condition holds, `[]` otherwise. */
  function When<T>(condition: bool, x: T): (r: seq<T>)
    ensures x in r <==> condition
    ensures |r| == if condition then 1 else 0
  {
    if condition then [x] else []
  }

  /** The hard errors of `validate_parsed_data`: no VMs, no hosts. */
  function ParsedErrors(d: Data): (r: seq<ParsedError>)
    ensures NoVms in r <==> d.totalVms.GetOr(0) == 0
    ensures NoHosts in r <==> d.totalHosts.GetOr(0) == 0
    ensures |r| <= 2
  {
    When(d.totalVms.GetOr(0) == 0, NoVms) + When(d.totalHosts.GetOr(0) == 0, NoHosts)
  }

  /** The warnings about the host data: hosts missing, an extreme ratio, a ratio that could not be computed. */
  function HostWarnings(d: Data): (r: seq<ParsedWarning>)
    ensures var ratio := d.vcpuPcpuRatio.GetOr(0.0);
            && (HostsMissing in r <==> d.totalVms.GetOr(0) > 0 && d.totalHosts.GetOr(0) == 0)
            && (RatioTooHigh(ratio) in r <==> ratio > 16.0)
            && (RatioMissing in r <==> ratio == 0.0 && d.totalVcpu.GetOr(0) > 0 && d.totalPhysicalCores.GetOr(0) > 0)
            && |r| <= 3
  {
    var ratio := d.vcpuPcpuRatio.GetOr(0.0);
    When(d.totalVms.GetOr(0) > 0 && d.totalHosts.GetOr(0) == 0, HostsMissing)
    + When(ratio > 16.0, RatioTooHigh(ratio))
    + When(ratio == 0.0 && d.totalVcpu.GetOr(0) > 0 && d.totalPhysicalCores.GetOr(0) > 0, RatioMissing)
  }

  /** The warnings about the VM data: no storage, mostly powered off, no OS detected. */
  function VmWarnings(d: Data): (r: seq<ParsedWarning>)
    ensures var vms := d.totalVms.GetOr(0);
            && (NoStorage in r <==> d.totalStorageGb.GetOr(0.0) == 0.0)
            && (MostlyPoweredOff in r <==> d.poweredOffVms.GetOr(0) as real > vms as real * 0.5)
            && (NoOsData in r <==> vms > 0 && d.windowsVms.GetOr(0) == 0 && d.linuxVms.GetOr(0) == 0)
            && |r| <= 3
  {
    var vms := d.totalVms.GetOr(0);
    When(d.totalStorageGb.GetOr(0.0) == 0.0, NoStorage)
    + When(d.poweredOffVms.GetOr(0) as real > vms as real * 0.5, MostlyPoweredOff)
    + When(vms > 0 && d.windowsVms.GetOr(0) == 0 && d.linuxVms.GetOr(0) == 0, NoOsData)
  }

  /** `validate_parsed_data(parsed)`: every absent key reads as 0. */
  function ValidateParsed(d: Data): (r: Findings<ParsedError, ParsedWarning>)
    ensures r.errors == ParsedErrors(d)
    ensures r.warnings == HostWarnings(d) + VmWarnings(d)
  {
    Findings(ParsedErrors(d), HostWarnings(d) + VmWarnings(d))
  }

  /** The host-missing warning only ever comes with the no-hosts error. */
  lemma HostsWarningHasError(d: Data)
    ensures HostsMissing in ValidateParsed(d).warnings ==> NoHosts in ValidateParsed(d).errors
  {
  }

  /** A record with no recognised sheet: both errors, and the storage warning only. */
  lemma EmptyRecordFindings()
    ensures ValidateParsed(Empty) == Findings([NoVms, NoHosts], [NoStorage])
  {
  }

  /**
   * The "could not calculate" warning can fire although the ratio was
   * calculated: one vCPU on 1000 cores rounds to a ratio of 0.
   */
  lemma RatioRoundsToZero()
    ensures var d := WithRatio(Empty.(totalVcpu := Some(1), totalPhysicalCores := Some(1000), totalVms := Some(1)));
            d.vcpuPcpuRatio == Some(0.0) && RatioMissing in ValidateParsed(d).warnings
  {
    assert RoundHalfEven(1.0 / 1000.0 * 100.0) == 0;
  }

  datatype TcoError = FteCountInvalid | YearsInvalid

  datatype TcoWarning = FteCostLow | FteCostHigh | HostCostLow | HostCostHigh

  /** The analysis periods the TCO page accepts. */
  const AllowedYears: set<int> := {1, 2, 3, 5}

  /** `validate_tco_inputs(fte_count, fte_cost, host_cost, years)`. */
  function ValidateTco(fteCount: real, fteCost: real, hostCost: real, years: int): (r: Findings<TcoError, TcoWarning>)
    ensures r.errors == [] <==> fteCount > 0.0 && years in AllowedYears
    ensures FteCountInvalid in r.errors <==> fteCount <= 0.0
    ensures YearsInvalid in r.errors <==> years !in AllowedYears
    ensures FteCostLow in r.warnings <==> fteCost < 50000.0
    ensures FteCostHigh in r.warnings <==> fteCost > 500000.0
    ensures HostCostLow in r.warnings <==> hostCost < 5000.0
    ensures HostCostHigh in r.warnings <==> hostCost > 200000.0
    ensures !(FteCostLow in r.warnings && FteCostHigh in r.warnings)
    ensures !(HostCostLow in r.warnings && HostCostHigh in r.warnings)
  {
    Findings(
      When(fteCount <= 0.0, FteCountInvalid) + When(years !in AllowedYears, YearsInvalid),
      When(fteCost < 50000.0, FteCostLow) + When(fteCost > 500000.0, FteCostHigh)
      + When(hostCost < 5000.0, HostCostLow) + When(hostCost > 200000.0, HostCostHigh))
  }

  /** The calculators' own defaults pass the TCO checks without a warning. */
  lemma DefaultsPass()
    ensures ValidateTco(FteCount(NoOverrides), FteCost(NoOverrides), DefaultHardware.hostCost, Years(NoOverrides)) == Findings([], [])
  {
  }

  /** Assumptions that pass the TCO checks never divide by a zero period in the calculators. */
  lemma PassingInputsAreComputable(o: Overrides, hostCost: real)
    requires o.hardware.refreshYears.None?
    ensures ValidateTco(FteCount(o), FteCost(o), hostCost, Years(o)).errors == [] ==> Computable(o)
  {
  }

  datatype QuoteIssue = ContractLow | ContractHigh | PerCoreLow | PerCoreHigh | PerNodeLow | PerNodeHigh

  datatype QuoteWarning = QuoteWarning(platform: Platform, issue: QuoteIssue)

  /** The warnings one quote raises; a quote of 0 is skipped. */
  function QuoteWarnings(p: Platform, q: Quote): (r: seq<QuoteWarning>)
    ensures q.value == 0.0 ==> r == []
    ensures |r| <= 1
    ensures forall i :: 0 <= i < |r| ==> r[i].platform == p
    ensures IsContractTotal(q) && q.value != 0.0 ==>
              (QuoteWarning(p, ContractLow) in r <==> q.value < 10000.0)
              && (QuoteWarning(p, ContractHigh) in r <==> q.value > 50000000.0)
    ensures !IsContractTotal(q) && q.value != 0.0 && p != Nutanix ==>
              (QuoteWarning(p, PerCoreLow) in r <==> q.value < 10.0)
              && (QuoteWarning(p, PerCoreHigh) in r <==> q.value > 1000.0)
    ensures !IsContractTotal(q) && q.value != 0.0 && p == Nutanix ==>
              (QuoteWarning(p, PerNodeLow) in r <==> q.value < 1000.0)
              && (QuoteWarning(p, PerNodeHigh) in r <==> q.value > 100000.0)
  {
    var v := q.value;
    if v == 0.0 then []
    else if IsContractTotal(q) then
      When(v < 10000.0, QuoteWarning(p, ContractLow)) + When(v > 50000000.0, QuoteWarning(p, ContractHigh))
    else if p != Nutanix then
      When(v < 10.0, QuoteWarning(p, PerCoreLow)) + When(v > 1000.0, QuoteWarning(p, PerCoreHigh))
    else
      When(v < 1000.0, QuoteWarning(p, PerNodeLow)) + When(v > 100000.0, QuoteWarning(p, PerNodeHigh))
  }

  /** `validate_quote_inputs(quotes, parsed)` over the quotes in insertion order: warnings only, never an error. */
  function ValidateQuotes(quotes: seq<(Platform, Quote)>): (r: seq<QuoteWarning>)
    ensures |r| <= |quotes|
    ensures forall i, w :: 0 <= i < |quotes| && w in QuoteWarnings(quotes[i].0, quotes[i].1) ==> w in r
    ensures forall w :: w in r ==> exists i :: 0 <= i < |quotes| && w in QuoteWarnings(quotes[i].0, quotes[i].1)
    ensures forall w :: w in r ==> exists i :: 0 <= i < |quotes| && quotes[i].0 == w.platform && quotes[i].1.value != 0.0
  {
    if |quotes| == 0 then []
    else
      var head := QuoteWarnings(quotes[0].0, quotes[0].1);
      var rest := ValidateQuotes(quotes[1..]);
      assert forall i :: 1 <= i < |quotes| ==> quotes[i] == quotes[1..][i - 1];
      assert forall w :: w in rest ==> exists i :: 1 <= i < |quotes| && w in QuoteWarnings(quotes[i].0, quotes[i].1) by {
        forall w | w in rest
          ensures exists i :: 1 <= i < |quotes| && w in QuoteWarnings(quotes[i].0, quotes[i].1)
        {
          var i :| 0 <= i < |quotes[1..]| && w in QuoteWarnings(quotes[1..][i].0, quotes[1..][i].1);
          assert quotes[i + 1] == quotes[1..][i];
        }
      }
      head + rest
  }

  /** The key fields the completion percentage counts. */
  const KeyFields: seq<string> := [
    "primary_driver", "app_strategy", "kubernetes", "current_hypervisor",
    "microsoft_investment", "team_skillset", "change_appetite", "vmware_renewal"]

  /** `discovery.get(f) and discovery.get(f) != '-- Select --'`. */
  predicate IsAnswered(discovery: map<string, string>, field: string) {
    field in discovery && discovery[field] != "" && discovery[field] != "-- Select --"
  }

  function AnsweredAmong(discovery: map<string, string>, fields: seq<string>): (n: nat)
    ensures n <= |fields|
  {
    if |fields| == 0 then 0
    else (if IsAnswered(discovery, fields[0]) then 1 else 0) + AnsweredAmong(discovery, fields[1..])
  }

  /** Every field answered, and only then, gives the full count. */
  lemma {:induction false} AllAnswered(discovery: map<string, string>, fields: seq<string>)
    ensures AnsweredAmong(discovery, fields) == |fields| <==> forall i :: 0 <= i < |fields| ==> IsAnswered(discovery, fields[i])
  {
    if |fields| > 0 {
      AllAnswered(discovery, fields[1..]);
      assert forall i :: 1 <= i < |fields| ==> fields[i] == fields[1..][i - 1];
    }
  }

  datatype DiscoveryWarning = NotCompleted | BarelyComplete(percent: int) | MostlyComplete(percent: int)

  /** `round(answered / 8 * 100)`. */
  function CompletionPercent(answered: nat): (pct: int)
    requires answered <= 8
    ensures 0 <= pct <= 100
    ensures answered as real * 12.5 - 0.5 <= pct as real <= answered as real * 12.5 + 0.5
    ensures pct >= 80 <==> answered >= 7
    ensures pct < 50 <==> answered <= 3
  {
    RoundHalfEven(answered as real / 8.0 * 100.0)
  }

  /** Half-to-even rounding: one answer in eight is 12.5%, reported as 12. */
  lemma OneInEight()
    ensures CompletionPercent(1) == 12
  {
    assert 1 as real / 8.0 * 100.0 == 12.5;
  }

  /** `validate_discovery(discovery)`: an empty dict is not completed at all. */
  function ValidateDiscovery(discovery: map<string, string>): (r: (int, seq<DiscoveryWarning>))
    ensures discovery == map[] ==> r == (0, [NotCompleted])
    ensures 0 <= r.0 <= 100
    ensures |r.1| <= 1
    ensures discovery != map[] ==> (r.1 == [] <==> r.0 >= 80)
    ensures discovery != map[] ==> (r.1 == [] <==> AnsweredAmong(discovery, KeyFields) >= 7)
    ensures discovery != map[] ==> r.0 == CompletionPercent(AnsweredAmong(discovery, KeyFields))
    ensures discovery != map[] ==> (r.1 == [BarelyComplete(r.0)] <==> r.0 < 50)
    ensures discovery != map[] ==> (r.1 == [MostlyComplete(r.0)] <==> 50 <= r.0 < 80)
  {
    if discovery == map[] then (0, [NotCompleted])
    else
      var pct := CompletionPercent(AnsweredAmong(discovery, KeyFields));
      (pct, if pct < 50 then [BarelyComplete(pct)] else if pct < 80 then [MostlyComplete(pct)] else [])
  }

  /** A questionnaire with every key field answered is 100% complete and raises nothing. */
  lemma FullyAnswered(discovery: map<string, string>)
    requires forall i :: 0 <= i < |KeyFields| ==> IsAnswered(discovery, KeyFields[i])
    ensures ValidateDiscovery(discovery) == (100, [])
  {
    AllAnswered(discovery, KeyFields);
    assert KeyFields[0] in discovery;
    assert 8 as real / 8.0 * 100.0 == 100.0;
  }
}

=== FILE: workbook.dfy ===
/**
 * A spreadsheet workbook as the parsers see it through pandas: named sheets,
 * each a header row of column names and data rows of cells, together with the
 * pandas column operations the parsers apply (numeric coercion, sums, counts).
 */
module Workbook {
  import opened Text

  /** One cell: a number, a piece of text, or an empty cell (pandas NaN). */
  datatype Cell = Num(x: real) | Str(s: string) | Blank

  /** A sheet; its column headers are always text (a numeric or date header is not modelled). */
  datatype Sheet = Sheet(name: string, columns: seq<string>, rows: seq<seq<Cell>>)

  datatype Book = Book(sheets: seq<Sheet>)

  /** What opening the uploaded file yields: a workbook, or the reason it cannot be read. */
  datatype WorkbookFile = Readable(book: Book) | Unreadable(reason: string)

  function SheetNames(b: Book): (r: seq<string>)
    ensures |r| == |b.sheets|
    ensures forall i :: 0 <= i < |r| ==> r[i] == b.sheets[i].name
  {
    seq(|b.sheets|, i requires 0 <= i < |b.sheets| => b.sheets[i].name)
  }

  /** `xl.parse(name)`: the (first) sheet carrying that name. */
  function GetSheet(b: Book, name: string): (s: Sheet)
    requires name in SheetNames(b)
    ensures s in b.sheets && s.name == name
    decreases |b.sheets|
  {
    if b.sheets[0].name == name then b.sheets[0]
    else GetSheet(Book(b.sheets[1..]), name)
  }

  /** `df.columns = df.columns.str.strip()`. */
  function StripHeaders(s: Sheet): (r: Sheet)
    ensures r.name == s.name && r.rows == s.rows && |r.columns| == |s.columns|
    ensures forall i :: 0 <= i < |s.columns| ==> r.columns[i] == Strip(s.columns[i])
  {
    s.(columns := seq(|s.columns|, i requires 0 <= i < |s.columns| => Strip(s.columns[i])))
  }

  function IndexOf(names: seq<string>, name: string): (k: nat)
    requires name in names
    ensures k < |names| && names[k] == name
    ensures forall j :: 0 <= j < k ==> names[j] != name
  {
    if names[0] == name then 0 else 1 + IndexOf(names[1..], name)
  }

  /** `k` is the position of the first header equal to `name`. */
  predicate FirstHeader(columns: seq<string>, name: string, k: int) {
    0 <= k < |columns| && columns[k] == name && forall j :: 0 <= j < k ==> columns[j] != name
  }

  /** The cell of a row at position `k`; a row too short to reach it reads as empty. */
  function CellAt(row: seq<Cell>, k: nat): Cell {
    if k < |row| then row[k] else Blank
  }

  /** `df[name]`: the named column, one cell per data row (short rows read as empty). */
  function Column(s: Sheet, name: string): (r: seq<Cell>)
    requires name in s.columns
    ensures |r| == |s.rows|
    ensures forall i, k :: 0 <= i < |s.rows| && FirstHeader(s.columns, name, k) ==> r[i] == CellAt(s.rows[i], k)
  {
    var k := IndexOf(s.columns, name);
    seq(|s.rows|, i requires 0 <= i < |s.rows| => CellAt(s.rows[i], k))
  }

  /** `pd.to_numeric(cell, errors='coerce')` followed by `fillna(0)`. */
  function Numeric(c: Cell): real {
    match c
    case Num(x) => x
    case _ => 0.0
  }

  function NumericValues(cells: seq<Cell>): (r: seq<real>)
    ensures |r| == |cells|
    ensures forall i :: 0 <= i < |cells| ==> r[i] == Numeric(cells[i])
  {
    seq(|cells|, i requires 0 <= i < |cells| => Numeric(cells[i]))
  }

  function Sum(xs: seq<real>): real {
    if |xs| == 0 then 0.0 else xs[0] + Sum(xs[1..])
  }

  /** Every value multiplied by `c` (the same quantities expressed in a unit `c` times smaller). */
  function Scale(xs: seq<real>, c: real): (ys: seq<real>)
    ensures |ys| == |xs|
    ensures forall i :: 0 <= i < |xs| ==> ys[i] == c * xs[i]
  {
    if |xs| == 0 then [] else [c * xs[0]] + Scale(xs[1..], c)
  }

  /** The sum of a scaled sequence is the scaled sum. */
  lemma {:induction false} SumScale(xs: seq<real>, c: real)
    ensures Sum(Scale(xs, c)) == c * Sum(xs)
  {
    if |xs| > 0 {
      SumScale(xs[1..], c);
      assert Scale(xs, c)[1..] == Scale(xs[1..], c);
    }
  }

  /** The sum of non-negative values is non-negative. */
  lemma {:induction false} SumNonNegative(xs: seq<real>)
    requires forall i :: 0 <= i < |xs| ==> 0.0 <= xs[i]
    ensures 0.0 <= Sum(xs)
  {
    if |xs| > 0 {
      SumNonNegative(xs[1..]);
    }
  }

  /** `pd.to_numeric(col, errors='coerce').fillna(0).sum()`. */
  function CoercedSum(cells: seq<Cell>): real {
    Sum(NumericValues(cells))
  }

  /**
   * `col.sum()` on a column read without coercion: empty cells are skipped and
   * any text cell makes pandas raise a TypeError, reported here as `false`.
   */
  predicate AllNumeric(cells: seq<Cell>) {
    forall i :: 0 <= i < |cells| ==> !cells[i].Str?
  }

  /** pandas' `.str` accessor only works on a column of object dtype: one with text in it, or no rows. */
  predicate StrAccessorOk(cells: seq<Cell>) {
    |cells| == 0 || exists i :: 0 <= i < |cells| && cells[i].Str?
  }

  /** The positions of the cells satisfying `p`. */
  function Where(cells: seq<Cell>, p: Cell -> bool): set<int> {
    set i | 0 <= i < |cells| && p(cells[i])
  }

  /** The number of cells satisfying `p`, as a pandas boolean mask's `.sum()`: one per true row. */
  function CountWhere(cells: seq<Cell>, p: Cell -> bool): (n: nat)
    ensures n <= |cells|
  {
    if |cells| == 0 then 0
    else CountWhere(cells[..|cells| - 1], p) + (if p(cells[|cells| - 1]) then 1 else 0)
  }

  /** Summing the mask counts exactly the positions where it holds. */
  lemma {:induction false} CountWhereIsSize(cells: seq<Cell>, p: Cell -> bool)
    ensures CountWhere(cells, p) == |Where(cells, p)|
  {
    if |cells| > 0 {
      var n := |cells| - 1;
      var init := cells[..n];
      CountWhereIsSize(init, p);
      assert Where(init, p) == set i | 0 <= i < n && p(cells[i]);
      if p(cells[n]) {
        assert Where(cells, p) == Where(init, p) + {n};
      } else {
        assert Where(cells, p) == Where(init, p);
      }
    }
  }

  /** A weaker condition never counts fewer cells. */
  lemma {:induction false} CountWhereMonotone(cells: seq<Cell>, p: Cell -> bool, q: Cell -> bool)
    requires forall c :: p(c) ==> q(c)
    ensures CountWhere(cells, p) <= CountWhere(cells, q)
  {
    if |cells| > 0 {
      CountWhereMonotone(cells[..|cells| - 1], p, q);
    }
  }

  /** Two conditions no cell meets together never count a cell twice. */
  lemma {:induction false} CountWhereDisjoint(cells: seq<Cell>, p: Cell -> bool, q: Cell -> bool)
    requires forall c :: !(p(c) && q(c))
    ensures CountWhere(cells, p) + CountWhere(cells, q) <= |cells|
  {
    if |cells| > 0 {
      CountWhereDisjoint(cells[..|cells| - 1], p, q);
    }
  }

  /** `pd.to_numeric(cell, errors='coerce') >= t`: a NaN compares false. */
  predicate AtLeast(c: Cell, t: real) {
    c.Num? && c.x >= t
  }

  /** `(pd.to_numeric(col, errors='coerce') >= t).sum()`: the number of numeric cells of at least `t`. */
  function CountAtLeast(cells: seq<Cell>, t: real): (n: nat)
    ensures n == |set i | 0 <= i < |cells| && AtLeast(cells[i], t)|
    ensures n <= |cells|
  {
    var p := c => AtLeast(c, t);
    CountWhereIsSize(cells, p);
    assert Where(cells, p) == set i | 0 <= i < |cells| && AtLeast(cells[i], t);
    CountWhere(cells, p)
  }

  /** Raising the threshold never increases the count. */
  lemma CountAtLeastAntitone(cells: seq<Cell>, lo: real, hi: real)
    requires lo <= hi
    ensures CountAtLeast(cells, hi) <= CountAtLeast(cells, lo)
  {
    CountWhereMonotone(cells, c => AtLeast(c, hi), c => AtLeast(c, lo));
  }

  /** The text a cell shows once lower-cased through `.str.lower()`, if it is text at all. */
  function Word(c: Cell, fold: bool): string
    requires c.Str?
  {
    if fold then Lower(c.s) else c.s
  }

  /** The cell is text and its (optionally lower-cased) text is one of `words`. */
  predicate IsWord(c: Cell, words: set<string>, fold: bool) {
    c.Str? && Word(c, fold) in words
  }

  /** `col.isin(words).sum()`: the number of text cells whose (optionally lower-cased) text is one of `words`. */
  function CountWords(cells: seq<Cell>, words: set<string>, fold: bool): (n: nat)
    ensures n == |set i | 0 <= i < |cells| && IsWord(cells[i], words, fold)|
    ensures n <= |cells|
  {
    var p := c => IsWord(c, words, fold);
    CountWhereIsSize(cells, p);
    assert Where(cells, p) == set i | 0 <= i < |cells| && IsWord(cells[i], words, fold);
    CountWhere(cells, p)
  }

  /** Cells matching two disjoint word sets are never counted twice. */
  lemma CountWordsDisjoint(cells: seq<Cell>, a: set<string>, b: set<string>, fold: bool)
    requires a !! b
    ensures CountWords(cells, a, fold) + CountWords(cells, b, fold) <= |cells|
  {
    CountWhereDisjoint(cells, c => IsWord(c, a, fold), c => IsWord(c, b, fold));
  }

  /** The text values of a column, in row order (what `value_counts` tallies). */
  function Labels(cells: seq<Cell>): (r: seq<string>)
    ensures |r| <= |cells|
  {
    if |cells| == 0 then []
    else Labels(cells[..|cells| - 1]) + (if cells[|cells| - 1].Str? then [cells[|cells| - 1].s] else [])
  }

  /** Each text occurs among the labels once per cell holding it. */
  lemma {:induction false} LabelsTally(cells: seq<Cell>, k: string)
    ensures multiset(Labels(cells))[k] == |set i | 0 <= i < |cells| && cells[i] == Str(k)|
  {
    var p := c => c == Str(k);
    LabelsCount(cells, k);
    CountWhereIsSize(cells, p);
    assert Where(cells, p) == set i | 0 <= i < |cells| && cells[i] == Str(k);
  }

  lemma {:induction false} LabelsCount(cells: seq<Cell>, k: string)
    ensures multiset(Labels(cells))[k] == CountWhere(cells, c => c == Str(k))
  {
    if |cells| > 0 {
      LabelsCount(cells[..|cells| - 1], k);
    }
  }

  /** The number of labels whose lower-cased text contains one of `needles`. */
  function CountContaining(labels: seq<string>, needles: seq<string>): (n: nat)
    ensures n <= |labels|
  {
    if |labels| == 0 then 0
    else CountContaining(labels[..|labels| - 1], needles)
         + (if ContainsAny(Lower(labels[|labels| - 1]), needles) then 1 else 0)
  }

  /** The labels whose lower-cased text contains one of `needles`, in order. */
  function Containing(labels: seq<string>, needles: seq<string>): (r: seq<string>)
    ensures |r| == CountContaining(labels, needles)
    ensures forall i :: 0 <= i < |r| ==> r[i] in labels && ContainsAny(Lower(r[i]), needles)
  {
    if |labels| == 0 then []
    else
      var init := labels[..|labels| - 1];
      var last := labels[|labels| - 1];
      var r := Containing(init, needles);
      assert forall x :: x in init ==> x in labels;
      r + (if ContainsAny(Lower(last), needles) then [last] else [])
  }

  /** A text cell whose lower-cased text contains one of `needles`. */
  predicate TextContains(c: Cell, needles: seq<string>) {
    c.Str? && ContainsAny(Lower(c.s), needles)
  }

  /** Counting matching labels is counting the matching text cells of the column. */
  lemma CountContainingCells(cells: seq<Cell>, needles: seq<string>)
    ensures CountContaining(Labels(cells), needles) == |set i | 0 <= i < |cells| && TextContains(cells[i], needles)|
  {
    var p := c => TextContains(c, needles);
    LabelsContaining(cells, needles);
    CountWhereIsSize(cells, p);
    assert Where(cells, p) == set i | 0 <= i < |cells| && TextContains(cells[i], needles);
  }

  lemma {:induction false} LabelsContaining(cells: seq<Cell>, needles: seq<string>)
    ensures CountContaining(Labels(cells), needles) == CountWhere(cells, c => TextContains(c, needles))
  {
    if |cells| > 0 {
      var init := cells[..|cells| - 1];
      var last := cells[|cells| - 1];
      LabelsContaining(init, needles);
      if last.Str? {
        assert Labels(cells)[..|Labels(cells)| - 1] == Labels(init);
      } else {
        assert Labels(cells) == Labels(init);
      }
    }
  }

  /** `value_counts().to_dict()`: each distinct label mapped to its number of occurrences. */
  function ValueCounts(labels: seq<string>): (m: map<string, nat>)
    ensures forall k :: k in m <==> k in labels
    ensures forall k :: k in m ==> m[k] == multiset(labels)[k]
  {
    if |labels| == 0 then map[]
    else
      var rest := ValueCounts(labels[1..]);
      assert labels == [labels[0]] + labels[1..];
      rest[labels[0] := (if labels[0] in rest then rest[labels[0]] else 0) + 1]
  }

  /** The distinct non-empty values of a column. */
  function Values(cells: seq<Cell>): (vs: set<Cell>)
    ensures forall c :: c in vs <==> c in cells && !c.Blank?
  {
    if |cells| == 0 then {}
    else (if cells[0].Blank? then {} else {cells[0]}) + Values(cells[1..])
  }

  /** `nunique()`: the number of distinct non-empty values, never more than the number of rows. */
  function Nunique(cells: seq<Cell>): (n: nat)
    ensures n <= |cells|
    ensures n == 0 <==> forall i :: 0 <= i < |cells| ==> cells[i].Blank?
    ensures n == |set c | c in cells && !c.Blank?|
  {
    ValuesBound(cells);
    assert Values(cells) == set c | c in cells && !c.Blank?;
    |Values(cells)|
  }

  lemma {:induction false} ValuesBound(cells: seq<Cell>)
    ensures |Values(cells)| <= |cells|
  {
    if |cells| > 0 {
      ValuesBound(cells[1..]);
    }
  }
}

=== FILE: wrappers.dfy ===
/** Optional values: `None` stands for a key that is absent from a Python dict. */
module Wrappers {

  datatype Option<+T> = None | Some(value: T) {

    /** The value, or `default` when absent (Python's `d.get(key, default)`). */
    function GetOr(default: T): T {
      match this
      case Some(v) => v
      case None => default
    }
  }
}
